=== FILE: README.md ===
# Inventory back-office core, modelled in Dafny

This project models the core of a multi-tenant inventory back office.

**Access control**
- The permissions guard decides whether a user may call an endpoint.
- Permission codes have the form `MODULE:resource:action:scope`.
- A held code may use `*` in any of its four segments.
- The codes `*:*:*:*` and `ADM:*:*:*` grant everything.
- A user's permissions are collected from their roles and from direct grants.

**Administration services**
- Roles, permissions and users are managed by services that the guard reads.

**Items**
- The items service converts quantities between an item's units. Each conversion carries a factor to the item's base unit.

**Status registry**
- The registry holds status groups and statuses.
- A group allows at most one default status.
- A system group or status may not have its code changed or be deleted.

**Warehouses**
- The warehouses service manages warehouses and their storage locations.
- A location's path is built from its aisle, rack, shelf and bin.
- Nothing holding stock may be removed.
- Occupancy statistics are computed from the locations and stock levels.

**How the model works**
- Every database table is a sequence of rows in row order.
- A `findUnique` or `findFirst` is the first matching row (`Common.Find`).
- A service call is a pure function from the old tables to `Result<new tables>`. An error is one of the kinds of exception the service throws.
- Values the services take from outside the process are parameters:
  - a fresh id (`newId`, required not to be in use);
  - the clock (`now`);
  - a password hash (`passwordHash`, `newHash`);
  - the bcrypt comparison (`verify`).
- Validation that the request DTOs enforce becomes a precondition, for example a non-empty code or a factor of at least 0.00000001. Other validation is not modelled.
- Prisma `Decimal` and JavaScript numbers are `real`, without rounding.
- The invariants the database keeps are predicates, for example distinct primary keys. The lemmas that need them take them as preconditions.

**Modules**

| file | module | contents |
|---|---|---|
| common.dfy | `Common` | `Option`, `Result`, error kinds, first-match lookup, filter and count |
| strings.dfy | `Strings` | `split` and `join` on one separator, with their round trips |
| codes.dfy | `PermissionCodes` | segments of a permission code |
| admin_store.dfy | `AdminStore` | rows of the access-control tables |
| guard.dfy | `PermissionsGuard` | the guard |
| roles.dfy | `Roles` | the roles service |
| permissions_service.dfy | `PermissionCatalog` | the permissions service |
| users.dfy | `Users` | the users service |
| sorting.dfy | `Sorting` | `orderBy` as an insertion sort |
| paging.dfy | `Paging` | `skip`/`take` and the page count |
| items.dfy | `Items` | items and unit conversion |
| status.dfy | `StatusRegistry` | status groups and statuses |
| warehouses.dfy | `Warehouses` | warehouses and locations |

**Behaviour of the code that the model keeps**
- A status group with statuses cannot be deleted, even if all of them are deactivated. `deleteGroup` counts every status row of the group, active or not. A group is therefore deletable only if it never had a status. `StatusRegistry.DeletedStatusStillBlocksGroup` states this.
- `updateGroup` writes the request body as it comes. The body is validated as the group update DTO, so every group field it carries reaches the row: code, name, description, module, entity type and the two flags. A group moved to another module leaves that module's listing (`StatusRegistry.UpdateGroupMovesModule`).
- The role update writes the request body as it comes. It does not check a new code first and does not recompute the level when the parent changes. A code another role of the tenant holds is rejected by the store's unique key (tenant, code), modelled as the error `UniqueViolation`.
- `deleteStatus` does not look at the `isDeletable` flag.
- `changePassword` looks up the user without the `deletedAt` filter, so a soft-deleted user can still change their password (`Users.DeletedUserCanChangePassword`).
- `convertQuantity` picks the first active conversion of an item and unit, whatever its purpose.
- `assignPermissions` and `assignRoles` delete the old links and then write the new ones in a single `createMany`, without `skipDuplicates` and outside a transaction. A repeated id hits the link table's key, and an id with no row hits the foreign key. Either makes the write fail after the old links are gone. `Roles.AssignPermissionsEffect` and `Users.AssignRolesEffect` state the store that remains.
- A role's `parentRoleId` is a relation (`parentRole`), so creating or updating a role with a parent id that names no role is rejected by the foreign key. This is modelled as the error `ForeignKeyViolation`. The level computation's "no parent row" branch is therefore reached only when the write fails.
- `getStockInAllUnits` tests `!item.currentStock`. A Prisma `Decimal` is an object and is truthy even at zero, so only a missing stock value counts as "no stock", and a stock of zero yields lines of zero.
- `updateStatus` does not check the new code for a collision first. The store's unique key (group, code) rejects it, and that is modelled as the error `UniqueViolation`. When the same request also makes the row the default, the group's other defaults are cleared first in a write of their own. They stay cleared after the update fails. `StatusRegistry.UpdateStatusEffect` states the registry that remains.

## Model

| member | source | states |
|---|---|---|
| PermissionsGuard.MatchesAny | src/auth/guards/permissions.guard.ts:126-143 | the answer is true exactly when some held code matches the required code segment by segment, where a held `*` segment matches anything |
| PermissionsGuard.CheckPermissions | src/auth/guards/permissions.guard.ts:105-124 | holding `*:*:*:*` or `ADM:*:*:*` allows everything; otherwise access is allowed exactly when every required code is held directly or matched by a held wildcard code |
| PermissionsGuard.MatchOnCodes | src/auth/guards/permissions.guard.ts:130-141 | for two well-formed four-segment codes, the match holds exactly when each held segment is `*` or equal to the required one |
| PermissionsGuard.WildcardOnlyMatchesWildcard | src/auth/guards/permissions.guard.ts:136-139 | a required segment that is literally `*` is matched only by a held `*` in that position |
| PermissionsGuard.DirectMatchIsWildcardMatch | src/auth/guards/permissions.guard.ts:115-123 | the direct `includes` test adds nothing: a required code is satisfied exactly when some held code matches it segment by segment |
| PermissionsGuard.TailIgnored | src/auth/guards/permissions.guard.ts:130-133 | segments after the fourth are ignored, in both the held and the required code |
| PermissionsGuard.ShortHeldCode | src/auth/guards/permissions.guard.ts:130-141 | a held code of the single segment `*` matches any separator-free required string but no four-segment code, because its missing segments are `undefined` |
| PermissionsGuard.ScopeMismatch | src/auth/guards/permissions.guard.ts:136-141 | a tenant-scope wildcard grant does not satisfy a global-scope requirement on the same module and action |
| PermissionsGuard.Monotonic | src/auth/guards/permissions.guard.ts:105-143 | holding more codes never withdraws access |
| PermissionsGuard.AllowsDependsOnMembersOnly | src/auth/guards/permissions.guard.ts:105-143 | the decision depends only on which codes are held, not on their order or repetition |
| PermissionsGuard.CodeOf | src/auth/guards/permissions.guard.ts:93 | a permission id resolves to a code exactly when a permission row with that id exists, and the code is that row's |
| PermissionsGuard.CodesOf | src/auth/guards/permissions.guard.ts:92-99 | the codes of a list of permission ids are exactly the codes those ids resolve to |
| PermissionsGuard.RoleCodes | src/auth/guards/permissions.guard.ts:92-94 | the codes collected through roles are exactly the codes of the permissions linked to one of the roles |
| PermissionsGuard.DirectPermissionIds | src/auth/guards/permissions.guard.ts:97-99 | the directly granted permission ids are exactly those linked to the user |
| PermissionsGuard.Dedup | src/auth/guards/permissions.guard.ts:102 | the result has no duplicates and the same members as the input |
| PermissionsGuard.UserPermissions | src/auth/guards/permissions.guard.ts:61-103 | an unknown user holds nothing; a known user holds, once each, exactly the codes granted through a role or directly |
| PermissionsGuard.AllowsIffGranted | src/auth/guards/permissions.guard.ts:44-50 | access is allowed exactly when the user is granted a super wildcard, or each required code is granted or matched by a granted code |
| PermissionsGuard.CanActivate | src/auth/guards/permissions.guard.ts:14-59 | public routes and routes without requirements pass; a missing user is Forbidden; otherwise the call passes exactly when the user's permissions allow the requirements, and Forbidden is the only failure |
| PermissionsGuard.UnknownUserHoldsNothing | src/auth/guards/permissions.guard.ts:87-89 | a user with no row is allowed exactly the routes that require nothing |
| PermissionCodes.Segment | src/auth/guards/permissions.guard.ts:130 | a segment exists exactly for the positions `split` produces, and contains no separator |
| PermissionCodes.SegmentsOfCode | src/auth/guards/permissions.guard.ts:130-133 | a code built from four separator-free parts splits back into exactly those parts, with no fifth segment |
| PermissionCodes.SegmentsOfLongCode | src/auth/guards/permissions.guard.ts:130-133 | extra trailing segments do not change the first four |
| Strings.Split | src/auth/guards/permissions.guard.ts:130 | `split` yields at least one piece and no piece contains the separator |
| Strings.JoinSplit | src/auth/guards/permissions.guard.ts:130 | joining the pieces of a split gives back the original string |
| Strings.SplitJoin | src/warehouses/warehouses.service.ts:214-216 | splitting a join of separator-free pieces gives back the pieces |
| Sorting.SortBy | src/permissions/permissions.service.ts:145 | the result is ordered and is a permutation of the input |
| Paging.TotalPages | src/status/status.service.ts:76 | the page count is the least number of pages of `limit` rows that hold `total` rows |
| Paging.PageOf | src/status/status.service.ts:47-63 | a page holds exactly the rows left after skipping `(page-1)*limit`, at most `limit` of them, in listing order, and is full when enough rows remain |
| Paging.EveryRowOnAPage | src/warehouses/warehouses.service.ts:60-103 | every row of a listing appears on some page no later than the last one |
| Roles.LevelFor | src/roles/roles.service.ts:22-31 | a role without an existing parent has level 1; a child of an existing parent has that parent's level plus one |
| Roles.Create | src/roles/roles.service.ts:12-57 | Conflict for a taken code, then ForeignKeyViolation for a parent id that names no role, and success exactly otherwise; one active, non-system role row is appended carrying the code, name, description and parent, at its parent's level plus one |
| Roles.FindOne | src/roles/roles.service.ts:99-145 | NotFound exactly when no live role of the tenant has the id; the answer carries exactly the role's permission ids and a user count that is zero exactly when no user holds the role |
| Roles.Update | src/roles/roles.service.ts:147-166 | NotFound for a missing role, Conflict for a system role, UniqueViolation for a code another role of the tenant holds, ForeignKeyViolation for a parent id that names no role, and success exactly otherwise; the code, name, description and parent the request carries replace the stored ones, and nothing else changes |
| Roles.Remove | src/roles/roles.service.ts:168-200 | NotFound for a missing role, Conflict for a system role or a role with users, and success exactly otherwise; then only `deletedAt` of that row is set |
| Roles.AssignPermissions | src/roles/roles.service.ts:202-225 | NotFound for a missing role, ForeignKeyViolation when an id names no permission, UniqueViolation when an id repeats, and success exactly otherwise; the role's permission links become exactly the given ids, and links of other roles are untouched |
| Roles.AssignPermissionsEffect | src/roles/roles.service.ts:202-225 | the store after `assignPermissions` whatever its outcome: unchanged for a missing role, the new links on success, and, on a rejected write, the role left with no links while every other link stays |
| Roles.AssignThenFindOne | src/roles/roles.service.ts:99-145 | after an assignment, `findOne` lists exactly the assigned permission ids |
| Roles.RemoveHides | src/roles/roles.service.ts:168-200 | after a removal, `findOne` of the role is NotFound |
| Roles.ChildLevel | src/roles/roles.service.ts:22-31 | a role created under an existing parent sits one level below it |
| Roles.CreateKeepsCodesUnique | src/roles/roles.service.ts:12-20 | creating a role keeps role codes unique within each tenant |
| Roles.UpdateKeepsCodesUnique | src/roles/roles.service.ts:147-166 | an update that succeeds keeps role codes unique within each tenant |
| Roles.UpdateThenFindOne | src/roles/roles.service.ts:99-166 | after an update, `findOne` answers with the patched role |
| PermissionCatalog.Create | src/permissions/permissions.service.ts:11-37 | a code taken by any tenant is a Conflict; otherwise one active, non-system permission of the tenant is appended carrying the request's code, name, description, module, resource and action, scope defaulting to tenant |
| PermissionCatalog.FindAll | src/permissions/permissions.service.ts:39-79 | the page holds the rows at offset `(page-1)*limit` of the rows the where clause as written selects, as many as remain up to `limit`; the total counts all of them |
| PermissionCatalog.FindAllWithoutSearchIsTenantScoped | src/permissions/permissions.service.ts:41-46 | without a search term only the tenant's own and system permissions are listed |
| PermissionCatalog.FindAllSearchCrossesTenants | src/permissions/permissions.service.ts:41-52 | with a search term every live matching permission is listed, whatever its tenant |
| PermissionCatalog.SearchLeaksOtherTenant | src/permissions/permissions.service.ts:41-52 | a concrete store in which tenant `t1` searching `INV` is shown tenant `t2`'s permission |
| PermissionCatalog.FindAllScoped | src/permissions/permissions.service.ts:39-79 | every listed row is live, the tenant's own or system, and matches the search; every such row is listed |
| PermissionCatalog.ScopedIsIntersection | src/permissions/permissions.service.ts:41-52 | the scoped listing is exactly the rows present both in the unfiltered tenant listing and in the search listing |
| PermissionCatalog.FindOne | src/permissions/permissions.service.ts:81-91 | NotFound exactly when no live permission has the id, with no tenant filter |
| PermissionCatalog.Update | src/permissions/permissions.service.ts:93-112 | NotFound for a missing permission, Conflict for a system permission, and success exactly otherwise; then only the name, description and isActive the request carries change |
| PermissionCatalog.Remove | src/permissions/permissions.service.ts:114-135 | NotFound for a missing permission, Conflict for a system permission, and success exactly otherwise; then only `deletedAt` is set |
| PermissionCatalog.FindByModule | src/permissions/permissions.service.ts:137-147 | exactly the live permissions of the module visible to the tenant, each as many times as the table holds it, ordered by resource then action |
| PermissionCatalog.FindByModuleOrdered | src/permissions/permissions.service.ts:145 | neighbours are ordered by resource, and by action within one resource |
| PermissionCatalog.RemoveHides | src/permissions/permissions.service.ts:114-135 | after a removal, `findOne` of the permission is NotFound |
| PermissionCatalog.CreateKeepsCodesUnique | src/permissions/permissions.service.ts:11-19 | creating a permission keeps codes unique across all tenants |
| PermissionCatalog.UpdateThenFindOne | src/permissions/permissions.service.ts:81-112 | after an update, `findOne` answers with the patched permission |
| Users.Create | src/users/users.service.ts:14-53 | an email taken in the tenant is a Conflict; otherwise one active user is appended carrying the email, names and phone of the request and the given hash, with no avatar and no password change time |
| Users.FindOne | src/users/users.service.ts:103-141 | NotFound exactly when no live user of the tenant has the id; the answer carries exactly the user's role ids |
| Users.Update | src/users/users.service.ts:143-173 | NotFound exactly when the user is missing; otherwise the first and last name, phone, avatar and isActive the request carries replace the stored ones, and no other column of any row changes |
| Users.Remove | src/users/users.service.ts:175-192 | NotFound exactly when the user is missing; otherwise only `deletedAt` is set |
| Users.ChangePassword | src/users/users.service.ts:194-230 | NotFound without a user row of the tenant; BadRequest exactly when the current password does not verify; otherwise the hash and change time are set and one history row is appended |
| Users.AssignRoles | src/users/users.service.ts:232-256 | NotFound for a missing user, ForeignKeyViolation when an id names no role, UniqueViolation when an id repeats, and success exactly otherwise; the user's role links become exactly the given roles, and links of other users are untouched, and every link of the user records `assignedBy` |
| Users.AssignThenFindOne | src/users/users.service.ts:232-256 | after an assignment, `findOne` lists exactly the assigned role ids |
| Users.AssignRolesEffect | src/users/users.service.ts:232-256 | the store after `assignRoles` whatever its outcome: unchanged for a missing user, the new links on success, and, on a rejected write, the user left with no roles while every other link stays |
| Users.RemoveHides | src/users/users.service.ts:175-192 | after a removal, `findOne` of the user is NotFound |
| Users.DeletedUserCanChangePassword | src/users/users.service.ts:194-206 | a soft-deleted user is invisible to `findOne` yet can still change their password |
| Users.CreateKeepsEmailsUnique | src/users/users.service.ts:14-53 | creating a user keeps emails unique within each tenant |
| Users.UpdateThenFindOne | src/users/users.service.ts:103-173 | after an update, `findOne` answers with the patched user and the same role ids |
| Items.CategoryOk | src/items/items.service.ts:21-27 | the category check passes exactly when the first row with that id belongs to the tenant |
| Items.Create | src/items/items.service.ts:10-53 | Conflict for a taken code, then NotFound for a foreign or missing category, then NotFound for a missing unit, and success exactly otherwise; one active item carrying the request's fields is appended |
| Items.FindOne | src/items/items.service.ts:126-166 | NotFound exactly when no live item of the tenant has the id; the answer lists exactly the item's active conversions |
| Items.Update | src/items/items.service.ts:168-222 | NotFound for a missing item, Conflict for a taken new code, NotFound for a changed category that is missing or foreign, NotFound for a changed unit that is missing, and success exactly otherwise; the fields the request carries replace the stored ones and the version goes up by one |
| Items.Remove | src/items/items.service.ts:224-242 | NotFound exactly when the item is missing; otherwise it is stamped deleted and deactivated |
| Items.RemoveHides | src/items/items.service.ts:224-242 | after a removal, `findOne` of the item is NotFound |
| Items.ClearDefaults | src/items/items.service.ts:272-283 | exactly the conversions of that item and purpose lose their default flag |
| Items.AddUnitConversion | src/items/items.service.ts:244-300 | NotFound for a missing item or unit, Conflict for a taken (item, purpose, unit); otherwise one active conversion is appended, and a new default is the only default for its purpose |
| Items.AddKeepsInvariants | src/items/items.service.ts:244-300 | adding a conversion keeps every factor positive and at most one default per item and purpose |
| Items.AddedDefaultIsSole | src/items/items.service.ts:272-283 | after adding a default, the new row is the only default of its item and purpose |
| Items.RemoveUnitConversion | src/items/items.service.ts:327-343 | NotFound unless the conversion exists and belongs to the item; otherwise exactly that row is gone |
| Items.FactorOf | src/items/items.service.ts:364-373 | a factor is found exactly when an active conversion of that item and unit exists, and it is that row's factor |
| Items.ConvertQuantity | src/items/items.service.ts:349-394 | same-unit conversion is the identity; a missing source, then a missing target, is BadRequest; otherwise the converted quantity times the target factor equals the quantity times the source factor |
| Items.ConvertRoundTrip | src/items/items.service.ts:383-384 | converting a quantity to another unit and back gives the original quantity |
| Items.GetUnitConversions | src/items/items.service.ts:302-325 | NotFound exactly when the item is missing; otherwise exactly the item's active conversions, optionally of one purpose |
| Items.StockLines | src/items/items.service.ts:405-416 | one line per conversion, the quantity times the factor equal to the stock |
| Items.GetStockInAllUnits | src/items/items.service.ts:396-428 | BadRequest when the item is not inventoriable or has no stock; otherwise one line per active conversion whose quantity times the factor equals the stock |
| Items.CreateKeepsCodesUnique | src/items/items.service.ts:10-18 | creating an item keeps item codes unique within each tenant |
| Items.UpdateKeepsCodesUnique | src/items/items.service.ts:171-181 | an update that succeeds keeps item codes unique within each tenant |
| Items.UpdateThenFindOne | src/items/items.service.ts:126-222 | after an update, `findOne` answers with the patched item and the same conversions |
| Items.FilterKeepsInvariants | src/items/items.service.ts:327-343 | dropping conversion rows keeps every factor positive and at most one default per item and purpose |
| Items.RemoveConversionKeepsInvariants | src/items/items.service.ts:302-343 | removing a conversion keeps both table invariants, and the removed row is no longer listed for the item |
| Items.UnitConversionsMatchFindOne | src/items/items.service.ts:126-166 | without a purpose, `getUnitConversions` lists exactly the conversions `findOne` returns, and fails exactly when `findOne` does |
| StatusRegistry.CreateGroup | src/status/status.service.ts:19-43 | a code taken by any group is a Conflict; otherwise one active, non-system group of the tenant is appended carrying the request's code, name, description, module and entity type, with the stated flag defaults |
| StatusRegistry.CreateGroupKeepsCodesUnique | src/status/status.service.ts:19-43 | creating a group keeps group codes unique |
| StatusRegistry.ActiveStatuses | src/status/status.service.ts:84-88 | exactly the group's active statuses, each as many times as the table holds it, by display order |
| StatusRegistry.FindGroupByCode | src/status/status.service.ts:80-103 | NotFound exactly when no group has the code, active or not; the answer lists the group's active statuses as `ActiveStatuses` does: all of them, with multiplicity, by display order |
| StatusRegistry.GetStatusesByGroup | src/status/status.service.ts:193-196 | NotFound exactly when no group has the code; otherwise exactly the group's active statuses, with multiplicity, ordered by display order |
| StatusRegistry.ListedGroups | src/status/status.service.ts:45-64 | exactly the active groups of the tenant or the system that pass the module and entity filters, each as many times as the table holds it, by code |
| StatusRegistry.FindAllGroups | src/status/status.service.ts:45-78 | the page holds the listed groups at offset `(page-1)*limit`, as many as remain up to `limit`, with the total and page count of the whole listing |
| StatusRegistry.UpdateGroup | src/status/status.service.ts:105-125 | NotFound, BadRequest for a code change on a system group, Conflict for a code another group holds, and success exactly otherwise; every group field the request carries replaces the stored one |
| StatusRegistry.UpdateGroupKeepsCodesUnique | src/status/status.service.ts:105-125 | an update keeps group codes unique, and the group is found under its new code with the written fields |
| StatusRegistry.UpdateGroupMovesModule | src/status/status.service.ts:45-125 | a group moved to another module by an update is no longer listed under its old module |
| StatusRegistry.DeleteGroup | src/status/status.service.ts:127-150 | NotFound, then BadRequest for a system group or a group with any status row; otherwise the group is deactivated |
| StatusRegistry.DeletedGroupStillResolves | src/status/status.service.ts:80-103 | a deleted group is still found by code, inactive, and no longer listed |
| StatusRegistry.ClearDefaults | src/status/status.service.ts:163-168 | exactly the group's statuses other than the spared one lose their default flag |
| StatusRegistry.CreateStatus | src/status/status.service.ts:152-191 | NotFound for a missing group, Conflict for a code taken in the group; otherwise one status is appended with the stated defaults, and a new default clears the group's other defaults |
| StatusRegistry.CreateStatusKeepsOneDefault | src/status/status.service.ts:163-183 | creating a status keeps at most one default per group |
| StatusRegistry.SameCodeInOtherGroup | src/status/status.service.ts:155-161 | a code used only in other groups does not block creation |
| StatusRegistry.ApplyStatusUpdate | src/status/status.service.ts:213-223 | the row is patched with the given fields and, when it becomes the default, the group's other defaults are cleared; nothing else changes |
| StatusRegistry.UpdateStatus | src/status/status.service.ts:198-224 | NotFound for a missing group or status, BadRequest for a code change on a system status, UniqueViolation for a code taken in the group, and success exactly otherwise; then the update is applied |
| StatusRegistry.UpdateStatusKeepsOneDefault | src/status/status.service.ts:213-218 | an update keeps at most one default per group |
| StatusRegistry.UpdateStatusEffect | src/status/status.service.ts:198-224 | the registry after `updateStatus` whatever its outcome: unchanged for a missing group or status or a code change on a system status; on a code collision, the group's other defaults cleared when the request makes the row the default, and nothing else written; the update on success |
| StatusRegistry.UpdateStatusEffectKeepsOneDefault | src/status/status.service.ts:198-224 | whatever the outcome of an update, no group is left with two defaults |
| StatusRegistry.DeleteStatus | src/status/status.service.ts:226-246 | NotFound for a missing group or status, BadRequest for a system status; otherwise the status is deactivated |
| StatusRegistry.DeletedStatusStillBlocksGroup | src/status/status.service.ts:134-140 | after a status is deleted its group still cannot be deleted |
| Warehouses.PathRoundTrip | src/warehouses/warehouses.service.ts:214-216 | a path built from dash-free components splits back into exactly the non-empty components |
| Warehouses.Create | src/warehouses/warehouses.service.ts:20-56 | Conflict exactly when the tenant already has the code; otherwise one active warehouse carrying the request's code, name and city is appended |
| Warehouses.FindAll | src/warehouses/warehouses.service.ts:58-106 | one page of the tenant's live warehouses, optionally by activity, holding as many rows as remain after the earlier pages up to `limit`, with the total and page count |
| Warehouses.FindOne | src/warehouses/warehouses.service.ts:108-137 | NotFound exactly when no live warehouse of the tenant has the id |
| Warehouses.Update | src/warehouses/warehouses.service.ts:139-167 | NotFound, then Conflict exactly when a changed code is taken; otherwise only the given fields change |
| Warehouses.Remove | src/warehouses/warehouses.service.ts:169-194 | NotFound, then BadRequest exactly when stock is on hand in the warehouse; otherwise `deletedAt` is set |
| Warehouses.RemoveHides | src/warehouses/warehouses.service.ts:169-194 | after a removal, `findOne` of the warehouse is NotFound |
| Warehouses.CreateLocation | src/warehouses/warehouses.service.ts:200-232 | NotFound for a missing warehouse, Conflict exactly when the code is taken in it; otherwise one active location carrying the request's code, name and components is appended, whose path is the joined components, or the code when there are none |
| Warehouses.FindAllLocations | src/warehouses/warehouses.service.ts:234-253 | NotFound for a missing warehouse; otherwise exactly its active locations, each as many times as the table holds it, by path |
| Warehouses.FindOneLocation | src/warehouses/warehouses.service.ts:255-291 | NotFound exactly when no active location of the warehouse has the id |
| Warehouses.UpdateLocation | src/warehouses/warehouses.service.ts:293-330 | NotFound, then Conflict exactly when a changed code is taken; otherwise code and name are replaced, the components merge, the path is rebuilt or kept when no component remains, and nothing else changes |
| Warehouses.RemoveLocation | src/warehouses/warehouses.service.ts:332-357 | NotFound, then BadRequest exactly when stock is on hand at the location; otherwise it is deactivated |
| Warehouses.RemoveLocationHides | src/warehouses/warehouses.service.ts:332-357 | after a removal, `findOneLocation` is NotFound |
| Warehouses.Stats | src/warehouses/warehouses.service.ts:363-437 | the counts are those of the warehouse's active and stocked locations, occupied never exceeds the total, available plus occupied is the total, and the rate is (occupied / total) * 100, which lies in 0..100, is 0 without locations and is 100 exactly when every location is occupied; the item count is the number of the warehouse's stock levels with a positive quantity, and is 0 exactly when none has one |
| Warehouses.RemovableIffNoItems | src/warehouses/warehouses.service.ts:169-194 | a visible warehouse can be removed exactly when its statistics count no items |
| Warehouses.CreateLocationCountsOneMore | src/warehouses/warehouses.service.ts:200-232 | creating a location adds one to the warehouse's location count and, when no stock level names the new id, leaves the occupied count unchanged |
| Warehouses.CreateKeepsCodesUnique | src/warehouses/warehouses.service.ts:20-56 | creating a warehouse keeps codes unique within each tenant |
| Warehouses.UpdateKeepsCodesUnique | src/warehouses/warehouses.service.ts:139-167 | an update that succeeds keeps codes unique within each tenant |
| Warehouses.UpdateThenFindOne | src/warehouses/warehouses.service.ts:108-167 | after an update, `findOne` answers with the patched warehouse |
| Warehouses.CreateLocationKeepsCodesUnique | src/warehouses/warehouses.service.ts:200-232 | creating a location keeps codes unique within each warehouse |
| Warehouses.UpdateLocationKeepsCodesUnique | src/warehouses/warehouses.service.ts:293-330 | an update that succeeds keeps location codes unique within each warehouse |
| Warehouses.ListedLocationsResolve | src/warehouses/warehouses.service.ts:234-291 | every location `findAllLocations` lists is found by `findOneLocation` under its own id |

## Left out

- Controllers, decorators, the HTTP layer, authentication (`auth.service`), JWT handling and the seed scripts are outside the model.
- The status transition engine (transitions, change history, `changeStatus`) is left out.
- The `findAll` listings of items, roles and users are left out. Their text search, ordering and `include` shapes are presentation over the rows the model has.
- Case-insensitive `contains` is a case-sensitive substring test. Collation is code-point order.
- `orderBy` clauses on timestamps or caller-chosen columns are left out. Listings keep row order except where an order is modelled (display order, code, resource and action, location path).
- Warehouses.FindAll: the search, type and city filters and the `createdAt` ordering are left out. Only the tenant, deletion and activity filters are kept.
- Items.GetUnitConversions: the ordering by purpose and default flag is left out. The contract states membership only.
- Items.FindOne: the ordering of the conversions is left out.
- Items.StockLines: the lines follow the order of the conversion rows; the ordering by purpose and default flag is left out.
- Items.GetStockInAllUnits: the lines follow the order of the conversion rows; the ordering by purpose and default flag is left out.
- Items.Update: the item update DTO is not part of this model. It is taken to be the partial of the create DTO, as the repository's other update DTOs are, restricted to the modelled fields (code, name, category, base unit, inventoriable flag, stock).
- Roles.Update: the role update DTO is not part of this model. It is taken to be the partial of the create DTO, restricted to the modelled fields (code, name, description, parent). The `systemRole` enumeration is not modelled.
- StatusRegistry.UpdateStatus: the status update DTO is not part of this model. It is taken to be the partial of the create DTO, restricted to the modelled fields.
- StatusRegistry.UpdateGroup: the group update DTO is not part of this model. It is taken to be the partial of the group create DTO.
- Warehouses.Update: the warehouse update DTO is not part of this model. It is taken to carry the modelled fields code, name and city, each optional.
- Users.AssignRoles: the database schema is not part of this model. The user-role link table is taken to have the key (userId, roleId), like the key `roleId_permissionId` of the role-permission table that prisma/add-permissions.ts:89 uses, and both link tables' ids are taken to be foreign keys. When one request both repeats an id and names a missing row, the model reports the foreign-key error.
- Roles.AssignPermissions: as for `Users.AssignRoles`, a request that both repeats an id and names a missing permission is reported as the foreign-key error.
- PermissionCatalog.FindAll: the caller-chosen `orderBy` is left out. Rows keep table order before `skip` and `take` apply.
- Warehouses.Stats: the stock value and the counts of recent movements are left out. They read the clock and price columns that the model does not have. The rate is an exact real; the rounding of the JavaScript floating-point division is not modelled.
- Items.ConvertQuantity: `Decimal` and `parseFloat` rounding are not modelled. Quantities are exact reals, and the result is stated as an equality of products rather than a rounded quotient.
- Items.Create: the initial version number is taken as 1, the store's column default.
- Paging.PageOf: `page` and `limit` are assumed to be at least 1. The query DTOs' minimums say so.
- Error messages, response shapes (`select`, `_count`) and full names built from first and last name are left out.
- Concurrency is not modelled. Each service call is one atomic step.
- Transactions spanning several writes are not modelled either. Each service call's writes are applied together, except for the link replacement of `assignPermissions` and `assignRoles` and the clearing of defaults in `updateStatus`, whose partial effects are stated.
- Row columns the model does not carry are outside it, and so is what the services write to them. Examples are the warehouse's type, address, state, country, postal code, phone, email and manager; the status's type, color, icon and required permission; the conversion's price, code and barcode; and `createdBy` and `deletedBy`.
- Items.AddUnitConversion: a new conversion is active because the column defaults to active; the service does not set the flag.
- bcrypt hashing and comparison, fresh identifiers and the clock are parameters.

## Findings

| source | as written | input that shows it | evidently intended | confidence | as-written member | corrected member |
|---|---|---|---|---|---|---|
| src/permissions/permissions.service.ts:41-52 | the search spreads a second `OR` key into the where object, which replaces the tenant `OR`, so a search lists permissions of every tenant | tenant `t1` searches `INV` while a live permission with module `INV` belongs to tenant `t2`: it is listed | the search narrows the tenant's own and system permissions | high, not executed | PermissionCatalog.SearchLeaksOtherTenant | PermissionCatalog.FindAllScoped |

=== FILE: admin_store.dfy ===
/**
 The rows of the access-control tables shared by the role, permission and
 user services and read by the permissions guard. Each table is a sequence
 of rows in row order; soft deletion is a `deletedAt` timestamp.
 */
module AdminStore {

  import opened Common

  type Id = string

  /** A point in time; the services stamp `new Date()`, passed in as `now`. */
  type Time = nat

  /** The permission scopes the seed data uses. */
  datatype Scope = Global | Tenant | Department | Own

  datatype Permission = Permission(
    id: Id,
    tenantId: Option<Id>,          // None: a system-wide permission
    code: string,
    name: string,
    description: Option<string>,
    module_: string,
    resource: string,
    action: string,
    scope: Scope,
    isSystemPermission: bool,
    isActive: bool,
    deletedAt: Option<Time>)

  datatype Role = Role(
    id: Id,
    tenantId: Id,
    code: string,
    name: string,
    description: Option<string>,
    parentRoleId: Option<Id>,
    level: int,
    isSystemRole: bool,
    isActive: bool,
    deletedAt: Option<Time>)

  datatype User = User(
    id: Id,
    tenantId: Id,
    email: string,
    firstName: string,
    lastName: string,
    phone: Option<string>,
    avatar: Option<string>,
    passwordHash: string,
    passwordChangedAt: Option<Time>,
    isActive: bool,
    deletedAt: Option<Time>)

  datatype UserRole = UserRole(userId: Id, roleId: Id, assignedBy: Id)

  datatype RolePermission = RolePermission(roleId: Id, permissionId: Id)

  datatype UserPermission = UserPermission(userId: Id, permissionId: Id)

  datatype PasswordHistory = PasswordHistory(userId: Id, passwordHash: string)

  datatype Store = Store(
    permissions: seq<Permission>,
    roles: seq<Role>,
    users: seq<User>,
    userRoles: seq<UserRole>,
    rolePermissions: seq<RolePermission>,
    userPermissions: seq<UserPermission>,
    passwordHistory: seq<PasswordHistory>)

  /** Some listed id names no permission row. Soft-deleted rows still
      exist, so the foreign key accepts them. */
  predicate UnknownPermissionId(ps: seq<Permission>, ids: seq<Id>) {
    exists k :: 0 <= k < |ids| && forall i :: 0 <= i < |ps| ==> ps[i].id != ids[k]
  }

  /** Some listed id names no role row, deleted or not. */
  predicate UnknownRoleId(rs: seq<Role>, ids: seq<Id>) {
    exists k :: 0 <= k < |ids| && forall i :: 0 <= i < |rs| ==> rs[i].id != ids[k]
  }

  /** Primary keys are unique, as the store guarantees. */
  predicate PermissionIdsUnique(ps: seq<Permission>) {
    forall i, j :: 0 <= i < j < |ps| ==> ps[i].id != ps[j].id
  }

  predicate RoleIdsUnique(rs: seq<Role>) {
    forall i, j :: 0 <= i < j < |rs| ==> rs[i].id != rs[j].id
  }

  predicate UserIdsUnique(us: seq<User>) {
    forall i, j :: 0 <= i < j < |us| ==> us[i].id != us[j].id
  }

  /** The permission ids linked to a role, in link order. */
  function PermissionIdsOfRole(links: seq<RolePermission>, roleId: Id): (ids: seq<Id>)
    ensures forall p :: p in ids <==> RolePermission(roleId, p) in links
  {
    if |links| == 0 then []
    else
      (if links[0].roleId == roleId then [links[0].permissionId] else [])
      + PermissionIdsOfRole(links[1..], roleId)
  }

  /** The role ids linked to a user, in link order. */
  function RoleIdsOfUser(links: seq<UserRole>, userId: Id): (ids: seq<Id>)
    ensures forall r :: r in ids <==> exists k :: 0 <= k < |links| && links[k].userId == userId && links[k].roleId == r
  {
    if |links| == 0 then []
    else
      var rest := RoleIdsOfUser(links[1..], userId);
      assert forall k :: 1 <= k < |links| ==> links[k] == links[1..][k - 1];
      (if links[0].userId == userId then [links[0].roleId] else []) + rest
  }
}

=== FILE: codes.dfy ===
/**
 The permission-code wire format: `module:resource:action:scope`, four
 segments separated by `:`. Codes are taken apart the way JavaScript's
 `String.prototype.split(':')` does it — an empty string yields one empty
 segment, adjacent separators yield empty segments — and nothing checks
 that a code really has four segments.
 */
module PermissionCodes {

  import opened Common
  import opened Strings

  const Separator: char := ':'

  /** The wildcard segment. */
  const Wildcard: string := "*"

  /** The `i`-th segment of a code, or `None` (JavaScript `undefined`) when
      the code has fewer than `i + 1` segments. */
  function Segment(code: string, i: nat): (seg: Option<string>)
    ensures seg.Some? <==> i < |Split(code, Separator)|
    ensures seg.Some? ==> Separator !in seg.value
  {
    var parts := Split(code, Separator);
    if i < |parts| then Some(parts[i]) else None
  }

  /** The canonical four-segment code. */
  function Code(module_: string, resource: string, action: string, scope: string): string {
    Join([module_, resource, action, scope], Separator)
  }

  predicate Plain(seg: string) {
    Separator !in seg
  }

  /** A four-segment code built from separator-free pieces has exactly
      those four segments and no fifth one. */
  lemma SegmentsOfCode(m: string, r: string, a: string, s: string)
    requires Plain(m) && Plain(r) && Plain(a) && Plain(s)
    ensures Segment(Code(m, r, a, s), 0) == Some(m)
    ensures Segment(Code(m, r, a, s), 1) == Some(r)
    ensures Segment(Code(m, r, a, s), 2) == Some(a)
    ensures Segment(Code(m, r, a, s), 3) == Some(s)
    ensures Segment(Code(m, r, a, s), 4) == None
  {
    SplitJoin([m, r, a, s], Separator);
  }

  /** Appending `:extra` to a four-segment code leaves its first four
      segments as they were. */
  lemma SegmentsOfLongCode(m: string, r: string, a: string, s: string, extra: string)
    requires Plain(m) && Plain(r) && Plain(a) && Plain(s)
    ensures forall i :: 0 <= i < 4 ==> Segment(Code(m, r, a, s) + [Separator] + extra, i) == Segment(Code(m, r, a, s), i)
  {
    var c := Code(m, r, a, s);
    assert [m, r, a, s][1..] == [r, a, s] && [r, a, s][1..] == [a, s] && [a, s][1..] == [s];
    assert Join([s], Separator) == s;
    assert Join([a, s], Separator) == a + [Separator] + s;
    assert Join([r, a, s], Separator) == r + [Separator] + (a + [Separator] + s);
    assert c == m + [Separator] + (r + [Separator] + (a + [Separator] + s));
    assert c + [Separator] + extra
      == m + [Separator] + (r + [Separator] + (a + [Separator] + (s + [Separator] + extra)));
    SplitCons(s, extra, Separator);
    SplitCons(a, s + [Separator] + extra, Separator);
    SplitCons(r, a + [Separator] + (s + [Separator] + extra), Separator);
    SplitCons(m, r + [Separator] + (a + [Separator] + (s + [Separator] + extra)), Separator);
    SegmentsOfCode(m, r, a, s);
  }
}

=== FILE: common.dfy ===
/**
 Shared vocabulary of the model: optional values, the service error kinds,
 and the table primitives (find the first matching row, count and filter
 rows) that stand in for the ORM's findFirst / count / findMany.

 Every table of the store is a `seq` of rows in row order, so a lookup that
 the ORM answers with "some matching row" is answered here, deterministically,
 with the first matching row.
 */
module Common {

  datatype Option<+T> = None | Some(value: T) {
    function GetOr(default: T): T {
      match this
      case Some(v) => v
      case None => default
    }
  }

  /** The exception classes the services throw. `UniqueViolation` and
      `ForeignKeyViolation` are constraints of the store that a service runs
      into without checking first: a unique key already held, and a
      reference to a row that does not exist. They surface as unhandled
      store errors, not as HTTP 4xx answers. */
  datatype ErrKind = NotFound | Conflict | BadRequest | Forbidden | UniqueViolation | ForeignKeyViolation

  datatype Result<+T> = Ok(value: T) | Err(kind: ErrKind) {
    predicate IsFailure() {
      Err?
    }

    function PropagateFailure<U>(): Result<U>
      requires Err?
    {
      Err(kind)
    }

    function Extract(): T
      requires Ok?
    {
      value
    }
  }

  /** Index of the first row satisfying `p`, if any. */
  function Find<T>(s: seq<T>, p: T -> bool): (r: Option<nat>)
    ensures r.Some? ==> r.value < |s| && p(s[r.value])
    ensures r.Some? ==> forall j :: 0 <= j < r.value ==> !p(s[j])
    ensures r.None? <==> forall j :: 0 <= j < |s| ==> !p(s[j])
  {
    if |s| == 0 then None
    else if p(s[0]) then Some(0)
    else
      match Find(s[1..], p)
      case None => None
      case Some(k) => Some(k + 1)
  }

  /** Number of rows satisfying `p` (the ORM's `count({ where })`). */
  function Count<T>(s: seq<T>, p: T -> bool): (n: nat)
    ensures n <= |s|
    ensures n == 0 <==> forall j :: 0 <= j < |s| ==> !p(s[j])
  {
    if |s| == 0 then 0
    else (if p(s[0]) then 1 else 0) + Count(s[1..], p)
  }

  /** Appending a row adds one to the count exactly when it matches. */
  lemma {:induction false} CountAppend<T>(s: seq<T>, x: T, p: T -> bool)
    ensures Count(s + [x], p) == Count(s, p) + (if p(x) then 1 else 0)
  {
    if |s| > 0 {
      CountAppend(s[1..], x, p);
      assert (s + [x])[1..] == s[1..] + [x];
    }
  }

  /** `r` holds exactly the rows of `s` that satisfy `p`, each as many
      times as `s` does. */
  ghost predicate Selects<T(!new)>(r: seq<T>, s: seq<T>, p: T -> bool) {
    forall x :: multiset(r)[x] == if p(x) then multiset(s)[x] else 0
  }

  /** The rows satisfying `p`, in row order (the ORM's `findMany({ where })`). */
  function Filter<T>(s: seq<T>, p: T -> bool): (r: seq<T>)
    ensures |r| == Count(s, p)
    ensures forall i :: 0 <= i < |r| ==> r[i] in s && p(r[i])
    ensures forall j :: 0 <= j < |s| && p(s[j]) ==> s[j] in r
  {
    if |s| == 0 then []
    else (if p(s[0]) then [s[0]] else []) + Filter(s[1..], p)
  }

  /** `Filter` keeps each selected row as many times as it occurs. */
  lemma {:induction false} FilterSelects<T(!new)>(s: seq<T>, p: T -> bool)
    ensures Selects(Filter(s, p), s, p)
  {
    if |s| > 0 {
      var rest := Filter(s[1..], p);
      var head := if p(s[0]) then [s[0]] else [];
      FilterSelects(s[1..], p);
      assert s == [s[0]] + s[1..];
      assert multiset(Filter(s, p)) == multiset(head) + multiset(rest);
      assert multiset(s) == multiset{s[0]} + multiset(s[1..]);
    }
  }

  /** Counting with a stricter filter never yields more rows. */
  lemma {:induction false} CountMonotone<T>(s: seq<T>, p: T -> bool, q: T -> bool)
    requires forall x :: p(x) ==> q(x)
    ensures Count(s, p) <= Count(s, q)
  {
    if |s| > 0 {
      CountMonotone(s[1..], p, q);
    }
  }

  /** Sequence without repeated elements. */
  predicate NoDuplicates<T(==)>(s: seq<T>) {
    forall i, j :: 0 <= i < j < |s| ==> s[i] != s[j]
  }
}

=== FILE: guard.dfy ===
/**
 The permissions guard: which permission codes a user holds (the union of
 the codes of the user's roles and of the user's direct permissions, without
 repeats), whether a held set satisfies a list of required codes, and the
 order in which the guard decides a request.
 */
module PermissionsGuard {

  import opened Common
  import opened Strings
  import opened PermissionCodes
  import opened AdminStore

  /** Held codes that satisfy every requirement outright. */
  const GlobalWildcard: string := "*:*:*:*"
  const AdminWildcard: string := "ADM:*:*:*"

  // ---------------------------------------------------------------------
  // Matching
  // ---------------------------------------------------------------------

  /** One position of the comparison: the held segment is `*` or equals the
      required one. Two missing segments compare equal (both `undefined`). */
  predicate SegmentMatches(held: Option<string>, required: Option<string>) {
    held == Some(Wildcard) || held == required
  }

  /** `matchesWildcard` for one held code: only the first four segments take
      part, each compared on its own. */
  predicate MatchesWildcard(held: string, required: string) {
    && SegmentMatches(Segment(held, 0), Segment(required, 0))
    && SegmentMatches(Segment(held, 1), Segment(required, 1))
    && SegmentMatches(Segment(held, 2), Segment(required, 2))
    && SegmentMatches(Segment(held, 3), Segment(required, 3))
  }

  /** A required code is met by an identical held code or by a wildcard match. */
  predicate Satisfied(held: seq<string>, required: string) {
    required in held || exists h :: h in held && MatchesWildcard(h, required)
  }

  predicate HasSuperWildcard(held: seq<string>) {
    GlobalWildcard in held || AdminWildcard in held
  }

  /** The decision of `checkPermissions`: a super wildcard, or every
      required code met (an empty list is met). */
  predicate Allows(held: seq<string>, required: seq<string>) {
    HasSuperWildcard(held) || forall r :: r in required ==> Satisfied(held, r)
  }

  /** `userPermissions.some(...)`: some held code matches by wildcard. */
  method MatchesAny(held: seq<string>, required: string) returns (found: bool)
    ensures found <==> exists h :: h in held && MatchesWildcard(h, required)
  {
    var i := 0;
    while i < |held|
      invariant 0 <= i <= |held|
      invariant forall k :: 0 <= k < i ==> !MatchesWildcard(held[k], required)
    {
      if MatchesWildcard(held[i], required) {
        return true;
      }
      i := i + 1;
    }
    return false;
  }

  /** `checkPermissions`: the super-wildcard escape hatch, then
      `required.every(...)` with the direct match tried first. */
  method CheckPermissions(held: seq<string>, required: seq<string>) returns (ok: bool)
    ensures HasSuperWildcard(held) ==> ok
    ensures !HasSuperWildcard(held) ==> (ok <==> forall r :: r in required ==> Satisfied(held, r))
    ensures ok == Allows(held, required)
  {
    if GlobalWildcard in held || AdminWildcard in held {
      return true;
    }
    var i := 0;
    while i < |required|
      invariant 0 <= i <= |required|
      invariant forall k :: 0 <= k < i ==> Satisfied(held, required[k])
    {
      var r := required[i];
      if r !in held {
        var m := MatchesAny(held, r);
        if !m {
          assert r in required && !Satisfied(held, r);
          return false;
        }
      }
      i := i + 1;
    }
    forall r | r in required
      ensures Satisfied(held, r)
    {
      var k :| 0 <= k < |required| && required[k] == r;
    }
    return true;
  }

  // ---------------------------------------------------------------------
  // Properties of the matcher
  // ---------------------------------------------------------------------

  /** On four-segment codes the match is position by position: each held
      segment is `*` or equal to the required one. */
  lemma MatchOnCodes(hm: string, hr: string, ha: string, hs: string,
                     rm: string, rr: string, ra: string, rs: string)
    requires Plain(hm) && Plain(hr) && Plain(ha) && Plain(hs)
    requires Plain(rm) && Plain(rr) && Plain(ra) && Plain(rs)
    ensures MatchesWildcard(Code(hm, hr, ha, hs), Code(rm, rr, ra, rs)) <==>
      && (hm == Wildcard || hm == rm)
      && (hr == Wildcard || hr == rr)
      && (ha == Wildcard || ha == ra)
      && (hs == Wildcard || hs == rs)
  {
    SegmentsOfCode(hm, hr, ha, hs);
    SegmentsOfCode(rm, rr, ra, rs);
  }

  /** A held `*` matches anything at its position, and a required `*` is met
      only by a held `*`. */
  lemma WildcardOnlyMatchesWildcard(held: string, required: string, i: nat)
    requires i < 4
    requires Segment(required, i) == Some(Wildcard)
    requires MatchesWildcard(held, required)
    ensures Segment(held, i) == Some(Wildcard)
  {
    if i == 0 {
    } else if i == 1 {
    } else if i == 2 {
    } else {
    }
  }

  /** The direct-match fast path never decides anything the wildcard path
      would not: every code matches itself. */
  lemma DirectMatchIsWildcardMatch(held: seq<string>, required: string)
    ensures Satisfied(held, required) <==> exists h :: h in held && MatchesWildcard(h, required)
  {
    if required in held {
      assert MatchesWildcard(required, required);
    }
  }

  /** Segments after the fourth take no part: a longer required code is met
      exactly when its four-segment prefix is. */
  lemma TailIgnored(h: string, m: string, r: string, a: string, s: string, extra: string)
    requires Plain(m) && Plain(r) && Plain(a) && Plain(s)
    ensures MatchesWildcard(h, Code(m, r, a, s) + [Separator] + extra) <==> MatchesWildcard(h, Code(m, r, a, s))
    ensures MatchesWildcard(Code(m, r, a, s) + [Separator] + extra, h) <==> MatchesWildcard(Code(m, r, a, s), h)
  {
    SegmentsOfLongCode(m, r, a, s, extra);
  }

  /** A held code with fewer than four segments compares its missing
      segments as `undefined`: the one-segment code `*` meets any
      one-segment required code but no four-segment one. */
  lemma ShortHeldCode(required: string, m: string, r: string, a: string, s: string)
    requires Plain(required) && Plain(m) && Plain(r) && Plain(a) && Plain(s)
    ensures MatchesWildcard(Wildcard, required)
    ensures !MatchesWildcard(Wildcard, Code(m, r, a, s))
  {
    SplitPlain(Wildcard, Separator);
    SplitPlain(required, Separator);
    SegmentsOfCode(m, r, a, s);
  }

  /** Segments are compared independently: a resource wildcard does not
      cover a different scope. */
  lemma ScopeMismatch()
    ensures !Satisfied([Code("INV", Wildcard, "read", "tenant")], Code("INV", "items", "read", "global"))
  {
    SegmentsOfCode("INV", Wildcard, "read", "tenant");
    SegmentsOfCode("INV", "items", "read", "global");
  }

  /** No rule ever denies: granting more codes never turns an allow into a deny. */
  lemma Monotonic(held: seq<string>, more: seq<string>, required: seq<string>)
    requires forall c :: c in held ==> c in more
    requires Allows(held, required)
    ensures Allows(more, required)
  {
    if !HasSuperWildcard(more) {
      forall r | r in required
        ensures Satisfied(more, r)
      {
        assert Satisfied(held, r);
      }
    }
  }

  /** Allows reads the held list only as a set. */
  lemma AllowsDependsOnMembersOnly(held: seq<string>, other: seq<string>, required: seq<string>)
    requires forall c :: c in held <==> c in other
    ensures Allows(held, required) <==> Allows(other, required)
  {
    if Allows(held, required) {
      Monotonic(held, other, required);
    }
    if Allows(other, required) {
      Monotonic(other, held, required);
    }
  }

  // ---------------------------------------------------------------------
  // The held set
  // ---------------------------------------------------------------------

  /** The code of the permission row a link points at. */
  function CodeOf(ps: seq<Permission>, permissionId: Id): (c: Option<string>)
    ensures c.Some? <==> exists i :: 0 <= i < |ps| && ps[i].id == permissionId
    ensures c.Some? ==> exists i :: 0 <= i < |ps| && ps[i].id == permissionId && ps[i].code == c.value
  {
    match Find(ps, (p: Permission) => p.id == permissionId)
    case Some(i) => Some(ps[i].code)
    case None => None
  }

  /** `links.map(l => l.permission.code)` over a list of permission ids. */
  function CodesOf(ps: seq<Permission>, ids: seq<Id>): (codes: seq<string>)
    ensures forall c :: c in codes <==> exists k :: 0 <= k < |ids| && CodeOf(ps, ids[k]) == Some(c)
  {
    if |ids| == 0 then []
    else
      var rest := CodesOf(ps, ids[1..]);
      assert forall k :: 1 <= k < |ids| ==> ids[k] == ids[1..][k - 1];
      (match CodeOf(ps, ids[0]) case Some(c) => [c] case None => []) + rest
  }

  /** `userRoles.flatMap(ur => ur.role.rolePermissions.map(rp => rp.permission.code))`. */
  function RoleCodes(st: Store, roleIds: seq<Id>): (codes: seq<string>)
    ensures forall c :: c in codes <==>
      exists k, p :: 0 <= k < |roleIds| && RolePermission(roleIds[k], p) in st.rolePermissions && CodeOf(st.permissions, p) == Some(c)
  {
    if |roleIds| == 0 then []
    else
      var first := CodesOf(st.permissions, PermissionIdsOfRole(st.rolePermissions, roleIds[0]));
      var rest := RoleCodes(st, roleIds[1..]);
      assert forall k :: 1 <= k < |roleIds| ==> roleIds[k] == roleIds[1..][k - 1];
      first + rest
  }

  /** The ids of a user's direct permissions, in link order. */
  function DirectPermissionIds(links: seq<UserPermission>, userId: Id): (ids: seq<Id>)
    ensures forall p :: p in ids <==> UserPermission(userId, p) in links
  {
    if |links| == 0 then []
    else
      (if links[0].userId == userId then [links[0].permissionId] else [])
      + DirectPermissionIds(links[1..], userId)
  }

  /** `[...new Set(xs)]`: each element once, at its first occurrence. */
  function Dedup(xs: seq<string>): (r: seq<string>)
    ensures NoDuplicates(r)
    ensures forall x :: x in r <==> x in xs
  {
    if |xs| == 0 then []
    else
      var init := Dedup(xs[..|xs| - 1]);
      var last := xs[|xs| - 1];
      assert xs == xs[..|xs| - 1] + [last];
      if last in init then init else init + [last]
  }

  /** A code reaches the user through one of the user's roles. */
  ghost predicate GrantedViaRole(st: Store, userId: Id, c: string) {
    exists k, p :: 0 <= k < |st.userRoles| && st.userRoles[k].userId == userId
      && RolePermission(st.userRoles[k].roleId, p) in st.rolePermissions
      && CodeOf(st.permissions, p) == Some(c)
  }

  /** A code is assigned to the user directly. */
  ghost predicate GrantedDirectly(st: Store, userId: Id, c: string) {
    exists p :: UserPermission(userId, p) in st.userPermissions && CodeOf(st.permissions, p) == Some(c)
  }

  predicate UserExists(st: Store, userId: Id) {
    exists i :: 0 <= i < |st.users| && st.users[i].id == userId
  }

  /** The codes collected through the user's roles are exactly the codes
      granted via a role. */
  lemma RoleCodesGranted(st: Store, userId: Id)
    ensures forall c :: c in RoleCodes(st, RoleIdsOfUser(st.userRoles, userId)) <==> GrantedViaRole(st, userId, c)
  {
    var roleIds := RoleIdsOfUser(st.userRoles, userId);
    var viaRoles := RoleCodes(st, roleIds);
    forall c | c in viaRoles ensures GrantedViaRole(st, userId, c) {
      var k, p :| 0 <= k < |roleIds| && RolePermission(roleIds[k], p) in st.rolePermissions
        && CodeOf(st.permissions, p) == Some(c);
      assert roleIds[k] in roleIds;
    }
    forall c | GrantedViaRole(st, userId, c) ensures c in viaRoles {
      GrantedViaRoleCollected(st, userId, c);
    }
  }

  /** A code granted via one of the user's roles is among the collected
      role codes. */
  lemma GrantedViaRoleCollected(st: Store, userId: Id, c: string)
    requires GrantedViaRole(st, userId, c)
    ensures c in RoleCodes(st, RoleIdsOfUser(st.userRoles, userId))
  {
    var roleIds := RoleIdsOfUser(st.userRoles, userId);
    var k, p :| 0 <= k < |st.userRoles| && st.userRoles[k].userId == userId
      && RolePermission(st.userRoles[k].roleId, p) in st.rolePermissions
      && CodeOf(st.permissions, p) == Some(c);
    var rid := st.userRoles[k].roleId;
    assert rid in roleIds;
    var m :| 0 <= m < |roleIds| && roleIds[m] == rid;
  }

  /** The codes collected from the user's direct links are exactly the codes
      granted directly. */
  lemma DirectCodesGranted(st: Store, userId: Id)
    ensures forall c :: c in CodesOf(st.permissions, DirectPermissionIds(st.userPermissions, userId)) <==>
      GrantedDirectly(st, userId, c)
  {
    var direct := CodesOf(st.permissions, DirectPermissionIds(st.userPermissions, userId));
    var ids := DirectPermissionIds(st.userPermissions, userId);
    forall c ensures c in direct <==> GrantedDirectly(st, userId, c) {
      if GrantedDirectly(st, userId, c) {
        var p :| UserPermission(userId, p) in st.userPermissions && CodeOf(st.permissions, p) == Some(c);
        assert p in ids;
        var m :| 0 <= m < |ids| && ids[m] == p;
      }
    }
  }

  /** `getUserPermissions`. The user row is found by id alone, and neither
      the role rows nor the permission rows are filtered by `deletedAt` or
      `isActive`. */
  function UserPermissions(st: Store, userId: Id): (codes: seq<string>)
    ensures NoDuplicates(codes)
    ensures !UserExists(st, userId) ==> codes == []
    ensures UserExists(st, userId) ==>
      forall c :: c in codes <==> GrantedViaRole(st, userId, c) || GrantedDirectly(st, userId, c)
  {
    match Find(st.users, (u: User) => u.id == userId)
    case None => []
    case Some(_) =>
      var roleIds := RoleIdsOfUser(st.userRoles, userId);
      var viaRoles := RoleCodes(st, roleIds);
      var direct := CodesOf(st.permissions, DirectPermissionIds(st.userPermissions, userId));
      RoleCodesGranted(st, userId);
      DirectCodesGranted(st, userId);
      Dedup(viaRoles + direct)
  }

  /** A permission code some held code matches, or the code itself. */
  ghost predicate Held(st: Store, userId: Id, c: string) {
    GrantedViaRole(st, userId, c) || GrantedDirectly(st, userId, c)
  }

  /** The guard's verdict on an existing user, stated over the codes the
      user is granted rather than over the aggregated list. */
  lemma AllowsIffGranted(st: Store, userId: Id, required: seq<string>)
    requires UserExists(st, userId)
    ensures Allows(UserPermissions(st, userId), required) <==>
      || Held(st, userId, GlobalWildcard)
      || Held(st, userId, AdminWildcard)
      || forall r :: r in required ==>
           Held(st, userId, r) || exists c :: Held(st, userId, c) && MatchesWildcard(c, r)
  {
    var held := UserPermissions(st, userId);
    forall r | r in required
      ensures Satisfied(held, r) <==>
        (Held(st, userId, r) || exists c :: Held(st, userId, c) && MatchesWildcard(c, r))
    {
      if exists c :: Held(st, userId, c) && MatchesWildcard(c, r) {
        var c :| Held(st, userId, c) && MatchesWildcard(c, r);
        assert c in held;
      }
    }
  }

  // ---------------------------------------------------------------------
  // The decision
  // ---------------------------------------------------------------------

  /** `canActivate`. The route's public flag, its declared requirement (None:
      nothing declared) and the request's user id come from the request. */
  method CanActivate(st: Store, isPublic: bool, required: Option<seq<string>>, user: Option<Id>)
    returns (r: Result<bool>)
    ensures isPublic ==> r == Ok(true)
    ensures !isPublic && (required.None? || |required.value| == 0) ==> r == Ok(true)
    ensures !isPublic && required.Some? && |required.value| > 0 && user.None? ==> r == Err(Forbidden)
    ensures !isPublic && required.Some? && |required.value| > 0 && user.Some? ==>
      (r == Ok(true) <==> Allows(UserPermissions(st, user.value), required.value))
    ensures r == Ok(true) || r == Err(Forbidden)
  {
    if isPublic {
      return Ok(true);
    }
    if required.None? || |required.value| == 0 {
      return Ok(true);
    }
    if user.None? {
      return Err(Forbidden);
    }
    var held := UserPermissions(st, user.value);
    var ok := CheckPermissions(held, required.value);
    if !ok {
      return Err(Forbidden);
    }
    return Ok(true);
  }

  /** An unknown user holds nothing, so only an empty requirement passes. */
  lemma UnknownUserHoldsNothing(st: Store, userId: Id, required: seq<string>)
    requires !UserExists(st, userId)
    ensures Allows(UserPermissions(st, userId), required) <==> |required| == 0
  {
    if |required| > 0 {
      assert required[0] in required;
    }
  }
}

=== FILE: items.dfy ===
/**
 The item catalogue and its unit conversions. Every conversion row gives
 the factor that turns one unit of `unitId` into the item's base unit; a
 quantity moves between two configured units through the base unit. The
 table is keyed by (item, purpose, unit) and keeps at most one default per
 (item, purpose).

 Quantities and factors are exact reals: the source's floating point and
 decimal rounding are not part of this model.
 */
module Items {

  import opened Common

  type Id = string
  type Time = nat

  /** A label of the unit-purpose enumeration (purchase, sale, ...). */
  type Purpose = string

  /** The smallest factor a conversion may carry. */
  const MinFactor: real := 0.00000001

  datatype Item = Item(
    id: Id,
    tenantId: Id,
    code: string,
    name: string,
    categoryId: Id,
    baseUnitId: Id,
    isInventoriable: bool,
    currentStock: Option<real>,
    isActive: bool,
    deletedAt: Option<Time>,
    version: nat)

  datatype Category = Category(id: Id, tenantId: Id)

  datatype Conversion = Conversion(
    id: Id,
    itemId: Id,
    purpose: Purpose,
    unitId: Id,
    factor: real,
    isDefault: bool,
    isActive: bool)

  /** The tables the item service reads and writes. Units of measure are
      known only by id. */
  datatype Catalog = Catalog(
    items: seq<Item>,
    categories: seq<Category>,
    unitIds: seq<Id>,
    conversions: seq<Conversion>)

  datatype CreateItemDto = CreateItemDto(
    code: string,
    name: string,
    categoryId: Id,
    baseUnitId: Id,
    isInventoriable: bool,
    currentStock: Option<real>)

  /** The partial create DTO: the fields an update may carry; absent
      fields are left alone. */
  datatype UpdateItemDto = UpdateItemDto(
    code: Option<string>,
    name: Option<string>,
    categoryId: Option<Id>,
    baseUnitId: Option<Id>,
    isInventoriable: Option<bool>,
    currentStock: Option<real>)

  datatype AddUnitConversionDto = AddUnitConversionDto(
    purpose: Purpose,
    unitId: Id,
    factor: real,
    isDefault: Option<bool>)

  /** What `findOne` returns: the item and its active conversions. */
  datatype ItemDetail = ItemDetail(item: Item, conversions: seq<Conversion>)

  /** The answer of `convertQuantity`. The base quantity is absent when
      both units are the same and nothing was looked up. */
  datatype Converted = Converted(quantity: real, convertedQuantity: real, baseQuantity: Option<real>)

  /** One line of `getStockInAllUnits`. */
  datatype StockInUnit = StockInUnit(purpose: Purpose, unitId: Id, quantity: real, isDefault: bool)

  // ---------------------------------------------------------------------
  // Invariants of the conversion table
  // ---------------------------------------------------------------------

  /** Every factor is positive, as the input validation guarantees. */
  predicate FactorsPositive(convs: seq<Conversion>) {
    forall i :: 0 <= i < |convs| ==> convs[i].factor > 0.0
  }

  /** No two rows are defaults for the same item and purpose. */
  predicate OneDefault(convs: seq<Conversion>) {
    forall i, j :: 0 <= i < |convs| && 0 <= j < |convs| && convs[i].isDefault && convs[j].isDefault
      && convs[i].itemId == convs[j].itemId && convs[i].purpose == convs[j].purpose
      ==> i == j
  }

  // ---------------------------------------------------------------------
  // Items
  // ---------------------------------------------------------------------

  /** The filter `{ id, tenantId, deletedAt: null }`. */
  predicate Visible(it: Item, id: Id, tenantId: Id) {
    it.id == id && it.tenantId == tenantId && it.deletedAt.None?
  }

  function Locate(items: seq<Item>, id: Id, tenantId: Id): (k: Option<nat>)
    ensures k.None? <==> forall i :: 0 <= i < |items| ==> !Visible(items[i], id, tenantId)
    ensures k.Some? ==> k.value < |items| && Visible(items[k.value], id, tenantId)
  {
    Find(items, (it: Item) => Visible(it, id, tenantId))
  }

  /** No two items of a tenant share a code: the store's unique key. */
  predicate CodesUnique(items: seq<Item>) {
    forall i, j :: 0 <= i < j < |items| && items[i].tenantId == items[j].tenantId ==> items[i].code != items[j].code
  }

  predicate ItemIdsUnique(items: seq<Item>) {
    forall i, j :: 0 <= i < j < |items| ==> items[i].id != items[j].id
  }

  /** The unique key (tenantId, code) is taken, by any row, deleted or not. */
  predicate CodeTaken(items: seq<Item>, tenantId: Id, code: string) {
    exists i :: 0 <= i < |items| && items[i].tenantId == tenantId && items[i].code == code
  }

  /** The category exists and belongs to the tenant. */
  predicate CategoryOf(cats: seq<Category>, id: Id, tenantId: Id) {
    exists i :: 0 <= i < |cats| && cats[i].id == id && cats[i].tenantId == tenantId
  }

  /** The category row found by id exists and belongs to the tenant. */
  function CategoryOk(cats: seq<Category>, id: Id, tenantId: Id): (ok: bool)
    ensures ok <==>
      exists i :: 0 <= i < |cats| && cats[i].id == id && cats[i].tenantId == tenantId &&
        forall j :: 0 <= j < i ==> cats[j].id != id
  {
    match Find(cats, (c: Category) => c.id == id)
    case None => false
    case Some(i) => cats[i].tenantId == tenantId
  }

  function Create(c: Catalog, dto: CreateItemDto, tenantId: Id, newId: Id): (r: Result<Catalog>)
    requires forall i :: 0 <= i < |c.items| ==> c.items[i].id != newId
    ensures CodeTaken(c.items, tenantId, dto.code) ==> r == Err(Conflict)
    ensures !CodeTaken(c.items, tenantId, dto.code) && !CategoryOk(c.categories, dto.categoryId, tenantId)
      ==> r == Err(NotFound)
    ensures !CodeTaken(c.items, tenantId, dto.code) && CategoryOk(c.categories, dto.categoryId, tenantId)
      && dto.baseUnitId !in c.unitIds
      ==> r == Err(NotFound)
    ensures r.Ok? <==>
      !CodeTaken(c.items, tenantId, dto.code) && CategoryOk(c.categories, dto.categoryId, tenantId)
      && dto.baseUnitId in c.unitIds
    ensures r.Err? ==> r.kind == NotFound || r.kind == Conflict
    ensures r.Ok? ==> CategoryOf(c.categories, dto.categoryId, tenantId) && dto.baseUnitId in c.unitIds
    ensures r.Ok? ==> |r.value.items| == |c.items| + 1
    ensures r.Ok? ==> r.value == c.(items := c.items + [r.value.items[|c.items|]])
    ensures r.Ok? ==>
      var n := r.value.items[|c.items|];
      && n.id == newId && n.tenantId == tenantId && n.code == dto.code
      && n.name == dto.name && n.categoryId == dto.categoryId && n.baseUnitId == dto.baseUnitId
      && n.isInventoriable == dto.isInventoriable && n.currentStock == dto.currentStock
      && n.isActive && n.deletedAt.None?
  {
    if Find(c.items, (it: Item) => it.tenantId == tenantId && it.code == dto.code).Some? then Err(Conflict)
    else if !CategoryOk(c.categories, dto.categoryId, tenantId) then Err(NotFound)
    else if dto.baseUnitId !in c.unitIds then Err(NotFound)
    else
      var it := Item(newId, tenantId, dto.code, dto.name, dto.categoryId, dto.baseUnitId,
                     dto.isInventoriable, dto.currentStock, true, None, 1);
      Ok(c.(items := c.items + [it]))
  }

  /** The active conversions of an item, optionally of one purpose. */
  predicate Listed(cv: Conversion, itemId: Id, purpose: Option<Purpose>) {
    cv.itemId == itemId && cv.isActive && (purpose.None? || cv.purpose == purpose.value)
  }

  function FindOne(c: Catalog, id: Id, tenantId: Id): (r: Result<ItemDetail>)
    ensures r.Err? <==> forall i :: 0 <= i < |c.items| ==> !Visible(c.items[i], id, tenantId)
    ensures r.Err? ==> r.kind == NotFound
    ensures r.Ok? ==> r.value.item in c.items && Visible(r.value.item, id, tenantId)
    ensures r.Ok? ==> forall k :: 0 <= k < |r.value.conversions| ==>
      r.value.conversions[k] in c.conversions && Listed(r.value.conversions[k], id, None)
    ensures r.Ok? ==> forall j :: 0 <= j < |c.conversions| && Listed(c.conversions[j], id, None) ==>
      c.conversions[j] in r.value.conversions
  {
    match Locate(c.items, id, tenantId)
    case None => Err(NotFound)
    case Some(i) => Ok(ItemDetail(c.items[i], Filter(c.conversions, (cv: Conversion) => Listed(cv, id, None))))
  }

  /** The update asks for a code that another row of the tenant holds. */
  predicate CodeClash(items: seq<Item>, tenantId: Id, it: Item, dto: UpdateItemDto) {
    dto.code.Some? && dto.code.value != it.code && CodeTaken(items, tenantId, dto.code.value)
  }

  /** The update moves the item to a category that is missing or belongs
      to another tenant. */
  predicate CategoryRejected(cats: seq<Category>, tenantId: Id, it: Item, dto: UpdateItemDto) {
    dto.categoryId.Some? && dto.categoryId.value != it.categoryId && !CategoryOk(cats, dto.categoryId.value, tenantId)
  }

  /** The update moves the item to a base unit that does not exist. */
  predicate UnitRejected(unitIds: seq<Id>, it: Item, dto: UpdateItemDto) {
    dto.baseUnitId.Some? && dto.baseUnitId.value != it.baseUnitId && dto.baseUnitId.value !in unitIds
  }

  /** The row a successful update writes: every field the request carries
      replaces the stored one, and the version goes up by one. */
  function PatchItem(it: Item, dto: UpdateItemDto): Item {
    it.(code := dto.code.GetOr(it.code), name := dto.name.GetOr(it.name),
        categoryId := dto.categoryId.GetOr(it.categoryId), baseUnitId := dto.baseUnitId.GetOr(it.baseUnitId),
        isInventoriable := dto.isInventoriable.GetOr(it.isInventoriable),
        currentStock := if dto.currentStock.Some? then dto.currentStock else it.currentStock,
        version := it.version + 1)
  }

  function Update(c: Catalog, id: Id, tenantId: Id, dto: UpdateItemDto): (r: Result<Catalog>)
    requires dto.code != Some("") && dto.categoryId != Some("") && dto.baseUnitId != Some("")
    ensures Locate(c.items, id, tenantId).None? ==> r == Err(NotFound)
    ensures Locate(c.items, id, tenantId).Some? ==>
      var old_ := c.items[Locate(c.items, id, tenantId).value];
      var clash := CodeClash(c.items, tenantId, old_, dto);
      var badCategory := CategoryRejected(c.categories, tenantId, old_, dto);
      var badUnit := UnitRejected(c.unitIds, old_, dto);
      && (clash ==> r == Err(Conflict))
      && (!clash && badCategory ==> r == Err(NotFound))
      && (!clash && !badCategory && badUnit ==> r == Err(NotFound))
      && (r.Ok? <==> !clash && !badCategory && !badUnit)
    ensures r.Err? ==> r.kind == NotFound || r.kind == Conflict
    ensures r.Ok? ==> |r.value.items| == |c.items|
    ensures r.Ok? ==>
      var i := Locate(c.items, id, tenantId).value;
      var old_ := c.items[i];
      var new_ := r.value.items[i];
      && r.value == c.(items := c.items[i := new_])
      && new_ == old_.(code := new_.code, name := new_.name, categoryId := new_.categoryId,
                       baseUnitId := new_.baseUnitId, isInventoriable := new_.isInventoriable,
                       currentStock := new_.currentStock, version := new_.version)
      && new_.version == old_.version + 1
      && new_.code == dto.code.GetOr(old_.code)
      && new_.name == dto.name.GetOr(old_.name)
      && new_.categoryId == dto.categoryId.GetOr(old_.categoryId)
      && new_.baseUnitId == dto.baseUnitId.GetOr(old_.baseUnitId)
      && new_.isInventoriable == dto.isInventoriable.GetOr(old_.isInventoriable)
      && new_.currentStock == (if dto.currentStock.Some? then dto.currentStock else old_.currentStock)
      && (new_.categoryId != old_.categoryId ==> CategoryOf(c.categories, new_.categoryId, tenantId))
      && (new_.baseUnitId != old_.baseUnitId ==> new_.baseUnitId in c.unitIds)
  {
    match Locate(c.items, id, tenantId)
    case None => Err(NotFound)
    case Some(i) =>
      var it := c.items[i];
      if dto.code.Some? && dto.code.value != it.code
        && Find(c.items, (x: Item) => x.tenantId == tenantId && x.code == dto.code.value).Some?
      then Err(Conflict)
      else if dto.categoryId.Some? && dto.categoryId.value != it.categoryId
        && !CategoryOk(c.categories, dto.categoryId.value, tenantId)
      then Err(NotFound)
      else if dto.baseUnitId.Some? && dto.baseUnitId.value != it.baseUnitId && dto.baseUnitId.value !in c.unitIds
      then Err(NotFound)
      else Ok(c.(items := c.items[i := PatchItem(it, dto)]))
  }

  function Remove(c: Catalog, id: Id, tenantId: Id, now: Time): (r: Result<Catalog>)
    ensures r.Err? <==> Locate(c.items, id, tenantId).None?
    ensures r.Err? ==> r.kind == NotFound
    ensures r.Ok? ==>
      var i := Locate(c.items, id, tenantId).value;
      && |r.value.items| == |c.items|
      && r.value == c.(items := c.items[i := r.value.items[i]])
      && r.value.items[i] == c.items[i].(deletedAt := Some(now), isActive := false)
  {
    match Locate(c.items, id, tenantId)
    case None => Err(NotFound)
    case Some(i) => Ok(c.(items := c.items[i := c.items[i].(deletedAt := Some(now), isActive := false)]))
  }

  /** Removing an item hides it from `findOne`. */
  lemma RemoveHides(c: Catalog, id: Id, tenantId: Id, now: Time)
    requires forall i, j :: 0 <= i < j < |c.items| ==> c.items[i].id != c.items[j].id
    requires Remove(c, id, tenantId, now).Ok?
    ensures FindOne(Remove(c, id, tenantId, now).value, id, tenantId) == Err(NotFound)
  {
    var i := Locate(c.items, id, tenantId).value;
    var items' := Remove(c, id, tenantId, now).value.items;
    forall j | 0 <= j < |items'|
      ensures !Visible(items'[j], id, tenantId)
    {
      if j != i {
        assert items'[j] == c.items[j];
        assert c.items[j].id != c.items[i].id;
      }
    }
  }

  // ---------------------------------------------------------------------
  // Conversion table maintenance
  // ---------------------------------------------------------------------

  /** The unique key (itemId, purpose, unitId) is taken, active or not. */
  predicate TripleTaken(convs: seq<Conversion>, itemId: Id, purpose: Purpose, unitId: Id) {
    exists k :: 0 <= k < |convs| && convs[k].itemId == itemId && convs[k].purpose == purpose && convs[k].unitId == unitId
  }

  /** The `updateMany` that clears the defaults of one (item, purpose). */
  function ClearDefaults(convs: seq<Conversion>, itemId: Id, purpose: Purpose): (r: seq<Conversion>)
    ensures |r| == |convs|
    ensures forall k :: 0 <= k < |r| ==>
      if convs[k].itemId == itemId && convs[k].purpose == purpose then r[k] == convs[k].(isDefault := false)
      else r[k] == convs[k]
  {
    seq(|convs|, k requires 0 <= k < |convs| =>
      if convs[k].itemId == itemId && convs[k].purpose == purpose then convs[k].(isDefault := false) else convs[k])
  }

  function AddUnitConversion(c: Catalog, itemId: Id, tenantId: Id, dto: AddUnitConversionDto, newId: Id): (r: Result<Catalog>)
    requires dto.factor >= MinFactor
    ensures Locate(c.items, itemId, tenantId).None? ==> r == Err(NotFound)
    ensures Locate(c.items, itemId, tenantId).Some? && dto.unitId !in c.unitIds ==> r == Err(NotFound)
    ensures Locate(c.items, itemId, tenantId).Some? && dto.unitId in c.unitIds
      && TripleTaken(c.conversions, itemId, dto.purpose, dto.unitId)
      ==> r == Err(Conflict)
    ensures r.Ok? <==> (Locate(c.items, itemId, tenantId).Some? && dto.unitId in c.unitIds
      && !TripleTaken(c.conversions, itemId, dto.purpose, dto.unitId))
    ensures r.Ok? ==> r.value == c.(conversions := r.value.conversions)
    ensures r.Ok? ==>
      var cs := r.value.conversions;
      var n := |c.conversions|;
      && |cs| == n + 1
      && cs[n] == Conversion(newId, itemId, dto.purpose, dto.unitId, dto.factor, dto.isDefault.GetOr(false), true)
      && (forall k :: 0 <= k < n ==> cs[k] == c.conversions[k].(isDefault := cs[k].isDefault))
      && (forall k :: 0 <= k < n && !(c.conversions[k].itemId == itemId && c.conversions[k].purpose == dto.purpose)
            ==> cs[k] == c.conversions[k])
      && (dto.isDefault != Some(true) ==> cs[..n] == c.conversions)
      && (dto.isDefault == Some(true) ==> forall k :: 0 <= k < n && cs[k].isDefault ==>
            !(cs[k].itemId == itemId && cs[k].purpose == dto.purpose))
  {
    match Locate(c.items, itemId, tenantId)
    case None => Err(NotFound)
    case Some(_) =>
      if dto.unitId !in c.unitIds then Err(NotFound)
      else if Find(c.conversions, (cv: Conversion) =>
                cv.itemId == itemId && cv.purpose == dto.purpose && cv.unitId == dto.unitId).Some?
      then Err(Conflict)
      else
        var isDefault := dto.isDefault.GetOr(false);
        var kept := if isDefault then ClearDefaults(c.conversions, itemId, dto.purpose) else c.conversions;
        var row := Conversion(newId, itemId, dto.purpose, dto.unitId, dto.factor, isDefault, true);
        assert (kept + [row])[..|c.conversions|] == kept;
        Ok(c.(conversions := kept + [row]))
  }

  /** Adding a conversion keeps both invariants of the table; a default
      row is then the only default of its item and purpose. */
  lemma AddKeepsInvariants(c: Catalog, itemId: Id, tenantId: Id, dto: AddUnitConversionDto, newId: Id)
    requires dto.factor >= MinFactor
    requires FactorsPositive(c.conversions) && OneDefault(c.conversions)
    requires AddUnitConversion(c, itemId, tenantId, dto, newId).Ok?
    ensures var cs := AddUnitConversion(c, itemId, tenantId, dto, newId).value.conversions;
      FactorsPositive(cs) && OneDefault(cs)
  {
    var cs := AddUnitConversion(c, itemId, tenantId, dto, newId).value.conversions;
    var n := |c.conversions|;
    forall i, j | 0 <= i < |cs| && 0 <= j < |cs| && cs[i].isDefault && cs[j].isDefault
      && cs[i].itemId == cs[j].itemId && cs[i].purpose == cs[j].purpose
      ensures i == j
    {
      if i < n && j < n {
        assert c.conversions[i].isDefault && c.conversions[j].isDefault;
      }
    }
  }

  /** After adding a default, exactly that row is the default of its item
      and purpose. */
  lemma AddedDefaultIsSole(c: Catalog, itemId: Id, tenantId: Id, dto: AddUnitConversionDto, newId: Id, k: nat)
    requires dto.factor >= MinFactor && dto.isDefault == Some(true)
    requires AddUnitConversion(c, itemId, tenantId, dto, newId).Ok?
    requires var cs := AddUnitConversion(c, itemId, tenantId, dto, newId).value.conversions;
      k < |cs| && cs[k].itemId == itemId && cs[k].purpose == dto.purpose && cs[k].isDefault
    ensures k == |c.conversions|
  {
  }

  function RemoveUnitConversion(c: Catalog, itemId: Id, conversionId: Id, tenantId: Id): (r: Result<Catalog>)
    ensures Locate(c.items, itemId, tenantId).None? ==> r == Err(NotFound)
    ensures Locate(c.items, itemId, tenantId).Some? ==>
      (r.Ok? <==> exists k :: 0 <= k < |c.conversions| && c.conversions[k].id == conversionId
                             && (forall j :: 0 <= j < k ==> c.conversions[j].id != conversionId)
                             && c.conversions[k].itemId == itemId)
    ensures r.Err? ==> r.kind == NotFound
    ensures r.Ok? ==> r.value == c.(conversions := r.value.conversions)
    ensures r.Ok? ==> forall k :: 0 <= k < |r.value.conversions| ==>
      r.value.conversions[k] in c.conversions && r.value.conversions[k].id != conversionId
    ensures r.Ok? ==> forall j :: 0 <= j < |c.conversions| && c.conversions[j].id != conversionId ==>
      c.conversions[j] in r.value.conversions
  {
    match Locate(c.items, itemId, tenantId)
    case None => Err(NotFound)
    case Some(_) =>
      match Find(c.conversions, (cv: Conversion) => cv.id == conversionId)
      case None => Err(NotFound)
      case Some(k) =>
        if c.conversions[k].itemId != itemId then Err(NotFound)
        else Ok(c.(conversions := Filter(c.conversions, (cv: Conversion) => cv.id != conversionId)))
  }

  // ---------------------------------------------------------------------
  // Conversions and stock
  // ---------------------------------------------------------------------

  /** `q1` units of factor `f1` and `q2` units of factor `f2` are the same
      quantity of the base unit. */
  predicate SameAmount(q1: real, f1: real, q2: real, f2: real) {
    q1 * f1 == q2 * f2
  }

  /** The factor of the first active conversion of the item for the unit,
      whatever its purpose. */
  function FactorOf(convs: seq<Conversion>, itemId: Id, unitId: Id): (f: Option<real>)
    ensures f.None? <==> forall k :: 0 <= k < |convs| ==> !(convs[k].itemId == itemId && convs[k].unitId == unitId && convs[k].isActive)
    ensures f.Some? ==>
      exists k :: 0 <= k < |convs| && convs[k].itemId == itemId && convs[k].unitId == unitId &&
        convs[k].isActive && convs[k].factor == f.value
  {
    match Find(convs, (cv: Conversion) => cv.itemId == itemId && cv.unitId == unitId && cv.isActive)
    case None => None
    case Some(k) => Some(convs[k].factor)
  }

  function ConvertQuantity(c: Catalog, itemId: Id, tenantId: Id, fromUnitId: Id, toUnitId: Id, quantity: real)
    : (r: Result<Converted>)
    requires FactorsPositive(c.conversions)
    ensures Locate(c.items, itemId, tenantId).None? ==> r == Err(NotFound)
    ensures Locate(c.items, itemId, tenantId).Some? && fromUnitId == toUnitId ==>
      r == Ok(Converted(quantity, quantity, None))
    ensures Locate(c.items, itemId, tenantId).Some? && fromUnitId != toUnitId ==>
      var src := FactorOf(c.conversions, itemId, fromUnitId);
      var dst := FactorOf(c.conversions, itemId, toUnitId);
      && (src.None? ==> r == Err(BadRequest))
      && (src.Some? && dst.None? ==> r == Err(BadRequest))
      && (src.Some? && dst.Some? ==>
            && r.Ok? && r.value.quantity == quantity
            && r.value.baseQuantity.Some? && r.value.baseQuantity.value == quantity * src.value
            && SameAmount(r.value.convertedQuantity, dst.value, quantity, src.value))
  {
    if Locate(c.items, itemId, tenantId).None? then Err(NotFound)
    else if fromUnitId == toUnitId then Ok(Converted(quantity, quantity, None))
    else
      var src := FactorOf(c.conversions, itemId, fromUnitId);
      var dst := FactorOf(c.conversions, itemId, toUnitId);
      if src.None? then Err(BadRequest)
      else if dst.None? then Err(BadRequest)
      else
        var base := quantity * src.value;
        DivMul(base, dst.value);
        Ok(Converted(quantity, base / dst.value, Some(base)))
  }

  /** Converting there and back returns the quantity, exactly. */
  lemma ConvertRoundTrip(c: Catalog, itemId: Id, tenantId: Id, a: Id, b: Id, quantity: real)
    requires FactorsPositive(c.conversions)
    requires ConvertQuantity(c, itemId, tenantId, a, b, quantity).Ok?
    ensures var there := ConvertQuantity(c, itemId, tenantId, a, b, quantity).value.convertedQuantity;
      var back := ConvertQuantity(c, itemId, tenantId, b, a, there);
      back.Ok? && back.value.convertedQuantity == quantity
  {
    var there := ConvertQuantity(c, itemId, tenantId, a, b, quantity).value.convertedQuantity;
    if a != b {
      var fa := FactorOf(c.conversions, itemId, a);
      var fb := FactorOf(c.conversions, itemId, b);
      assert fa.Some? && fb.Some?;
      assert fa.value > 0.0;
      var back := ConvertQuantity(c, itemId, tenantId, b, a, there);
      assert back.Ok?;
      SameAmountCancel(back.value.convertedQuantity, there, quantity, fa.value, fb.value);
    }
  }

  /** Amounts equal to a common amount are equal: `x` of `f` equals `t` of
      `g`, which equals `q` of `f`, so `x` is `q`. */
  lemma SameAmountCancel(x: real, t: real, q: real, f: real, g: real)
    requires f > 0.0
    requires SameAmount(t, g, q, f) && SameAmount(x, f, t, g)
    ensures x == q
  {
    MulCancel(x, q, f);
  }

  lemma MulCancel(x: real, y: real, f: real)
    requires f > 0.0 && x * f == y * f
    ensures x == y
  {
  }

  lemma DivMul(x: real, f: real)
    requires f > 0.0
    ensures (x / f) * f == x
  {
  }

  /** The active conversions of an item, in table order. */
  function ActiveConversions(c: Catalog, itemId: Id, purpose: Option<Purpose>): (r: seq<Conversion>)
    ensures forall k :: 0 <= k < |r| ==> r[k] in c.conversions && Listed(r[k], itemId, purpose)
    ensures forall j :: 0 <= j < |c.conversions| && Listed(c.conversions[j], itemId, purpose) ==> c.conversions[j] in r
  {
    Filter(c.conversions, (cv: Conversion) => Listed(cv, itemId, purpose))
  }

  /** `getUnitConversions`: the item must be visible. */
  function GetUnitConversions(c: Catalog, itemId: Id, tenantId: Id, purpose: Option<Purpose>): (r: Result<seq<Conversion>>)
    ensures r.Err? <==> Locate(c.items, itemId, tenantId).None?
    ensures r.Err? ==> r.kind == NotFound
    ensures r.Ok? ==> forall k :: 0 <= k < |r.value| ==> r.value[k] in c.conversions && Listed(r.value[k], itemId, purpose)
    ensures r.Ok? ==> forall j :: 0 <= j < |c.conversions| && Listed(c.conversions[j], itemId, purpose) ==>
      c.conversions[j] in r.value
  {
    match Locate(c.items, itemId, tenantId)
    case None => Err(NotFound)
    case Some(_) => Ok(ActiveConversions(c, itemId, purpose))
  }

  lemma ActivePositive(c: Catalog, itemId: Id)
    requires FactorsPositive(c.conversions)
    ensures FactorsPositive(ActiveConversions(c, itemId, None))
  {
    var convs := ActiveConversions(c, itemId, None);
    forall k | 0 <= k < |convs| ensures convs[k].factor > 0.0 {
      assert convs[k] in c.conversions;
    }
  }

  /** The stock expressed in each of the given conversions' units. */
  function StockLines(stock: real, convs: seq<Conversion>): (lines: seq<StockInUnit>)
    requires FactorsPositive(convs)
    ensures |lines| == |convs|
    ensures forall k :: 0 <= k < |convs| ==>
      && lines[k].purpose == convs[k].purpose
      && lines[k].unitId == convs[k].unitId
      && lines[k].isDefault == convs[k].isDefault
      && SameAmount(lines[k].quantity, convs[k].factor, stock, 1.0)
  {
    if |convs| == 0 then []
    else
      DivMul(stock, convs[0].factor);
      var rest := StockLines(stock, convs[1..]);
      [StockInUnit(convs[0].purpose, convs[0].unitId, stock / convs[0].factor, convs[0].isDefault)] + rest
  }

  function GetStockInAllUnits(c: Catalog, itemId: Id, tenantId: Id): (r: Result<seq<StockInUnit>>)
    requires FactorsPositive(c.conversions)
    ensures Locate(c.items, itemId, tenantId).None? ==> r == Err(NotFound)
    ensures Locate(c.items, itemId, tenantId).Some? ==>
      var it := c.items[Locate(c.items, itemId, tenantId).value];
      && (!it.isInventoriable || it.currentStock.None? ==> r == Err(BadRequest))
      && (it.isInventoriable && it.currentStock.Some? ==>
            var convs := ActiveConversions(c, itemId, None);
            && r.Ok? && |r.value| == |convs|
            && forall k :: 0 <= k < |convs| ==>
                 && r.value[k].purpose == convs[k].purpose
                 && r.value[k].unitId == convs[k].unitId
                 && r.value[k].isDefault == convs[k].isDefault
                 && SameAmount(r.value[k].quantity, convs[k].factor, it.currentStock.value, 1.0))
  {
    match Locate(c.items, itemId, tenantId)
    case None => Err(NotFound)
    case Some(i) =>
      var it := c.items[i];
      if !it.isInventoriable || it.currentStock.None? then Err(BadRequest)
      else
        ActivePositive(c, itemId);
        Ok(StockLines(it.currentStock.value, ActiveConversions(c, itemId, None)))
  }

  // ---------------------------------------------------------------------
  // Properties relating several calls
  // ---------------------------------------------------------------------

  /** Creating an item keeps codes unique within each tenant. */
  lemma CreateKeepsCodesUnique(c: Catalog, dto: CreateItemDto, tenantId: Id, newId: Id)
    requires forall i :: 0 <= i < |c.items| ==> c.items[i].id != newId
    requires CodesUnique(c.items)
    requires Create(c, dto, tenantId, newId).Ok?
    ensures CodesUnique(Create(c, dto, tenantId, newId).value.items)
  {
    var its := Create(c, dto, tenantId, newId).value.items;
    forall a, b | 0 <= a < b < |its| && its[a].tenantId == its[b].tenantId
      ensures its[a].code != its[b].code
    {
      assert its[a] == c.items[a];
      if b < |c.items| {
        assert its[b] == c.items[b];
      }
    }
  }

  /** A successful update keeps codes unique within each tenant. */
  lemma UpdateKeepsCodesUnique(c: Catalog, id: Id, tenantId: Id, dto: UpdateItemDto)
    requires dto.code != Some("") && dto.categoryId != Some("") && dto.baseUnitId != Some("")
    requires CodesUnique(c.items)
    requires Update(c, id, tenantId, dto).Ok?
    ensures CodesUnique(Update(c, id, tenantId, dto).value.items)
  {
    var its := Update(c, id, tenantId, dto).value.items;
    var i := Locate(c.items, id, tenantId).value;
    forall a, b | 0 <= a < b < |its| && its[a].tenantId == its[b].tenantId
      ensures its[a].code != its[b].code
    {
      if a == i || b == i {
        var other := if a == i then b else a;
        assert its[other] == c.items[other];
        if dto.code.Some? && dto.code.value != c.items[i].code {
          assert !CodeTaken(c.items, tenantId, dto.code.value);
        } else {
          assert c.items[a].code != c.items[b].code;
        }
      } else {
        assert its[a] == c.items[a] && its[b] == c.items[b];
      }
    }
  }

  /** After an update, `findOne` answers with the patched item and the same
      conversions. */
  lemma UpdateThenFindOne(c: Catalog, id: Id, tenantId: Id, dto: UpdateItemDto)
    requires dto.code != Some("") && dto.categoryId != Some("") && dto.baseUnitId != Some("")
    requires ItemIdsUnique(c.items)
    requires Update(c, id, tenantId, dto).Ok?
    ensures var after := Update(c, id, tenantId, dto).value;
      && FindOne(after, id, tenantId).Ok?
      && FindOne(after, id, tenantId).value.item == PatchItem(c.items[Locate(c.items, id, tenantId).value], dto)
      && FindOne(after, id, tenantId).value.conversions == FindOne(c, id, tenantId).value.conversions
  {
    var its := Update(c, id, tenantId, dto).value.items;
    var i := Locate(c.items, id, tenantId).value;
    forall m | 0 <= m < |its| && m != i
      ensures !Visible(its[m], id, tenantId)
    {
      assert its[m] == c.items[m];
      assert c.items[m].id != c.items[i].id;
    }
    assert Locate(its, id, tenantId) == Some(i);
  }

  /** Two default rows for the same item and purpose. */
  predicate DefaultClash(a: Conversion, b: Conversion) {
    a.isDefault && b.isDefault && a.itemId == b.itemId && a.purpose == b.purpose
  }

  lemma TailKeepsOneDefault(convs: seq<Conversion>)
    requires |convs| > 0 && OneDefault(convs)
    ensures OneDefault(convs[1..])
    ensures forall y :: y in convs[1..] ==> !DefaultClash(convs[0], y)
  {
    var tail := convs[1..];
    forall i, j | 0 <= i < |tail| && 0 <= j < |tail| && tail[i].isDefault && tail[j].isDefault
      && tail[i].itemId == tail[j].itemId && tail[i].purpose == tail[j].purpose
      ensures i == j
    {
      assert convs[i + 1] == tail[i] && convs[j + 1] == tail[j];
    }
    forall y | y in tail ensures !DefaultClash(convs[0], y) {
      var m :| 0 <= m < |tail| && tail[m] == y;
      assert convs[m + 1] == y;
    }
  }

  lemma ConsKeepsOneDefault(x: Conversion, rest: seq<Conversion>)
    requires OneDefault(rest)
    requires forall y :: y in rest ==> !DefaultClash(x, y)
    ensures OneDefault([x] + rest)
  {
    var r := [x] + rest;
    forall k | 1 <= k < |r| ensures !DefaultClash(r[0], r[k]) && !DefaultClash(r[k], r[0]) {
      assert r[k] == rest[k - 1];
    }
    forall i, j | 0 <= i < |r| && 0 <= j < |r| && r[i].isDefault && r[j].isDefault
      && r[i].itemId == r[j].itemId && r[i].purpose == r[j].purpose
      ensures i == j
    {
      if i > 0 && j > 0 {
        assert rest[i - 1] == r[i] && rest[j - 1] == r[j];
      }
    }
  }

  /** Dropping rows from the conversion table keeps both of its invariants. */
  lemma {:induction false} FilterKeepsInvariants(convs: seq<Conversion>, p: Conversion -> bool)
    requires FactorsPositive(convs) && OneDefault(convs)
    ensures FactorsPositive(Filter(convs, p)) && OneDefault(Filter(convs, p))
  {
    if |convs| > 0 {
      var tail := convs[1..];
      TailKeepsOneDefault(convs);
      assert FactorsPositive(tail) by {
        forall k | 0 <= k < |tail| ensures tail[k].factor > 0.0 {
          assert tail[k] == convs[k + 1];
        }
      }
      FilterKeepsInvariants(tail, p);
      var rest := Filter(tail, p);
      if p(convs[0]) {
        assert Filter(convs, p) == [convs[0]] + rest;
        ConsKeepsOneDefault(convs[0], rest);
      } else {
        assert Filter(convs, p) == rest;
      }
    }
  }

  /** Removing a conversion keeps both invariants of the table, and the
      removed row is no longer listed for the item. */
  lemma RemoveConversionKeepsInvariants(c: Catalog, itemId: Id, conversionId: Id, tenantId: Id)
    requires FactorsPositive(c.conversions) && OneDefault(c.conversions)
    requires RemoveUnitConversion(c, itemId, conversionId, tenantId).Ok?
    ensures var after := RemoveUnitConversion(c, itemId, conversionId, tenantId).value;
      && FactorsPositive(after.conversions) && OneDefault(after.conversions)
      && GetUnitConversions(after, itemId, tenantId, None).Ok?
      && forall k :: 0 <= k < |GetUnitConversions(after, itemId, tenantId, None).value| ==>
           GetUnitConversions(after, itemId, tenantId, None).value[k].id != conversionId
  {
    FilterKeepsInvariants(c.conversions, (cv: Conversion) => cv.id != conversionId);
  }

  /** `getUnitConversions` without a purpose lists exactly the conversions
      `findOne` returns with the item. */
  lemma UnitConversionsMatchFindOne(c: Catalog, itemId: Id, tenantId: Id)
    ensures GetUnitConversions(c, itemId, tenantId, None).Ok? <==> FindOne(c, itemId, tenantId).Ok?
    ensures FindOne(c, itemId, tenantId).Ok? ==>
      forall cv :: cv in GetUnitConversions(c, itemId, tenantId, None).value <==>
        cv in FindOne(c, itemId, tenantId).value.conversions
  {
  }
}

=== FILE: paging.dfy ===
/**
 Offset paging of a listing: page `page` (counted from 1) of `limit` rows
 skips `(page - 1) * limit` rows, and the number of pages is the total
 divided by the limit, rounded up.
 */
module Paging {

  /** The `meta` block of a paged answer. */
  datatype Meta = Meta(total: nat, page: nat, limit: nat, totalPages: nat)

  /** `Math.ceil(total / limit)`. */
  function TotalPages(total: nat, limit: nat): (n: nat)
    requires limit > 0
    ensures total == 0 ==> n == 0
    ensures total > 0 ==> n >= 1 && (n - 1) * limit < total <= n * limit
  {
    var n := (total + limit - 1) / limit;
    var rem := (total + limit - 1) % limit;
    assert n * limit + rem == total + limit - 1;
    assert (n - 1) * limit == n * limit - limit;
    n
  }

  /** The rows skipped before page `page`. */
  function Skip(page: nat, limit: nat): nat
    requires page >= 1
  {
    (page - 1) * limit
  }

  /** The number of rows on page `page` of a listing of `total` rows: what
      is left after skipping the earlier pages, at most `limit`. */
  function PageLength(total: nat, page: nat, limit: nat): (n: nat)
    requires page >= 1
    ensures n <= limit
    ensures n > 0 ==> Skip(page, limit) + n <= total
    ensures Skip(page, limit) + limit <= total ==> n == limit
  {
    var skip := Skip(page, limit);
    if skip >= total then 0 else if total - skip < limit then total - skip else limit
  }

  /** `skip`/`take` on an ordered listing. */
  function PageOf<T>(s: seq<T>, page: nat, limit: nat): (r: seq<T>)
    requires page >= 1 && limit >= 1
    ensures |r| <= limit
    ensures |r| == PageLength(|s|, page, limit)
    ensures forall k :: 0 <= k < |r| ==> r[k] in s
    ensures forall k :: 0 <= k < |r| ==> Skip(page, limit) + k < |s| && r[k] == s[Skip(page, limit) + k]
    ensures Skip(page, limit) + limit <= |s| ==> |r| == limit
  {
    var skip := Skip(page, limit);
    var n := PageLength(|s|, page, limit);
    if n == 0 then [] else s[skip..skip + n]
  }

  /** Every row of the listing is on exactly one page within the page count:
      row `i` is row `i % limit` of page `i / limit + 1`. */
  lemma EveryRowOnAPage<T>(s: seq<T>, limit: nat, i: nat)
    requires limit >= 1 && i < |s|
    ensures var page := i / limit + 1;
      && page <= TotalPages(|s|, limit)
      && i % limit < |PageOf(s, page, limit)|
      && PageOf(s, page, limit)[i % limit] == s[i]
  {
    var page := i / limit + 1;
    var n := TotalPages(|s|, limit);
    assert (page - 1) * limit + i % limit == i;
    MulLt(page - 1, n, limit);
  }

  lemma MulLt(a: nat, b: nat, c: nat)
    requires c > 0 && a * c < b * c
    ensures a < b
  {
  }
}

=== FILE: permissions_service.dfy ===
/**
 The permission catalogue service: create with a globally unique code,
 listing with the tenant filter and the search filter, lookup, update and
 soft delete guarded by system ownership, and the per-module listing
 ordered by resource and action.
 */
module PermissionCatalog {

  import opened Common
  import opened AdminStore
  import Sorting
  import Paging

  datatype CreatePermissionDto = CreatePermissionDto(
    code: string,
    name: string,
    description: Option<string>,
    module_: string,
    resource: string,
    action: string,
    scope: Option<Scope>)

  datatype UpdatePermissionDto = UpdatePermissionDto(
    name: Option<string>,
    description: Option<string>,
    isActive: Option<bool>)

  /** One page of `findAll`, with the count of every matching row. */
  datatype PermissionPage = PermissionPage(data: seq<Permission>, meta: Paging.Meta)

  /** No two permissions share a code: the store's unique key. */
  predicate CodesUnique(ps: seq<Permission>) {
    forall i, j :: 0 <= i < j < |ps| ==> ps[i].code != ps[j].code
  }

  /** The filter `{ id, deletedAt: null }` — no tenant filter. */
  predicate Visible(p: Permission, id: Id) {
    p.id == id && p.deletedAt.None?
  }

  function Locate(ps: seq<Permission>, id: Id): (k: Option<nat>)
    ensures k.None? <==> forall i :: 0 <= i < |ps| ==> !Visible(ps[i], id)
    ensures k.Some? ==> k.value < |ps| && Visible(ps[k.value], id)
  {
    Find(ps, (p: Permission) => Visible(p, id))
  }

  /** The unique key `code` is taken, by any row of any tenant, deleted or not. */
  predicate CodeTaken(ps: seq<Permission>, code: string) {
    exists i :: 0 <= i < |ps| && ps[i].code == code
  }

  /** The tenant's own permissions and the system-wide ones. */
  predicate OwnOrSystem(p: Permission, tenantId: Id) {
    p.tenantId == Some(tenantId) || p.tenantId.None?
  }

  /** Case-sensitive substring test standing in for `contains`. */
  predicate Contains(hay: string, needle: string) {
    exists i :: 0 <= i <= |hay| && needle <= hay[i..]
  }

  predicate MatchesSearch(p: Permission, search: string) {
    Contains(p.code, search) || Contains(p.name, search) || Contains(p.module_, search)
  }

  /** The where clause of `findAll`. A non-empty search term spreads a second
      `OR` key into the object literal, and that key replaces the tenant
      filter rather than adding to it. */
  predicate Listed(p: Permission, tenantId: Id, search: Option<string>) {
    && p.deletedAt.None?
    && if search.Some? && search.value != "" then MatchesSearch(p, search.value)
       else OwnOrSystem(p, tenantId)
  }

  function Create(st: Store, dto: CreatePermissionDto, tenantId: Id, newId: Id): (r: Result<Store>)
    requires forall i :: 0 <= i < |st.permissions| ==> st.permissions[i].id != newId
    ensures r.Err? <==> CodeTaken(st.permissions, dto.code)
    ensures r.Err? ==> r.kind == Conflict
    ensures r.Ok? ==> r.value == st.(permissions := r.value.permissions)
    ensures r.Ok? ==> |r.value.permissions| == |st.permissions| + 1
    ensures r.Ok? ==> r.value.permissions[..|st.permissions|] == st.permissions
    ensures r.Ok? ==>
      var n := r.value.permissions[|st.permissions|];
      && n.id == newId && n.code == dto.code && n.tenantId == Some(tenantId)
      && n.name == dto.name && n.description == dto.description
      && n.module_ == dto.module_ && n.resource == dto.resource && n.action == dto.action
      && n.scope == (if dto.scope.Some? then dto.scope.value else Tenant)
      && n.isActive && !n.isSystemPermission && n.deletedAt.None?
  {
    match Find(st.permissions, (p: Permission) => p.code == dto.code)
    case Some(_) => Err(Conflict)
    case None =>
      var p := Permission(newId, Some(tenantId), dto.code, dto.name, dto.description, dto.module_,
                          dto.resource, dto.action, dto.scope.GetOr(Tenant), false, true, None);
      Ok(st.(permissions := st.permissions + [p]))
  }

  /** The rows the where clause of `findAll` selects, in row order. */
  function Matching(st: Store, tenantId: Id, search: Option<string>): (r: seq<Permission>)
    ensures forall i :: 0 <= i < |r| ==> r[i] in st.permissions && Listed(r[i], tenantId, search)
    ensures forall j ::
      0 <= j < |st.permissions| && Listed(st.permissions[j], tenantId, search) ==> st.permissions[j] in r
  {
    Filter(st.permissions, (p: Permission) => Listed(p, tenantId, search))
  }

  /** `findAll`: the `skip`/`take` page of the matching rows, and the count
      of all of them. */
  function FindAll(st: Store, tenantId: Id, search: Option<string>, page: nat, limit: nat): (r: PermissionPage)
    requires page >= 1 && limit >= 1
    ensures forall k :: 0 <= k < |r.data| ==> r.data[k] in st.permissions && Listed(r.data[k], tenantId, search)
    ensures r.meta.total == Count(st.permissions, (p: Permission) => Listed(p, tenantId, search))
    ensures r.meta.page == page && r.meta.limit == limit
    ensures r.meta.totalPages == Paging.TotalPages(r.meta.total, limit)
    ensures |r.data| == Paging.PageLength(r.meta.total, page, limit)
    ensures forall k :: 0 <= k < |r.data| ==>
      var all := Matching(st, tenantId, search);
      Paging.Skip(page, limit) + k < |all| && r.data[k] == all[Paging.Skip(page, limit) + k]
  {
    var all := Matching(st, tenantId, search);
    PermissionPage(Paging.PageOf(all, page, limit), Paging.Meta(|all|, page, limit, Paging.TotalPages(|all|, limit)))
  }

  function FindOne(st: Store, id: Id): (r: Result<Permission>)
    ensures r.Err? <==> forall i :: 0 <= i < |st.permissions| ==> !Visible(st.permissions[i], id)
    ensures r.Err? ==> r.kind == NotFound
    ensures r.Ok? ==> r.value in st.permissions && Visible(r.value, id)
  {
    match Locate(st.permissions, id)
    case None => Err(NotFound)
    case Some(i) => Ok(st.permissions[i])
  }

  /** The row a successful update writes. */
  function PatchPermission(p: Permission, dto: UpdatePermissionDto): Permission {
    p.(name := dto.name.GetOr(p.name),
       description := if dto.description.Some? then dto.description else p.description,
       isActive := dto.isActive.GetOr(p.isActive))
  }

  function Update(st: Store, id: Id, dto: UpdatePermissionDto): (r: Result<Store>)
    ensures Locate(st.permissions, id).None? ==> r == Err(NotFound)
    ensures Locate(st.permissions, id).Some? && st.permissions[Locate(st.permissions, id).value].isSystemPermission
      ==> r == Err(Conflict)
    ensures r.Ok? <==>
      Locate(st.permissions, id).Some? && !st.permissions[Locate(st.permissions, id).value].isSystemPermission
    ensures r.Ok? ==> r.value == st.(permissions := r.value.permissions)
    ensures r.Ok? ==> |r.value.permissions| == |st.permissions|
    ensures r.Ok? ==>
      var i := Locate(st.permissions, id).value;
      var old_ := st.permissions[i];
      var new_ := r.value.permissions[i];
      && !old_.isSystemPermission
      && (forall j :: 0 <= j < |st.permissions| && j != i ==> r.value.permissions[j] == st.permissions[j])
      && new_ == old_.(name := new_.name, description := new_.description, isActive := new_.isActive)
      && new_.name == dto.name.GetOr(old_.name)
      && new_.isActive == dto.isActive.GetOr(old_.isActive)
      && new_.description == (if dto.description.Some? then dto.description else old_.description)
  {
    match Locate(st.permissions, id)
    case None => Err(NotFound)
    case Some(i) =>
      var p := st.permissions[i];
      if p.isSystemPermission then Err(Conflict)
      else
        Ok(st.(permissions := st.permissions[i := PatchPermission(p, dto)]))
  }

  function Remove(st: Store, id: Id, now: Time): (r: Result<Store>)
    ensures Locate(st.permissions, id).None? ==> r == Err(NotFound)
    ensures Locate(st.permissions, id).Some? && st.permissions[Locate(st.permissions, id).value].isSystemPermission
      ==> r == Err(Conflict)
    ensures r.Ok? <==>
      Locate(st.permissions, id).Some? && !st.permissions[Locate(st.permissions, id).value].isSystemPermission
    ensures r.Ok? ==>
      var i := Locate(st.permissions, id).value;
      && !st.permissions[i].isSystemPermission
      && r.value == st.(permissions := st.permissions[i := st.permissions[i].(deletedAt := Some(now))])
  {
    match Locate(st.permissions, id)
    case None => Err(NotFound)
    case Some(i) =>
      if st.permissions[i].isSystemPermission then Err(Conflict)
      else Ok(st.(permissions := st.permissions[i := st.permissions[i].(deletedAt := Some(now))]))
  }

  /** `orderBy: [{ resource: 'asc' }, { action: 'asc' }]`. */
  predicate ResourceActionLe(p: Permission, q: Permission) {
    if p.resource == q.resource then Sorting.StrLe(p.action, q.action)
    else Sorting.StrLe(p.resource, q.resource)
  }

  lemma ResourceActionTotal(ps: seq<Permission>)
    ensures Sorting.Total(ps, ResourceActionLe)
  {
    forall i, j | 0 <= i < |ps| && 0 <= j < |ps|
      ensures ResourceActionLe(ps[i], ps[j]) || ResourceActionLe(ps[j], ps[i])
    {
      Sorting.StrLeTotal(ps[i].action, ps[j].action);
      Sorting.StrLeTotal(ps[i].resource, ps[j].resource);
    }
  }

  /** The filter of `findByModule`. */
  predicate InModule(p: Permission, module_: string, tenantId: Id) {
    p.module_ == module_ && OwnOrSystem(p, tenantId) && p.deletedAt.None? && p.isActive
  }

  function FindByModule(st: Store, module_: string, tenantId: Id): (r: seq<Permission>)
    ensures forall i :: 0 <= i < |r| ==> r[i] in st.permissions && InModule(r[i], module_, tenantId)
    ensures forall j ::
      0 <= j < |st.permissions| && InModule(st.permissions[j], module_, tenantId) ==> st.permissions[j] in r
    ensures Selects(r, st.permissions, (p: Permission) => InModule(p, module_, tenantId))
    ensures Sorting.Sorted(r, ResourceActionLe)
  {
    var hits := Filter(st.permissions, (p: Permission) => InModule(p, module_, tenantId));
    FilterSelects(st.permissions, (p: Permission) => InModule(p, module_, tenantId));
    ResourceActionTotal(hits);
    var r := Sorting.SortBy(hits, ResourceActionLe);
    Sorting.SameMembers(r, hits);
    r
  }

  /** Ordered by resource, and by action within one resource. */
  lemma FindByModuleOrdered(st: Store, module_: string, tenantId: Id, i: nat)
    requires 0 < i < |FindByModule(st, module_, tenantId)|
    ensures var r := FindByModule(st, module_, tenantId);
      && Sorting.StrLe(r[i - 1].resource, r[i].resource)
      && (r[i - 1].resource == r[i].resource ==> Sorting.StrLe(r[i - 1].action, r[i].action))
  {
    var r := FindByModule(st, module_, tenantId);
    assert ResourceActionLe(r[i - 1], r[i]);
    Sorting.StrLeReflexive(r[i].resource);
  }

  /** Without a search term only the tenant's own and the system permissions are listed. */
  lemma FindAllWithoutSearchIsTenantScoped(st: Store, tenantId: Id, search: Option<string>, p: Permission)
    requires search.None? || search.value == ""
    requires p in Matching(st, tenantId, search)
    ensures OwnOrSystem(p, tenantId) && p.deletedAt.None?
  {
  }

  /** With a search term, a matching live permission of another tenant is listed too. */
  lemma FindAllSearchCrossesTenants(st: Store, tenantId: Id, search: string, j: nat)
    requires search != ""
    requires j < |st.permissions|
    requires st.permissions[j].deletedAt.None? && MatchesSearch(st.permissions[j], search)
    ensures st.permissions[j] in Matching(st, tenantId, Some(search))
  {
  }

  /** A concrete case of the above: tenant `t1` searching for `INV` is shown
      a permission that belongs to tenant `t2`. */
  lemma SearchLeaksOtherTenant()
    ensures var p := Permission("p2", Some("t2"), "INV", "Items", None, "INV", "items", "read", Tenant, false, true, None);
      var st := Store([p], [], [], [], [], [], []);
      p in FindAll(st, "t1", Some("INV"), 1, 20).data && !OwnOrSystem(p, "t1")
  {
    var p := Permission("p2", Some("t2"), "INV", "Items", None, "INV", "items", "read", Tenant, false, true, None);
    var st := Store([p], [], [], [], [], [], []);
    assert "INV" <= p.code[0..];
    assert Listed(p, "t1", Some("INV"));
    assert Matching(st, "t1", Some("INV")) == [p];
    assert FindAll(st, "t1", Some("INV"), 1, 20).data[0] == p;
  }

  /** The listing evidently intended: the tenant filter and the search
      filter both apply. */
  predicate ListedScoped(p: Permission, tenantId: Id, search: Option<string>) {
    && p.deletedAt.None?
    && OwnOrSystem(p, tenantId)
    && (search.Some? && search.value != "" ==> MatchesSearch(p, search.value))
  }

  function FindAllScoped(st: Store, tenantId: Id, search: Option<string>): (r: seq<Permission>)
    ensures forall i :: 0 <= i < |r| ==>
      && r[i] in st.permissions && r[i].deletedAt.None? && OwnOrSystem(r[i], tenantId)
      && (search.Some? && search.value != "" ==> MatchesSearch(r[i], search.value))
    ensures forall j ::
      0 <= j < |st.permissions| && ListedScoped(st.permissions[j], tenantId, search) ==> st.permissions[j] in r
  {
    Filter(st.permissions, (p: Permission) => ListedScoped(p, tenantId, search))
  }

  /** The scoped listing is exactly the rows both of the unfiltered tenant
      listing and of the as-written search listing. */
  lemma ScopedIsIntersection(st: Store, tenantId: Id, search: string, p: Permission)
    requires search != ""
    ensures p in FindAllScoped(st, tenantId, Some(search)) <==>
      p in Matching(st, tenantId, None) && p in Matching(st, tenantId, Some(search))
  {
    if p in Matching(st, tenantId, None) && p in Matching(st, tenantId, Some(search)) {
      var r := Matching(st, tenantId, None);
      var k :| 0 <= k < |r| && r[k] == p;
      assert Listed(p, tenantId, None) && Listed(p, tenantId, Some(search));
      var ps := st.permissions;
      var j :| 0 <= j < |ps| && ps[j] == p;
      assert ListedScoped(ps[j], tenantId, Some(search));
    }
    if p in FindAllScoped(st, tenantId, Some(search)) {
      var ps := st.permissions;
      var j :| 0 <= j < |ps| && ps[j] == p;
      assert Listed(ps[j], tenantId, None) && Listed(ps[j], tenantId, Some(search));
    }
  }

  /** Removing a permission hides it from `findOne`. */
  lemma RemoveHides(st: Store, id: Id, now: Time)
    requires PermissionIdsUnique(st.permissions)
    requires Remove(st, id, now).Ok?
    ensures FindOne(Remove(st, id, now).value, id) == Err(NotFound)
  {
    var i := Locate(st.permissions, id).value;
    var ps' := Remove(st, id, now).value.permissions;
    forall j | 0 <= j < |ps'|
      ensures !Visible(ps'[j], id)
    {
      if j != i {
        assert ps'[j] == st.permissions[j];
        assert st.permissions[j].id != st.permissions[i].id;
      }
    }
  }

  /** Creating a permission keeps codes unique across all tenants. */
  lemma CreateKeepsCodesUnique(st: Store, dto: CreatePermissionDto, tenantId: Id, newId: Id)
    requires forall i :: 0 <= i < |st.permissions| ==> st.permissions[i].id != newId
    requires CodesUnique(st.permissions)
    requires Create(st, dto, tenantId, newId).Ok?
    ensures CodesUnique(Create(st, dto, tenantId, newId).value.permissions)
  {
    var ps := Create(st, dto, tenantId, newId).value.permissions;
    forall a, b | 0 <= a < b < |ps|
      ensures ps[a].code != ps[b].code
    {
      assert ps[a] == st.permissions[a];
      if b < |st.permissions| {
        assert ps[b] == st.permissions[b];
      }
    }
  }

  /** After an update, `findOne` answers with the patched permission. */
  lemma UpdateThenFindOne(st: Store, id: Id, dto: UpdatePermissionDto)
    requires PermissionIdsUnique(st.permissions)
    requires Update(st, id, dto).Ok?
    ensures FindOne(Update(st, id, dto).value, id)
      == Ok(PatchPermission(st.permissions[Locate(st.permissions, id).value], dto))
  {
    var ps := Update(st, id, dto).value.permissions;
    var i := Locate(st.permissions, id).value;
    forall m | 0 <= m < |ps| && m != i
      ensures !Visible(ps[m], id)
    {
      assert ps[m] == st.permissions[m];
      assert st.permissions[m].id != st.permissions[i].id;
    }
    assert Locate(ps, id) == Some(i);
  }
}

=== FILE: roles.dfy ===
/**
 The role service: create with a per-tenant unique code and a level derived
 from the parent role, lookup and update of visible roles, soft delete
 guarded by system ownership and by user assignments, and wholesale
 replacement of a role's permission links.
 */
module Roles {

  import opened Common
  import opened AdminStore

  datatype CreateRoleDto = CreateRoleDto(
    code: string,
    name: string,
    description: Option<string>,
    parentRoleId: Option<Id>)

  /** The partial create DTO: the fields an update may carry; absent
      fields are left alone. */
  datatype UpdateRoleDto = UpdateRoleDto(
    code: Option<string>,
    name: Option<string>,
    description: Option<string>,
    parentRoleId: Option<Id>)

  /** What `findOne` returns: the role, its permission links, its user count. */
  datatype RoleDetail = RoleDetail(role: Role, permissionIds: seq<Id>, userCount: nat)

  /** The filter `{ id, tenantId, deletedAt: null }`. */
  predicate Visible(r: Role, id: Id, tenantId: Id) {
    r.id == id && r.tenantId == tenantId && r.deletedAt.None?
  }

  /** The row the service works on: the first visible role with that id. */
  function Locate(roles: seq<Role>, id: Id, tenantId: Id): (k: Option<nat>)
    ensures k.None? <==> forall i :: 0 <= i < |roles| ==> !Visible(roles[i], id, tenantId)
    ensures k.Some? ==> k.value < |roles| && Visible(roles[k.value], id, tenantId)
  {
    Find(roles, (r: Role) => Visible(r, id, tenantId))
  }

  /** The unique key (tenantId, code) is taken — by any row, deleted or not. */
  predicate CodeTaken(roles: seq<Role>, tenantId: Id, code: string) {
    exists i :: 0 <= i < |roles| && roles[i].tenantId == tenantId && roles[i].code == code
  }

  /** No two roles of a tenant share a code: the store's unique key. */
  predicate RoleCodesUnique(roles: seq<Role>) {
    forall i, j :: 0 <= i < j < |roles| && roles[i].tenantId == roles[j].tenantId ==> roles[i].code != roles[j].code
  }

  /** A role of the tenant other than the one with id `id` already holds
      `code`. */
  predicate CodeHeldByOther(roles: seq<Role>, id: Id, tenantId: Id, code: string) {
    exists j :: 0 <= j < |roles| && roles[j].id != id && roles[j].tenantId == tenantId && roles[j].code == code
  }

  /** A parent id is given and names no role row: the foreign key of the
      `parentRole` relation rejects the write. */
  predicate ParentMissing(roles: seq<Role>, parentRoleId: Option<Id>) {
    parentRoleId.Some? && forall i :: 0 <= i < |roles| ==> roles[i].id != parentRoleId.value
  }

  /** Some user is assigned the role. */
  predicate HasUsers(links: seq<UserRole>, roleId: Id) {
    exists k :: 0 <= k < |links| && links[k].roleId == roleId
  }

  /** The level of a new role: one below its parent when a (non-empty)
      parent id names an existing role, deleted or not, of any tenant;
      otherwise 1. */
  function LevelFor(roles: seq<Role>, parentRoleId: Option<Id>): (level: int)
    ensures parentRoleId.None? || parentRoleId.value == "" ==> level == 1
    ensures parentRoleId.Some? && (forall i :: 0 <= i < |roles| ==> roles[i].id != parentRoleId.value) ==> level == 1
    ensures parentRoleId.Some? && parentRoleId.value != "" && (exists i :: 0 <= i < |roles| && roles[i].id == parentRoleId.value)
      ==> exists i :: 0 <= i < |roles| && roles[i].id == parentRoleId.value && level == roles[i].level + 1
  {
    if parentRoleId.Some? && parentRoleId.value != "" then
      match Find(roles, (r: Role) => r.id == parentRoleId.value)
      case Some(i) => roles[i].level + 1
      case None => 1
    else 1
  }

  function Create(st: Store, dto: CreateRoleDto, tenantId: Id, newId: Id): (r: Result<Store>)
    requires forall i :: 0 <= i < |st.roles| ==> st.roles[i].id != newId
    ensures CodeTaken(st.roles, tenantId, dto.code) ==> r == Err(Conflict)
    ensures !CodeTaken(st.roles, tenantId, dto.code) && ParentMissing(st.roles, dto.parentRoleId) ==>
      r == Err(ForeignKeyViolation)
    ensures r.Ok? <==> !CodeTaken(st.roles, tenantId, dto.code) && !ParentMissing(st.roles, dto.parentRoleId)
    ensures r.Ok? ==> r.value == st.(roles := r.value.roles)
    ensures r.Ok? ==> |r.value.roles| == |st.roles| + 1 && r.value.roles[..|st.roles|] == st.roles
    ensures r.Ok? ==>
      var n := r.value.roles[|st.roles|];
      && n.id == newId && n.tenantId == tenantId && n.code == dto.code && n.name == dto.name
      && n.description == dto.description && n.parentRoleId == dto.parentRoleId && n.level == LevelFor(st.roles, dto.parentRoleId)
      && !n.isSystemRole && n.isActive && n.deletedAt.None?
  {
    match Find(st.roles, (x: Role) => x.tenantId == tenantId && x.code == dto.code)
    case Some(_) => Err(Conflict)
    case None =>
      if dto.parentRoleId.Some? && Find(st.roles, (x: Role) => x.id == dto.parentRoleId.value).None? then
        Err(ForeignKeyViolation)
      else
      var role := Role(newId, tenantId, dto.code, dto.name, dto.description, dto.parentRoleId,
                       LevelFor(st.roles, dto.parentRoleId), false, true, None);
      Ok(st.(roles := st.roles + [role]))
  }

  function FindOne(st: Store, id: Id, tenantId: Id): (r: Result<RoleDetail>)
    ensures r.Err? <==> forall i :: 0 <= i < |st.roles| ==> !Visible(st.roles[i], id, tenantId)
    ensures r.Err? ==> r.kind == NotFound
    ensures r.Ok? ==> r.value.role in st.roles && Visible(r.value.role, id, tenantId)
    ensures r.Ok? ==> forall p :: p in r.value.permissionIds <==> RolePermission(id, p) in st.rolePermissions
    ensures r.Ok? ==> (r.value.userCount == 0 <==> !HasUsers(st.userRoles, id))
  {
    match Locate(st.roles, id, tenantId)
    case None => Err(NotFound)
    case Some(i) =>
      Ok(RoleDetail(st.roles[i], PermissionIdsOfRole(st.rolePermissions, id),
                    Count(st.userRoles, (l: UserRole) => l.roleId == id)))
  }

  /** The row a successful update writes: every field the request carries
      replaces the stored one; the level is not recomputed. */
  function PatchRole(role: Role, dto: UpdateRoleDto): Role {
    role.(code := dto.code.GetOr(role.code), name := dto.name.GetOr(role.name),
          description := if dto.description.Some? then dto.description else role.description,
          parentRoleId := if dto.parentRoleId.Some? then dto.parentRoleId else role.parentRoleId)
  }

  /** The update does not check the new code first; another role of the
      tenant holding it makes the store's unique key reject the write. */
  function Update(st: Store, id: Id, tenantId: Id, dto: UpdateRoleDto): (r: Result<Store>)
    ensures Locate(st.roles, id, tenantId).None? ==> r == Err(NotFound)
    ensures Locate(st.roles, id, tenantId).Some? ==>
      var i := Locate(st.roles, id, tenantId).value;
      var clash := dto.code.Some? && CodeHeldByOther(st.roles, id, tenantId, dto.code.value);
      var dangling := ParentMissing(st.roles, dto.parentRoleId);
      && (st.roles[i].isSystemRole ==> r == Err(Conflict))
      && (!st.roles[i].isSystemRole && clash ==> r == Err(UniqueViolation))
      && (!st.roles[i].isSystemRole && !clash && dangling ==> r == Err(ForeignKeyViolation))
      && (r.Ok? <==> !st.roles[i].isSystemRole && !clash && !dangling)
    ensures r.Ok? ==> r.value == st.(roles := r.value.roles) && |r.value.roles| == |st.roles|
    ensures r.Ok? ==>
      var i := Locate(st.roles, id, tenantId).value;
      var old_ := st.roles[i];
      var new_ := r.value.roles[i];
      && (forall j :: 0 <= j < |st.roles| && j != i ==> r.value.roles[j] == st.roles[j])
      && new_ == old_.(code := new_.code, name := new_.name, description := new_.description,
                       parentRoleId := new_.parentRoleId)
      && new_.code == dto.code.GetOr(old_.code)
      && new_.name == dto.name.GetOr(old_.name)
      && new_.description == (if dto.description.Some? then dto.description else old_.description)
      && new_.parentRoleId == (if dto.parentRoleId.Some? then dto.parentRoleId else old_.parentRoleId)
  {
    match Locate(st.roles, id, tenantId)
    case None => Err(NotFound)
    case Some(i) =>
      var role := st.roles[i];
      if role.isSystemRole then Err(Conflict)
      else if dto.code.Some?
        && Find(st.roles, (x: Role) => x.id != role.id && x.tenantId == tenantId && x.code == dto.code.value).Some?
      then Err(UniqueViolation)
      else if dto.parentRoleId.Some? && Find(st.roles, (x: Role) => x.id == dto.parentRoleId.value).None? then
        Err(ForeignKeyViolation)
      else Ok(st.(roles := st.roles[i := PatchRole(role, dto)]))
  }

  function Remove(st: Store, id: Id, tenantId: Id, now: Time): (r: Result<Store>)
    ensures Locate(st.roles, id, tenantId).None? ==> r == Err(NotFound)
    ensures Locate(st.roles, id, tenantId).Some? ==>
      var role := st.roles[Locate(st.roles, id, tenantId).value];
      && (role.isSystemRole ==> r == Err(Conflict))
      && (HasUsers(st.userRoles, id) ==> r == Err(Conflict))
      && (r.Ok? <==> !role.isSystemRole && !HasUsers(st.userRoles, id))
    ensures r.Ok? ==>
      var i := Locate(st.roles, id, tenantId).value;
      r.value == st.(roles := st.roles[i := st.roles[i].(deletedAt := Some(now))])
  {
    match Locate(st.roles, id, tenantId)
    case None => Err(NotFound)
    case Some(i) =>
      if st.roles[i].isSystemRole then Err(Conflict)
      else if Count(st.userRoles, (l: UserRole) => l.roleId == id) > 0 then Err(Conflict)
      else Ok(st.(roles := st.roles[i := st.roles[i].(deletedAt := Some(now))]))
  }

  /** The links `(roleId, p)` for every listed permission id, in list order. */
  function LinksFor(roleId: Id, permissionIds: seq<Id>): (links: seq<RolePermission>)
    ensures |links| == |permissionIds|
    ensures forall k :: 0 <= k < |links| ==> links[k] == RolePermission(roleId, permissionIds[k])
  {
    seq(|permissionIds|, k requires 0 <= k < |permissionIds| => RolePermission(roleId, permissionIds[k]))
  }

  /** The new links are written in one statement; it fails as a whole when
      an id names no permission (foreign key) or repeats (the key
      (roleId, permissionId)). */
  function AssignPermissions(st: Store, roleId: Id, tenantId: Id, permissionIds: seq<Id>): (r: Result<Store>)
    ensures Locate(st.roles, roleId, tenantId).None? ==> r == Err(NotFound)
    ensures Locate(st.roles, roleId, tenantId).Some? && UnknownPermissionId(st.permissions, permissionIds) ==>
      r == Err(ForeignKeyViolation)
    ensures (Locate(st.roles, roleId, tenantId).Some? && !UnknownPermissionId(st.permissions, permissionIds)
             && !NoDuplicates(permissionIds)) ==> r == Err(UniqueViolation)
    ensures r.Ok? <==> && Locate(st.roles, roleId, tenantId).Some?
                       && !UnknownPermissionId(st.permissions, permissionIds)
                       && NoDuplicates(permissionIds)
    ensures r.Ok? ==> r.value == st.(rolePermissions := r.value.rolePermissions)
    ensures r.Ok? ==> forall p :: RolePermission(roleId, p) in r.value.rolePermissions <==> p in permissionIds
    ensures r.Ok? ==> forall l: RolePermission :: l.roleId != roleId ==> (l in r.value.rolePermissions <==> l in st.rolePermissions)
  {
    match Locate(st.roles, roleId, tenantId)
    case None => Err(NotFound)
    case Some(_) =>
      if Find(permissionIds, (p: Id) => Find(st.permissions, (x: Permission) => x.id == p).None?).Some? then
        Err(ForeignKeyViolation)
      else if !NoDuplicates(permissionIds) then Err(UniqueViolation)
      else
      var kept := Filter(st.rolePermissions, (l: RolePermission) => l.roleId != roleId);
      var added := LinksFor(roleId, permissionIds);
      assert forall p :: RolePermission(roleId, p) in added <==> p in permissionIds by {
        forall p ensures RolePermission(roleId, p) in added ==> p in permissionIds {
          if RolePermission(roleId, p) in added {
            var k :| 0 <= k < |added| && added[k] == RolePermission(roleId, p);
          }
        }
      }
      Ok(st.(rolePermissions := kept + added))
  }

  /** The store `assignPermissions` leaves behind, whatever its outcome. The
      old links are deleted before the new ones are written, and not in one
      transaction, so a rejected write leaves the role with no links at all. */
  function AssignPermissionsEffect(st: Store, roleId: Id, tenantId: Id, permissionIds: seq<Id>): (after: Store)
    ensures Locate(st.roles, roleId, tenantId).None? ==> after == st
    ensures AssignPermissions(st, roleId, tenantId, permissionIds).Ok? ==>
      after == AssignPermissions(st, roleId, tenantId, permissionIds).value
    ensures (Locate(st.roles, roleId, tenantId).Some?
             && (UnknownPermissionId(st.permissions, permissionIds) || !NoDuplicates(permissionIds))) ==>
      && after == st.(rolePermissions := after.rolePermissions)
      && forall l: RolePermission :: l in after.rolePermissions <==> l in st.rolePermissions && l.roleId != roleId
  {
    match AssignPermissions(st, roleId, tenantId, permissionIds)
    case Ok(v) => v
    case Err(e) =>
      if e == NotFound then st
      else st.(rolePermissions := Filter(st.rolePermissions, (l: RolePermission) => l.roleId != roleId))
  }

  /** After an assignment, `findOne` lists exactly the assigned permissions. */
  lemma AssignThenFindOne(st: Store, roleId: Id, tenantId: Id, permissionIds: seq<Id>)
    requires AssignPermissions(st, roleId, tenantId, permissionIds).Ok?
    ensures var after := AssignPermissions(st, roleId, tenantId, permissionIds).value;
      && FindOne(after, roleId, tenantId).Ok?
      && forall p :: p in FindOne(after, roleId, tenantId).value.permissionIds <==> p in permissionIds
  {
    var after := AssignPermissions(st, roleId, tenantId, permissionIds).value;
    assert after.roles == st.roles;
  }

  /** Removing a role hides it from `findOne`. */
  lemma RemoveHides(st: Store, id: Id, tenantId: Id, now: Time)
    requires RoleIdsUnique(st.roles)
    requires Remove(st, id, tenantId, now).Ok?
    ensures FindOne(Remove(st, id, tenantId, now).value, id, tenantId) == Err(NotFound)
  {
    var i := Locate(st.roles, id, tenantId).value;
    var roles' := Remove(st, id, tenantId, now).value.roles;
    forall j | 0 <= j < |roles'|
      ensures !Visible(roles'[j], id, tenantId)
    {
      if j != i {
        assert roles'[j] == st.roles[j];
        assert st.roles[j].id != st.roles[i].id;
      }
    }
  }

  /** A role whose parent is a visible role sits exactly one level below it. */
  lemma ChildLevel(st: Store, dto: CreateRoleDto, tenantId: Id, newId: Id, p: nat)
    requires RoleIdsUnique(st.roles)
    requires forall i :: 0 <= i < |st.roles| ==> st.roles[i].id != newId
    requires p < |st.roles| && dto.parentRoleId == Some(st.roles[p].id) && st.roles[p].id != ""
    requires Create(st, dto, tenantId, newId).Ok?
    ensures Create(st, dto, tenantId, newId).value.roles[|st.roles|].level == st.roles[p].level + 1
  {
  }

  /** Creating a role keeps codes unique within each tenant. */
  lemma CreateKeepsCodesUnique(st: Store, dto: CreateRoleDto, tenantId: Id, newId: Id)
    requires forall i :: 0 <= i < |st.roles| ==> st.roles[i].id != newId
    requires RoleCodesUnique(st.roles)
    requires Create(st, dto, tenantId, newId).Ok?
    ensures RoleCodesUnique(Create(st, dto, tenantId, newId).value.roles)
  {
    var rs := Create(st, dto, tenantId, newId).value.roles;
    forall a, b | 0 <= a < b < |rs| && rs[a].tenantId == rs[b].tenantId
      ensures rs[a].code != rs[b].code
    {
      assert rs[a] == st.roles[a];
      if b < |st.roles| {
        assert rs[b] == st.roles[b];
      }
    }
  }

  /** A successful update keeps codes unique within each tenant. */
  lemma UpdateKeepsCodesUnique(st: Store, id: Id, tenantId: Id, dto: UpdateRoleDto)
    requires RoleIdsUnique(st.roles) && RoleCodesUnique(st.roles)
    requires Update(st, id, tenantId, dto).Ok?
    ensures RoleCodesUnique(Update(st, id, tenantId, dto).value.roles)
  {
    var rs := Update(st, id, tenantId, dto).value.roles;
    var i := Locate(st.roles, id, tenantId).value;
    forall a, b | 0 <= a < b < |rs| && rs[a].tenantId == rs[b].tenantId
      ensures rs[a].code != rs[b].code
    {
      if a == i || b == i {
        var other := if a == i then b else a;
        assert rs[other] == st.roles[other];
        if dto.code.Some? {
          assert !CodeHeldByOther(st.roles, id, tenantId, dto.code.value);
        } else {
          assert st.roles[a].code != st.roles[b].code;
        }
      } else {
        assert rs[a] == st.roles[a] && rs[b] == st.roles[b];
      }
    }
  }

  /** After an update, `findOne` answers with the patched role. */
  lemma UpdateThenFindOne(st: Store, id: Id, tenantId: Id, dto: UpdateRoleDto)
    requires RoleIdsUnique(st.roles)
    requires Update(st, id, tenantId, dto).Ok?
    ensures var after := Update(st, id, tenantId, dto).value;
      FindOne(after, id, tenantId).Ok?
      && FindOne(after, id, tenantId).value.role == PatchRole(st.roles[Locate(st.roles, id, tenantId).value], dto)
  {
    var rs := Update(st, id, tenantId, dto).value.roles;
    var i := Locate(st.roles, id, tenantId).value;
    forall m | 0 <= m < |rs| && m != i
      ensures !Visible(rs[m], id, tenantId)
    {
      assert rs[m] == st.roles[m];
      assert st.roles[m].id != st.roles[i].id;
    }
    assert Locate(rs, id, tenantId) == Some(i);
  }
}

=== FILE: sorting.dfy ===
/**
 Ordering of query results (`orderBy`): a stable insertion sort under a
 caller-supplied comparison, and the code-point order on strings that
 stands in for the database's collation.
 */
module Sorting {

  /** `le` relates every two elements of `s` one way or the other. */
  predicate Total<T>(s: seq<T>, le: (T, T) -> bool) {
    forall i, j :: 0 <= i < |s| && 0 <= j < |s| ==> le(s[i], s[j]) || le(s[j], s[i])
  }

  /** Neighbours are in order. */
  predicate Sorted<T>(s: seq<T>, le: (T, T) -> bool) {
    forall i :: 0 < i < |s| ==> le(s[i - 1], s[i])
  }

  /** Puts `x` in front of the first element it is not after. */
  function Insert<T>(x: T, s: seq<T>, le: (T, T) -> bool): (r: seq<T>)
    requires Sorted(s, le)
    requires forall i :: 0 <= i < |s| ==> le(x, s[i]) || le(s[i], x)
    ensures Sorted(r, le)
    ensures multiset(r) == multiset(s) + multiset{x}
    ensures r[0] == x || (|s| > 0 && r[0] == s[0])
  {
    if |s| == 0 then [x]
    else if le(x, s[0]) then [x] + s
    else
      var rest := Insert(x, s[1..], le);
      assert s == [s[0]] + s[1..];
      [s[0]] + rest
  }

  function SortBy<T>(s: seq<T>, le: (T, T) -> bool): (r: seq<T>)
    requires Total(s, le)
    ensures Sorted(r, le)
    ensures multiset(r) == multiset(s)
  {
    if |s| == 0 then []
    else
      assert Total(s[1..], le) by {
        forall i, j | 0 <= i < |s[1..]| && 0 <= j < |s[1..]|
          ensures le(s[1..][i], s[1..][j]) || le(s[1..][j], s[1..][i])
        {
          assert s[1..][i] == s[i + 1] && s[1..][j] == s[j + 1];
        }
      }
      var rest := SortBy(s[1..], le);
      forall i | 0 <= i < |rest|
        ensures le(s[0], rest[i]) || le(rest[i], s[0])
      {
        assert rest[i] in multiset(s[1..]);
        var j :| 0 <= j < |s[1..]| && s[1..][j] == rest[i];
        assert s[j + 1] == rest[i];
      }
      assert s == [s[0]] + s[1..];
      Insert(s[0], rest, le)
  }

  /** Two sequences with the same elements counted with multiplicity have
      the same members. */
  lemma SameMembers<T>(a: seq<T>, b: seq<T>)
    requires multiset(a) == multiset(b)
    ensures forall i :: 0 <= i < |a| ==> a[i] in b
    ensures forall j :: 0 <= j < |b| ==> b[j] in a
  {
    forall i | 0 <= i < |a| ensures a[i] in b {
      assert a[i] in multiset(a);
    }
    forall j | 0 <= j < |b| ensures b[j] in a {
      assert b[j] in multiset(b);
    }
  }

  /** Code-point order on strings: a proper prefix comes first. */
  predicate StrLe(a: string, b: string) {
    if |a| == 0 then true
    else if |b| == 0 then false
    else if a[0] != b[0] then a[0] < b[0]
    else StrLe(a[1..], b[1..])
  }

  lemma {:induction false} StrLeReflexive(a: string)
    ensures StrLe(a, a)
  {
    if |a| > 0 {
      StrLeReflexive(a[1..]);
    }
  }

  lemma {:induction false} StrLeTotal(a: string, b: string)
    ensures StrLe(a, b) || StrLe(b, a)
  {
    if |a| > 0 && |b| > 0 && a[0] == b[0] {
      StrLeTotal(a[1..], b[1..]);
    }
  }

  lemma {:induction false} StrLeAntisymmetric(a: string, b: string)
    requires StrLe(a, b) && StrLe(b, a)
    ensures a == b
  {
    if |a| > 0 && |b| > 0 {
      StrLeAntisymmetric(a[1..], b[1..]);
      assert a == [a[0]] + a[1..] && b == [b[0]] + b[1..];
    }
  }

  lemma {:induction false} StrLeTransitive(a: string, b: string, c: string)
    requires StrLe(a, b) && StrLe(b, c)
    ensures StrLe(a, c)
  {
    if |a| > 0 && |b| > 0 && |c| > 0 && a[0] == b[0] && b[0] == c[0] {
      StrLeTransitive(a[1..], b[1..], c[1..]);
    }
  }
}

=== FILE: status.dfy ===
/**
 The status registry: groups of statuses identified by a globally unique
 code, and the statuses of each group identified by a code unique within
 the group. Groups and statuses are soft-deleted by clearing `isActive`;
 rows flagged as system rows keep their codes and cannot be deleted; a
 group has at most one default status.
 */
module StatusRegistry {

  import opened Common
  import Sorting
  import Paging

  type Id = string

  datatype StatusGroup = StatusGroup(
    id: Id,
    tenantId: Option<Id>,
    code: string,
    name: string,
    description: Option<string>,
    module_: string,
    entityType: string,
    allowCustomStatuses: bool,
    requireWorkflow: bool,
    isActive: bool,
    isSystemGroup: bool)

  datatype Status = Status(
    id: Id,
    statusGroupId: Id,
    tenantId: Id,
    code: string,
    name: string,
    displayOrder: int,
    isDefault: bool,
    isEditable: bool,
    isDeletable: bool,
    requiresApproval: bool,
    isActive: bool,
    isSystemStatus: bool)

  datatype Registry = Registry(groups: seq<StatusGroup>, statuses: seq<Status>)

  datatype CreateGroupDto = CreateGroupDto(
    code: string,
    name: string,
    description: Option<string>,
    module_: string,
    entityType: string,
    allowCustomStatuses: Option<bool>,
    requireWorkflow: Option<bool>)

  datatype CreateStatusDto = CreateStatusDto(
    code: string,
    name: string,
    displayOrder: Option<int>,
    isDefault: Option<bool>,
    isEditable: Option<bool>,
    isDeletable: Option<bool>,
    requiresApproval: Option<bool>)

  /** The partial group DTO the group update request is validated as;
      absent fields are left alone. */
  datatype UpdateGroupDto = UpdateGroupDto(
    code: Option<string>,
    name: Option<string>,
    description: Option<string>,
    module_: Option<string>,
    entityType: Option<string>,
    allowCustomStatuses: Option<bool>,
    requireWorkflow: Option<bool>)

  /** The partial status DTO; absent fields are left alone. */
  datatype UpdateStatusDto = UpdateStatusDto(
    code: Option<string>,
    name: Option<string>,
    displayOrder: Option<int>,
    isDefault: Option<bool>,
    isEditable: Option<bool>,
    isDeletable: Option<bool>,
    requiresApproval: Option<bool>)

  /** What `findGroupByCode` returns: the group and its active statuses. */
  datatype GroupDetail = GroupDetail(group: StatusGroup, statuses: seq<Status>)

  datatype GroupPage = GroupPage(data: seq<StatusGroup>, meta: Paging.Meta)

  // ---------------------------------------------------------------------
  // Invariants
  // ---------------------------------------------------------------------

  predicate GroupCodesUnique(gs: seq<StatusGroup>) {
    forall i, j :: 0 <= i < j < |gs| ==> gs[i].code != gs[j].code
  }

  predicate StatusIdsUnique(ss: seq<Status>) {
    forall i, j :: 0 <= i < j < |ss| ==> ss[i].id != ss[j].id
  }

  /** No group has two default statuses. */
  predicate OneDefault(ss: seq<Status>) {
    forall i, j :: 0 <= i < |ss| && 0 <= j < |ss| && ss[i].isDefault && ss[j].isDefault &&
      ss[i].statusGroupId == ss[j].statusGroupId
      ==> i == j
  }

  // ---------------------------------------------------------------------
  // Groups
  // ---------------------------------------------------------------------

  predicate GroupCodeTaken(gs: seq<StatusGroup>, code: string) {
    exists i :: 0 <= i < |gs| && gs[i].code == code
  }

  /** The group row with the code, active or not. */
  function LocateGroup(gs: seq<StatusGroup>, code: string): (k: Option<nat>)
    ensures k.None? <==> !GroupCodeTaken(gs, code)
    ensures k.Some? ==> k.value < |gs| && gs[k.value].code == code
  {
    Find(gs, (g: StatusGroup) => g.code == code)
  }

  function CreateGroup(reg: Registry, tenantId: Id, dto: CreateGroupDto, newId: Id): (r: Result<Registry>)
    requires forall i :: 0 <= i < |reg.groups| ==> reg.groups[i].id != newId
    ensures r.Err? <==> GroupCodeTaken(reg.groups, dto.code)
    ensures r.Err? ==> r.kind == Conflict
    ensures r.Ok? ==> |r.value.groups| == |reg.groups| + 1
    ensures r.Ok? ==> r.value == reg.(groups := reg.groups + [r.value.groups[|reg.groups|]])
    ensures r.Ok? ==>
      var g := r.value.groups[|reg.groups|];
      && g.id == newId && g.tenantId == Some(tenantId) && g.code == dto.code
      && g.name == dto.name && g.description == dto.description
      && g.module_ == dto.module_ && g.entityType == dto.entityType
      && g.allowCustomStatuses == dto.allowCustomStatuses.GetOr(false)
      && g.requireWorkflow == dto.requireWorkflow.GetOr(true)
      && g.isActive && !g.isSystemGroup
  {
    if LocateGroup(reg.groups, dto.code).Some? then Err(Conflict)
    else
      var g := StatusGroup(newId, Some(tenantId), dto.code, dto.name, dto.description, dto.module_, dto.entityType,
                           dto.allowCustomStatuses.GetOr(false), dto.requireWorkflow.GetOr(true), true, false);
      Ok(reg.(groups := reg.groups + [g]))
  }

  /** `displayOrder: 'asc'`. */
  predicate DisplayOrderLe(a: Status, b: Status) {
    a.displayOrder <= b.displayOrder
  }

  /** The active statuses of a group. */
  predicate ActiveIn(s: Status, groupId: Id) {
    s.statusGroupId == groupId && s.isActive
  }

  /** The active statuses of a group, by display order. */
  function ActiveStatuses(ss: seq<Status>, groupId: Id): (r: seq<Status>)
    ensures forall k :: 0 <= k < |r| ==> r[k] in ss && ActiveIn(r[k], groupId)
    ensures forall j :: 0 <= j < |ss| && ActiveIn(ss[j], groupId) ==> ss[j] in r
    ensures Selects(r, ss, (s: Status) => ActiveIn(s, groupId))
    ensures forall k :: 0 < k < |r| ==> r[k - 1].displayOrder <= r[k].displayOrder
  {
    var hits := Filter(ss, (s: Status) => ActiveIn(s, groupId));
    FilterSelects(ss, (s: Status) => ActiveIn(s, groupId));
    var r := Sorting.SortBy(hits, DisplayOrderLe);
    Sorting.SameMembers(r, hits);
    assert Sorting.Sorted(r, DisplayOrderLe);
    r
  }

  /** `findGroupByCode`: no `isActive` filter on the group itself. */
  function FindGroupByCode(reg: Registry, code: string): (r: Result<GroupDetail>)
    ensures r.Err? <==> !GroupCodeTaken(reg.groups, code)
    ensures r.Err? ==> r.kind == NotFound
    ensures r.Ok? ==> r.value.group in reg.groups && r.value.group.code == code
    ensures r.Ok? ==> forall k :: 0 <= k < |r.value.statuses| ==>
      r.value.statuses[k] in reg.statuses && ActiveIn(r.value.statuses[k], r.value.group.id)
    ensures r.Ok? ==> forall j :: 0 <= j < |reg.statuses| && ActiveIn(reg.statuses[j], r.value.group.id) ==>
      reg.statuses[j] in r.value.statuses
    ensures r.Ok? ==> r.value.statuses == ActiveStatuses(reg.statuses, r.value.group.id)
    ensures r.Ok? ==> forall k :: 0 < k < |r.value.statuses| ==>
      r.value.statuses[k - 1].displayOrder <= r.value.statuses[k].displayOrder
  {
    match LocateGroup(reg.groups, code)
    case None => Err(NotFound)
    case Some(i) => Ok(GroupDetail(reg.groups[i], ActiveStatuses(reg.statuses, reg.groups[i].id)))
  }

  /** `getStatusesByGroup`: the group's active statuses, by display order. */
  function GetStatusesByGroup(reg: Registry, code: string): (r: Result<seq<Status>>)
    ensures r.Err? <==> !GroupCodeTaken(reg.groups, code)
    ensures r.Err? ==> r.kind == NotFound
    ensures r.Ok? ==> var i := LocateGroup(reg.groups, code).value;
      && (forall k :: 0 <= k < |r.value| ==> r.value[k] in reg.statuses && ActiveIn(r.value[k], reg.groups[i].id))
      && (forall j :: 0 <= j < |reg.statuses| && ActiveIn(reg.statuses[j], reg.groups[i].id) ==> reg.statuses[j] in r.value)
      && (forall k :: 0 < k < |r.value| ==> r.value[k - 1].displayOrder <= r.value[k].displayOrder)
      && Selects(r.value, reg.statuses, (s: Status) => ActiveIn(s, reg.groups[i].id))
  {
    match FindGroupByCode(reg, code)
    case Err(e) => Err(e)
    case Ok(d) => Ok(d.statuses)
  }

  /** The where clause of `findAllGroups`; an empty module or entity type
      filter is no filter. */
  predicate GroupListed(g: StatusGroup, tenantId: Id, module_: Option<string>, entityType: Option<string>) {
    && (g.tenantId == Some(tenantId) || g.tenantId.None?)
    && g.isActive
    && (module_.None? || module_.value == "" || g.module_ == module_.value)
    && (entityType.None? || entityType.value == "" || g.entityType == entityType.value)
  }

  /** `code: 'asc'`. */
  predicate GroupCodeLe(a: StatusGroup, b: StatusGroup) {
    Sorting.StrLe(a.code, b.code)
  }

  /** The listed groups, by code. */
  function ListedGroups(reg: Registry, tenantId: Id, module_: Option<string>, entityType: Option<string>)
    : (r: seq<StatusGroup>)
    ensures forall k :: 0 <= k < |r| ==> r[k] in reg.groups && GroupListed(r[k], tenantId, module_, entityType)
    ensures forall j :: 0 <= j < |reg.groups| && GroupListed(reg.groups[j], tenantId, module_, entityType) ==>
      reg.groups[j] in r
    ensures Selects(r, reg.groups, (g: StatusGroup) => GroupListed(g, tenantId, module_, entityType))
    ensures Sorting.Sorted(r, GroupCodeLe)
  {
    var hits := Filter(reg.groups, (g: StatusGroup) => GroupListed(g, tenantId, module_, entityType));
    FilterSelects(reg.groups, (g: StatusGroup) => GroupListed(g, tenantId, module_, entityType));
    assert Sorting.Total(hits, GroupCodeLe) by {
      forall i, j | 0 <= i < |hits| && 0 <= j < |hits|
        ensures GroupCodeLe(hits[i], hits[j]) || GroupCodeLe(hits[j], hits[i])
      {
        Sorting.StrLeTotal(hits[i].code, hits[j].code);
      }
    }
    var r := Sorting.SortBy(hits, GroupCodeLe);
    Sorting.SameMembers(r, hits);
    r
  }

  function FindAllGroups(reg: Registry, tenantId: Id, module_: Option<string>, entityType: Option<string>,
                         page: nat, limit: nat): (r: GroupPage)
    requires page >= 1 && limit >= 1
    ensures |r.data| <= limit
    ensures forall k :: 0 <= k < |r.data| ==> r.data[k] in reg.groups && GroupListed(r.data[k], tenantId, module_, entityType)
    ensures r.meta.total == |ListedGroups(reg, tenantId, module_, entityType)|
    ensures r.meta.page == page && r.meta.limit == limit
    ensures r.meta.totalPages == Paging.TotalPages(r.meta.total, limit)
    ensures |r.data| == Paging.PageLength(r.meta.total, page, limit)
    ensures forall k :: 0 <= k < |r.data| ==>
      var listed := ListedGroups(reg, tenantId, module_, entityType);
      Paging.Skip(page, limit) + k < |listed| && r.data[k] == listed[Paging.Skip(page, limit) + k]
  {
    var all := ListedGroups(reg, tenantId, module_, entityType);
    var data := Paging.PageOf(all, page, limit);
    GroupPage(data, Paging.Meta(|all|, page, limit, Paging.TotalPages(|all|, limit)))
  }

  /** The row a successful group update writes: every field the request
      carries replaces the stored one. */
  function PatchGroup(g: StatusGroup, dto: UpdateGroupDto): StatusGroup {
    g.(code := dto.code.GetOr(g.code), name := dto.name.GetOr(g.name),
       description := if dto.description.Some? then dto.description else g.description,
       module_ := dto.module_.GetOr(g.module_), entityType := dto.entityType.GetOr(g.entityType),
       allowCustomStatuses := dto.allowCustomStatuses.GetOr(g.allowCustomStatuses),
       requireWorkflow := dto.requireWorkflow.GetOr(g.requireWorkflow))
  }

  /** A group update asks to take a code some other group row holds. */
  predicate GroupCodeClash(gs: seq<StatusGroup>, code: string, dto: UpdateGroupDto) {
    dto.code.Some? && dto.code.value != code && GroupCodeTaken(gs, dto.code.value)
  }

  function UpdateGroup(reg: Registry, code: string, dto: UpdateGroupDto): (r: Result<Registry>)
    requires dto.code != Some("")
    ensures !GroupCodeTaken(reg.groups, code) ==> r == Err(NotFound)
    ensures GroupCodeTaken(reg.groups, code) ==>
      var g := reg.groups[LocateGroup(reg.groups, code).value];
      && (g.isSystemGroup && dto.code.Some? ==> r == Err(BadRequest))
      && (!g.isSystemGroup && GroupCodeClash(reg.groups, code, dto) ==> r == Err(Conflict))
      && (r.Ok? <==> !(g.isSystemGroup && dto.code.Some?) && !GroupCodeClash(reg.groups, code, dto))
    ensures r.Ok? ==> |r.value.groups| == |reg.groups|
    ensures r.Ok? ==>
      var i := LocateGroup(reg.groups, code).value;
      var g := reg.groups[i];
      var n := r.value.groups[i];
      && r.value == reg.(groups := reg.groups[i := n])
      && (dto.code.Some? ==> !g.isSystemGroup)
      && n.id == g.id && n.tenantId == g.tenantId && n.isActive == g.isActive && n.isSystemGroup == g.isSystemGroup
      && n.code == dto.code.GetOr(code) && n.name == dto.name.GetOr(g.name)
      && n.description == (if dto.description.Some? then dto.description else g.description)
      && n.module_ == dto.module_.GetOr(g.module_) && n.entityType == dto.entityType.GetOr(g.entityType)
      && n.allowCustomStatuses == dto.allowCustomStatuses.GetOr(g.allowCustomStatuses)
      && n.requireWorkflow == dto.requireWorkflow.GetOr(g.requireWorkflow)
  {
    match LocateGroup(reg.groups, code)
    case None => Err(NotFound)
    case Some(i) =>
      var g := reg.groups[i];
      if g.isSystemGroup && dto.code.Some? then Err(BadRequest)
      else if dto.code.Some? && dto.code.value != code && LocateGroup(reg.groups, dto.code.value).Some? then Err(Conflict)
      else Ok(reg.(groups := reg.groups[i := PatchGroup(g, dto)]))
  }

  /** Updating a group keeps group codes unique, and the group then answers
      to its new code with every field the request carried. */
  lemma UpdateGroupKeepsCodesUnique(reg: Registry, code: string, dto: UpdateGroupDto)
    requires dto.code != Some("")
    requires GroupCodesUnique(reg.groups)
    requires UpdateGroup(reg, code, dto).Ok?
    ensures var gs := UpdateGroup(reg, code, dto).value.groups;
      && GroupCodesUnique(gs)
      && FindGroupByCode(Registry(gs, reg.statuses), dto.code.GetOr(code)).Ok?
      && FindGroupByCode(Registry(gs, reg.statuses), dto.code.GetOr(code)).value.group
         == PatchGroup(reg.groups[LocateGroup(reg.groups, code).value], dto)
  {
    var gs := UpdateGroup(reg, code, dto).value.groups;
    var i := LocateGroup(reg.groups, code).value;
    forall a, b | 0 <= a < b < |gs|
      ensures gs[a].code != gs[b].code
    {
      if a == i || b == i {
        var other := if a == i then b else a;
        assert gs[other] == reg.groups[other];
        if dto.code.Some? && dto.code.value != code {
          assert !GroupCodeTaken(reg.groups, dto.code.value);
        }
      } else {
        assert gs[a] == reg.groups[a] && gs[b] == reg.groups[b];
      }
    }
    assert gs[i].code == dto.code.GetOr(code);
    assert LocateGroup(gs, dto.code.GetOr(code)) == Some(i) by {
      forall m | 0 <= m < i ensures gs[m].code != dto.code.GetOr(code) {
        assert gs[m].code != gs[i].code;
      }
    }
  }

  /** A group moved to another module by an update leaves the listing of
      its old module: the listing follows every field the request wrote. */
  lemma UpdateGroupMovesModule(reg: Registry, code: string, dto: UpdateGroupDto, tenantId: Id,
                               module_: string, entityType: Option<string>)
    requires dto.code != Some("")
    requires GroupCodesUnique(reg.groups)
    requires UpdateGroup(reg, code, dto).Ok?
    requires module_ != "" && dto.module_.Some? && dto.module_.value != module_
    ensures var after := UpdateGroup(reg, code, dto).value;
      FindGroupByCode(after, dto.code.GetOr(code)).value.group !in ListedGroups(after, tenantId, Some(module_), entityType)
  {
    UpdateGroupKeepsCodesUnique(reg, code, dto);
  }

  /** Creating a group keeps group codes unique. */
  lemma CreateGroupKeepsCodesUnique(reg: Registry, tenantId: Id, dto: CreateGroupDto, newId: Id)
    requires forall i :: 0 <= i < |reg.groups| ==> reg.groups[i].id != newId
    requires GroupCodesUnique(reg.groups)
    requires CreateGroup(reg, tenantId, dto, newId).Ok?
    ensures GroupCodesUnique(CreateGroup(reg, tenantId, dto, newId).value.groups)
  {
    var gs := CreateGroup(reg, tenantId, dto, newId).value.groups;
    forall a, b | 0 <= a < b < |gs|
      ensures gs[a].code != gs[b].code
    {
      if b == |reg.groups| {
        assert gs[a] == reg.groups[a];
      } else {
        assert gs[a] == reg.groups[a] && gs[b] == reg.groups[b];
      }
    }
  }

  /** Some status row, active or not, belongs to the group. */
  predicate HasStatuses(ss: seq<Status>, groupId: Id) {
    exists k :: 0 <= k < |ss| && ss[k].statusGroupId == groupId
  }

  function DeleteGroup(reg: Registry, code: string): (r: Result<Registry>)
    ensures !GroupCodeTaken(reg.groups, code) ==> r == Err(NotFound)
    ensures GroupCodeTaken(reg.groups, code) ==>
      var g := reg.groups[LocateGroup(reg.groups, code).value];
      && (g.isSystemGroup ==> r == Err(BadRequest))
      && (HasStatuses(reg.statuses, g.id) ==> r == Err(BadRequest))
      && (r.Ok? <==> !g.isSystemGroup && !HasStatuses(reg.statuses, g.id))
    ensures r.Ok? ==>
      var i := LocateGroup(reg.groups, code).value;
      r.value == reg.(groups := reg.groups[i := reg.groups[i].(isActive := false)])
  {
    match LocateGroup(reg.groups, code)
    case None => Err(NotFound)
    case Some(i) =>
      var g := reg.groups[i];
      if g.isSystemGroup then Err(BadRequest)
      else if Count(reg.statuses, (s: Status) => s.statusGroupId == g.id) > 0 then Err(BadRequest)
      else Ok(reg.(groups := reg.groups[i := g.(isActive := false)]))
  }

  /** A deleted group drops out of the listing but still resolves by code. */
  lemma DeletedGroupStillResolves(reg: Registry, code: string, tenantId: Id,
                                  module_: Option<string>, entityType: Option<string>)
    requires DeleteGroup(reg, code).Ok?
    ensures var after := DeleteGroup(reg, code).value;
      && FindGroupByCode(after, code).Ok?
      && !FindGroupByCode(after, code).value.group.isActive
      && FindGroupByCode(after, code).value.group !in ListedGroups(after, tenantId, module_, entityType)
  {
    var after := DeleteGroup(reg, code).value;
    var i := LocateGroup(reg.groups, code).value;
    assert after.groups[i].code == code;
    forall m | 0 <= m < i
      ensures after.groups[m].code != code
    {
      assert after.groups[m] == reg.groups[m];
    }
    assert LocateGroup(after.groups, code) == Some(i);
  }

  // ---------------------------------------------------------------------
  // Statuses
  // ---------------------------------------------------------------------

  predicate StatusCodeTaken(ss: seq<Status>, groupId: Id, code: string) {
    exists k :: 0 <= k < |ss| && ss[k].statusGroupId == groupId && ss[k].code == code
  }

  /** The status row with the key (group, code), active or not. */
  function LocateStatus(ss: seq<Status>, groupId: Id, code: string): (k: Option<nat>)
    ensures k.None? <==> !StatusCodeTaken(ss, groupId, code)
    ensures k.Some? ==> k.value < |ss| && ss[k.value].statusGroupId == groupId && ss[k.value].code == code
  {
    Find(ss, (s: Status) => s.statusGroupId == groupId && s.code == code)
  }

  /** The `updateMany` that clears the defaults of a group, sparing the row
      with id `spare` when there is one. */
  function ClearDefaults(ss: seq<Status>, groupId: Id, spare: Option<Id>): (r: seq<Status>)
    ensures |r| == |ss|
    ensures forall k :: 0 <= k < |ss| ==>
      if ss[k].statusGroupId == groupId && Some(ss[k].id) != spare then r[k] == ss[k].(isDefault := false)
      else r[k] == ss[k]
  {
    seq(|ss|, k requires 0 <= k < |ss| =>
      if ss[k].statusGroupId == groupId && Some(ss[k].id) != spare then ss[k].(isDefault := false) else ss[k])
  }

  /** Appending a row after the optional clearing of a group's defaults
      changes earlier rows in their default flag only, and only in that
      group. */
  lemma AppendAfterClearing(ss: seq<Status>, groupId: Id, clear: bool, s: Status)
    ensures var r := (if clear then ClearDefaults(ss, groupId, None) else ss) + [s];
      && |r| == |ss| + 1 && r[|ss|] == s
      && (forall k :: 0 <= k < |ss| ==> r[k] == ss[k].(isDefault := r[k].isDefault))
      && (forall k :: 0 <= k < |ss| && ss[k].statusGroupId != groupId ==> r[k] == ss[k])
      && (!clear ==> r[..|ss|] == ss)
      && (clear ==> forall k :: 0 <= k < |ss| && r[k].statusGroupId == groupId ==> !r[k].isDefault)
  {
    var kept := if clear then ClearDefaults(ss, groupId, None) else ss;
    assert (kept + [s])[..|ss|] == kept;
  }

  function CreateStatus(reg: Registry, groupCode: string, tenantId: Id, dto: CreateStatusDto, newId: Id)
    : (r: Result<Registry>)
    requires forall k :: 0 <= k < |reg.statuses| ==> reg.statuses[k].id != newId
    ensures !GroupCodeTaken(reg.groups, groupCode) ==> r == Err(NotFound)
    ensures GroupCodeTaken(reg.groups, groupCode) ==>
      var g := reg.groups[LocateGroup(reg.groups, groupCode).value];
      && (r.Err? <==> StatusCodeTaken(reg.statuses, g.id, dto.code))
      && (r.Err? ==> r.kind == Conflict)
    ensures r.Ok? ==>
      var g := reg.groups[LocateGroup(reg.groups, groupCode).value];
      var ss := r.value.statuses;
      var n := |reg.statuses|;
      && r.value.groups == reg.groups
      && |ss| == n + 1
      && ss[n] == Status(newId, g.id, tenantId, dto.code, dto.name, dto.displayOrder.GetOr(0),
                         dto.isDefault.GetOr(false), dto.isEditable.GetOr(true), dto.isDeletable.GetOr(true),
                         dto.requiresApproval.GetOr(false), true, false)
      && (forall k :: 0 <= k < n ==> ss[k] == reg.statuses[k].(isDefault := ss[k].isDefault))
      && (forall k :: 0 <= k < n && reg.statuses[k].statusGroupId != g.id ==> ss[k] == reg.statuses[k])
      && (dto.isDefault != Some(true) ==> ss[..n] == reg.statuses)
      && (dto.isDefault == Some(true) ==> forall k :: 0 <= k < n && ss[k].statusGroupId == g.id ==> !ss[k].isDefault)
  {
    match LocateGroup(reg.groups, groupCode)
    case None => Err(NotFound)
    case Some(i) =>
      var g := reg.groups[i];
      if LocateStatus(reg.statuses, g.id, dto.code).Some? then Err(Conflict)
      else
        var clear := dto.isDefault == Some(true);
        var kept := if clear then ClearDefaults(reg.statuses, g.id, None) else reg.statuses;
        var s := Status(newId, g.id, tenantId, dto.code, dto.name, dto.displayOrder.GetOr(0),
                        dto.isDefault.GetOr(false), dto.isEditable.GetOr(true), dto.isDeletable.GetOr(true),
                        dto.requiresApproval.GetOr(false), true, false);
        AppendAfterClearing(reg.statuses, g.id, clear, s);
        Ok(reg.(statuses := kept + [s]))
  }

  /** Creating a status keeps at most one default per group. */
  lemma CreateStatusKeepsOneDefault(reg: Registry, groupCode: string, tenantId: Id, dto: CreateStatusDto, newId: Id)
    requires forall k :: 0 <= k < |reg.statuses| ==> reg.statuses[k].id != newId
    requires OneDefault(reg.statuses)
    requires CreateStatus(reg, groupCode, tenantId, dto, newId).Ok?
    ensures OneDefault(CreateStatus(reg, groupCode, tenantId, dto, newId).value.statuses)
  {
    var ss := CreateStatus(reg, groupCode, tenantId, dto, newId).value.statuses;
    var n := |reg.statuses|;
    forall i, j | 0 <= i < |ss| && 0 <= j < |ss| && ss[i].isDefault && ss[j].isDefault &&
      ss[i].statusGroupId == ss[j].statusGroupId
      ensures i == j
    {
      if i < n && j < n {
        assert reg.statuses[i].isDefault && reg.statuses[j].isDefault;
      }
    }
  }

  /** The same status code may be used in two different groups. */
  lemma SameCodeInOtherGroup(reg: Registry, groupCode: string, tenantId: Id, dto: CreateStatusDto, newId: Id)
    requires forall j :: 0 <= j < |reg.statuses| ==> reg.statuses[j].id != newId
    requires GroupCodeTaken(reg.groups, groupCode)
    requires forall j :: 0 <= j < |reg.statuses| && reg.statuses[j].code == dto.code ==>
      reg.statuses[j].statusGroupId != reg.groups[LocateGroup(reg.groups, groupCode).value].id
    ensures CreateStatus(reg, groupCode, tenantId, dto, newId).Ok?
  {
  }

  /** The fields of an update applied to a status row; absent fields are
      left alone. */
  function Patch(s: Status, dto: UpdateStatusDto): Status {
    s.(code := dto.code.GetOr(s.code), name := dto.name.GetOr(s.name),
       displayOrder := dto.displayOrder.GetOr(s.displayOrder),
       isDefault := dto.isDefault.GetOr(s.isDefault),
       isEditable := dto.isEditable.GetOr(s.isEditable),
       isDeletable := dto.isDeletable.GetOr(s.isDeletable),
       requiresApproval := dto.requiresApproval.GetOr(s.requiresApproval))
  }

  /** The writes of a successful `updateStatus` on row `k` of group
      `groupId`: the other defaults of the group are cleared when the update
      makes the row the default, then the row is patched. */
  function ApplyStatusUpdate(ss: seq<Status>, k: nat, groupId: Id, dto: UpdateStatusDto): (r: seq<Status>)
    requires k < |ss|
    ensures |r| == |ss|
    ensures r[k] == Patch(ss[k], dto)
    ensures r[k].isDefault == dto.isDefault.GetOr(ss[k].isDefault)
    ensures forall j :: 0 <= j < |ss| && j != k ==> r[j] == ss[j].(isDefault := r[j].isDefault)
    ensures forall j ::
      0 <= j < |ss| && j != k && (dto.isDefault != Some(true) || ss[j].statusGroupId != groupId) ==> r[j] == ss[j]
    ensures dto.isDefault == Some(true) ==>
      forall j :: 0 <= j < |ss| && ss[j].statusGroupId == groupId && ss[j].id != ss[k].id ==> !r[j].isDefault
  {
    var cleared := if dto.isDefault == Some(true) then ClearDefaults(ss, groupId, Some(ss[k].id)) else ss;
    cleared[k := Patch(ss[k], dto)]
  }

  function UpdateStatus(reg: Registry, groupCode: string, statusCode: string, dto: UpdateStatusDto): (r: Result<Registry>)
    requires dto.code != Some("")
    ensures !GroupCodeTaken(reg.groups, groupCode) ==> r == Err(NotFound)
    ensures GroupCodeTaken(reg.groups, groupCode) ==>
      var g := reg.groups[LocateGroup(reg.groups, groupCode).value];
      && (!StatusCodeTaken(reg.statuses, g.id, statusCode) ==> r == Err(NotFound))
      && (StatusCodeTaken(reg.statuses, g.id, statusCode) ==>
            var s := reg.statuses[LocateStatus(reg.statuses, g.id, statusCode).value];
            && (s.isSystemStatus && dto.code.Some? ==> r == Err(BadRequest))
            && (!s.isSystemStatus && dto.code.Some? && dto.code.value != s.code &&
                StatusCodeTaken(reg.statuses, g.id, dto.code.value)
                ==> r == Err(UniqueViolation))
            && (r.Ok? <==>
                  && !(s.isSystemStatus && dto.code.Some?)
                  && !(dto.code.Some? && dto.code.value != s.code && StatusCodeTaken(reg.statuses, g.id, dto.code.value))))
    ensures r.Ok? ==>
      var g := reg.groups[LocateGroup(reg.groups, groupCode).value];
      var k := LocateStatus(reg.statuses, g.id, statusCode).value;
      && !(reg.statuses[k].isSystemStatus && dto.code.Some?)
      && r.value == reg.(statuses := ApplyStatusUpdate(reg.statuses, k, g.id, dto))
  {
    match LocateGroup(reg.groups, groupCode)
    case None => Err(NotFound)
    case Some(i) =>
      var g := reg.groups[i];
      match LocateStatus(reg.statuses, g.id, statusCode)
      case None => Err(NotFound)
      case Some(k) =>
        var s := reg.statuses[k];
        if s.isSystemStatus && dto.code.Some? then Err(BadRequest)
        else if dto.code.Some? && dto.code.value != s.code && LocateStatus(reg.statuses, g.id, dto.code.value).Some?
        then Err(UniqueViolation)
        else Ok(reg.(statuses := ApplyStatusUpdate(reg.statuses, k, g.id, dto)))
  }

  /** Making a status the default leaves it the only default of its group;
      any update keeps at most one default per group. */
  lemma UpdateStatusKeepsOneDefault(reg: Registry, groupCode: string, statusCode: string, dto: UpdateStatusDto)
    requires dto.code != Some("")
    requires StatusIdsUnique(reg.statuses) && OneDefault(reg.statuses)
    requires UpdateStatus(reg, groupCode, statusCode, dto).Ok?
    ensures OneDefault(UpdateStatus(reg, groupCode, statusCode, dto).value.statuses)
  {
    var ss := UpdateStatus(reg, groupCode, statusCode, dto).value.statuses;
    var g := reg.groups[LocateGroup(reg.groups, groupCode).value];
    var k := LocateStatus(reg.statuses, g.id, statusCode).value;
    forall a, b | 0 <= a < |ss| && 0 <= b < |ss| && ss[a].isDefault && ss[b].isDefault &&
      ss[a].statusGroupId == ss[b].statusGroupId
      ensures a == b
    {
      if a != k && b != k {
        assert reg.statuses[a].isDefault && reg.statuses[b].isDefault;
      } else if dto.isDefault == Some(true) {
      } else {
        assert reg.statuses[a].isDefault && reg.statuses[b].isDefault;
      }
    }
  }

  /** The registry `updateStatus` leaves behind, whatever its outcome. When
      the update makes the row the default, the group's other defaults are
      cleared in a write of their own before the row is updated, so an update
      that then fails on the key (group, code) leaves them cleared. */
  function UpdateStatusEffect(reg: Registry, groupCode: string, statusCode: string, dto: UpdateStatusDto): (after: Registry)
    requires dto.code != Some("")
    ensures !GroupCodeTaken(reg.groups, groupCode) ==> after == reg
    ensures GroupCodeTaken(reg.groups, groupCode) ==>
      var g := reg.groups[LocateGroup(reg.groups, groupCode).value];
      && (!StatusCodeTaken(reg.statuses, g.id, statusCode) ==> after == reg)
      && (StatusCodeTaken(reg.statuses, g.id, statusCode) ==>
            var s := reg.statuses[LocateStatus(reg.statuses, g.id, statusCode).value];
            && (s.isSystemStatus && dto.code.Some? ==> after == reg)
            && ((!s.isSystemStatus && dto.code.Some? && dto.code.value != s.code
                 && StatusCodeTaken(reg.statuses, g.id, dto.code.value)) ==>
                  after == reg.(statuses := if dto.isDefault == Some(true)
                                            then ClearDefaults(reg.statuses, g.id, Some(s.id))
                                            else reg.statuses)))
    ensures UpdateStatus(reg, groupCode, statusCode, dto).Ok? ==>
      after == UpdateStatus(reg, groupCode, statusCode, dto).value
  {
    match LocateGroup(reg.groups, groupCode)
    case None => reg
    case Some(i) =>
      var g := reg.groups[i];
      match LocateStatus(reg.statuses, g.id, statusCode)
      case None => reg
      case Some(k) =>
        var s := reg.statuses[k];
        if s.isSystemStatus && dto.code.Some? then reg
        else if dto.code.Some? && dto.code.value != s.code && LocateStatus(reg.statuses, g.id, dto.code.value).Some? then
          reg.(statuses := if dto.isDefault == Some(true) then ClearDefaults(reg.statuses, g.id, Some(s.id)) else reg.statuses)
        else reg.(statuses := ApplyStatusUpdate(reg.statuses, k, g.id, dto))
  }

  /** Whatever the outcome of `updateStatus`, no group is left with two
      defaults. */
  lemma UpdateStatusEffectKeepsOneDefault(reg: Registry, groupCode: string, statusCode: string, dto: UpdateStatusDto)
    requires dto.code != Some("")
    requires StatusIdsUnique(reg.statuses) && OneDefault(reg.statuses)
    ensures OneDefault(UpdateStatusEffect(reg, groupCode, statusCode, dto).statuses)
  {
    if UpdateStatus(reg, groupCode, statusCode, dto).Ok? {
      UpdateStatusKeepsOneDefault(reg, groupCode, statusCode, dto);
    } else {
      var ss := UpdateStatusEffect(reg, groupCode, statusCode, dto).statuses;
      assert |ss| == |reg.statuses|;
      forall j | 0 <= j < |ss| && ss[j].isDefault
        ensures reg.statuses[j].isDefault && ss[j].statusGroupId == reg.statuses[j].statusGroupId
      {
      }
    }
  }

  function DeleteStatus(reg: Registry, groupCode: string, statusCode: string): (r: Result<Registry>)
    ensures !GroupCodeTaken(reg.groups, groupCode) ==> r == Err(NotFound)
    ensures GroupCodeTaken(reg.groups, groupCode) ==>
      var g := reg.groups[LocateGroup(reg.groups, groupCode).value];
      && (!StatusCodeTaken(reg.statuses, g.id, statusCode) ==> r == Err(NotFound))
      && (StatusCodeTaken(reg.statuses, g.id, statusCode) ==>
            var s := reg.statuses[LocateStatus(reg.statuses, g.id, statusCode).value];
            && (s.isSystemStatus ==> r == Err(BadRequest))
            && (!s.isSystemStatus ==> r.Ok?))
    ensures r.Ok? ==>
      var g := reg.groups[LocateGroup(reg.groups, groupCode).value];
      var k := LocateStatus(reg.statuses, g.id, statusCode).value;
      r.value == reg.(statuses := reg.statuses[k := reg.statuses[k].(isActive := false)])
  {
    match LocateGroup(reg.groups, groupCode)
    case None => Err(NotFound)
    case Some(i) =>
      var g := reg.groups[i];
      match LocateStatus(reg.statuses, g.id, statusCode)
      case None => Err(NotFound)
      case Some(k) =>
        if reg.statuses[k].isSystemStatus then Err(BadRequest)
        else Ok(reg.(statuses := reg.statuses[k := reg.statuses[k].(isActive := false)]))
  }

  /** A deleted status leaves the group's listing, yet its row still blocks
      deleting the group. */
  lemma DeletedStatusStillBlocksGroup(reg: Registry, groupCode: string, statusCode: string)
    requires DeleteStatus(reg, groupCode, statusCode).Ok?
    ensures var after := DeleteStatus(reg, groupCode, statusCode).value;
      DeleteGroup(after, groupCode) == Err(BadRequest)
  {
    var after := DeleteStatus(reg, groupCode, statusCode).value;
    var g := reg.groups[LocateGroup(reg.groups, groupCode).value];
    var k := LocateStatus(reg.statuses, g.id, statusCode).value;
    assert after.statuses[k].statusGroupId == g.id;
  }
}

=== FILE: strings.dfy ===
/**
 JavaScript's `split` and `join` on a one-character separator, and the
 facts that make them inverse to each other.
 */
module Strings {

  /** `s.split(sep)` for a one-character separator. */
  function Split(s: string, sep: char): (parts: seq<string>)
    ensures |parts| >= 1
    ensures forall i :: 0 <= i < |parts| ==> sep !in parts[i]
  {
    if |s| == 0 then [""]
    else
      var rest := Split(s[1..], sep);
      if s[0] == sep then [""] + rest
      else [[s[0]] + rest[0]] + rest[1..]
  }

  /** `parts.join(sep)`. */
  function Join(parts: seq<string>, sep: char): string
    requires |parts| >= 1
  {
    if |parts| == 1 then parts[0]
    else parts[0] + [sep] + Join(parts[1..], sep)
  }

  /** Joining the pieces of a split gives the string back. */
  lemma {:induction false} JoinSplit(s: string, sep: char)
    ensures Join(Split(s, sep), sep) == s
  {
    if |s| > 0 {
      JoinSplit(s[1..], sep);
      var rest := Split(s[1..], sep);
      if s[0] != sep {
        if |rest| == 1 {
          assert Join(Split(s, sep), sep) == [s[0]] + rest[0];
        } else {
          assert Split(s, sep)[1..] == rest[1..];
          assert Join(Split(s, sep), sep) == [s[0]] + rest[0] + [sep] + Join(rest[1..], sep);
        }
        assert s == [s[0]] + s[1..];
      } else {
        assert Split(s, sep)[1..] == rest;
      }
    }
  }

  /** A piece free of separators splits to itself. */
  lemma {:induction false} SplitPlain(a: string, sep: char)
    requires sep !in a
    ensures Split(a, sep) == [a]
  {
    if |a| > 0 {
      SplitPlain(a[1..], sep);
      assert [a[0]] + a[1..] == a;
    }
  }

  /** Splitting `a` + separator + `b`, with `a` free of separators, peels `a` off. */
  lemma {:induction false} SplitCons(a: string, b: string, sep: char)
    requires sep !in a
    ensures Split(a + [sep] + b, sep) == [a] + Split(b, sep)
  {
    var s := a + [sep] + b;
    if |a| == 0 {
      assert s[0] == sep && s[1..] == b;
    } else {
      assert s[1..] == a[1..] + [sep] + b;
      SplitCons(a[1..], b, sep);
      assert [a[0]] + a[1..] == a;
    }
  }

  /** Splitting a join of separator-free pieces gives the pieces back. */
  lemma {:induction false} SplitJoin(parts: seq<string>, sep: char)
    requires |parts| >= 1
    requires forall i :: 0 <= i < |parts| ==> sep !in parts[i]
    ensures Split(Join(parts, sep), sep) == parts
  {
    if |parts| == 1 {
      SplitPlain(parts[0], sep);
    } else {
      SplitJoin(parts[1..], sep);
      SplitCons(parts[0], Join(parts[1..], sep), sep);
      assert [parts[0]] + parts[1..] == parts;
    }
  }
}

=== FILE: users.dfy ===
/**
 The user service: create with a per-tenant unique email, lookup, update and
 soft delete of visible users, password change against an abstract password
 check, and wholesale replacement of a user's role links.

 Password hashing and comparison are foreign calls: a new hash arrives as a
 parameter, and the comparison of a clear-text password with a stored hash
 is the parameter `verify`.
 */
module Users {

  import opened Common
  import opened AdminStore

  datatype CreateUserDto = CreateUserDto(
    email: string,
    firstName: string,
    lastName: string,
    phone: Option<string>)

  datatype UpdateUserDto = UpdateUserDto(
    firstName: Option<string>,
    lastName: Option<string>,
    phone: Option<string>,
    avatar: Option<string>,
    isActive: Option<bool>)

  /** What `findOne` returns: the user and the ids of its roles. */
  datatype UserDetail = UserDetail(user: User, roleIds: seq<Id>)

  /** The filter `{ id, tenantId, deletedAt: null }`. */
  predicate Visible(u: User, id: Id, tenantId: Id) {
    u.id == id && u.tenantId == tenantId && u.deletedAt.None?
  }

  function Locate(us: seq<User>, id: Id, tenantId: Id): (k: Option<nat>)
    ensures k.None? <==> forall i :: 0 <= i < |us| ==> !Visible(us[i], id, tenantId)
    ensures k.Some? ==> k.value < |us| && Visible(us[k.value], id, tenantId)
  {
    Find(us, (u: User) => Visible(u, id, tenantId))
  }

  /** No two users of a tenant share an email: the store's unique key. */
  predicate EmailsUnique(us: seq<User>) {
    forall i, j :: 0 <= i < j < |us| && us[i].tenantId == us[j].tenantId ==> us[i].email != us[j].email
  }

  /** The unique key (tenantId, email) is taken, by any row, deleted or not. */
  predicate EmailTaken(us: seq<User>, tenantId: Id, email: string) {
    exists i :: 0 <= i < |us| && us[i].tenantId == tenantId && us[i].email == email
  }

  function Create(st: Store, dto: CreateUserDto, tenantId: Id, passwordHash: string, newId: Id): (r: Result<Store>)
    requires forall i :: 0 <= i < |st.users| ==> st.users[i].id != newId
    ensures r.Err? <==> EmailTaken(st.users, tenantId, dto.email)
    ensures r.Err? ==> r.kind == Conflict
    ensures r.Ok? ==> r.value == st.(users := r.value.users)
    ensures r.Ok? ==> |r.value.users| == |st.users| + 1 && r.value.users[..|st.users|] == st.users
    ensures r.Ok? ==>
      var n := r.value.users[|st.users|];
      && n.id == newId && n.tenantId == tenantId && n.email == dto.email
      && n.firstName == dto.firstName && n.lastName == dto.lastName && n.phone == dto.phone
      && n.avatar.None? && n.passwordChangedAt.None?
      && n.passwordHash == passwordHash && n.isActive && n.deletedAt.None?
  {
    match Find(st.users, (u: User) => u.tenantId == tenantId && u.email == dto.email)
    case Some(_) => Err(Conflict)
    case None =>
      var u := User(newId, tenantId, dto.email, dto.firstName, dto.lastName, dto.phone, None,
                    passwordHash, None, true, None);
      Ok(st.(users := st.users + [u]))
  }

  function FindOne(st: Store, id: Id, tenantId: Id): (r: Result<UserDetail>)
    ensures r.Err? <==> forall i :: 0 <= i < |st.users| ==> !Visible(st.users[i], id, tenantId)
    ensures r.Err? ==> r.kind == NotFound
    ensures r.Ok? ==> r.value.user in st.users && Visible(r.value.user, id, tenantId)
    ensures r.Ok? ==> forall role :: role in r.value.roleIds <==>
      exists k :: 0 <= k < |st.userRoles| && st.userRoles[k].userId == id && st.userRoles[k].roleId == role
  {
    match Locate(st.users, id, tenantId)
    case None => Err(NotFound)
    case Some(i) => Ok(UserDetail(st.users[i], RoleIdsOfUser(st.userRoles, id)))
  }

  /** The row a successful update writes: every field the request carries
      replaces the stored one. */
  function PatchUser(u: User, dto: UpdateUserDto): User {
    u.(firstName := dto.firstName.GetOr(u.firstName), lastName := dto.lastName.GetOr(u.lastName),
       phone := if dto.phone.Some? then dto.phone else u.phone,
       avatar := if dto.avatar.Some? then dto.avatar else u.avatar,
       isActive := dto.isActive.GetOr(u.isActive))
  }

  function Update(st: Store, id: Id, tenantId: Id, dto: UpdateUserDto): (r: Result<Store>)
    ensures r.Err? <==> Locate(st.users, id, tenantId).None?
    ensures r.Err? ==> r.kind == NotFound
    ensures r.Ok? ==> r.value == st.(users := r.value.users) && |r.value.users| == |st.users|
    ensures r.Ok? ==>
      var i := Locate(st.users, id, tenantId).value;
      var old_ := st.users[i];
      var new_ := r.value.users[i];
      && (forall j :: 0 <= j < |st.users| && j != i ==> r.value.users[j] == st.users[j])
      && new_ == old_.(firstName := new_.firstName, lastName := new_.lastName, phone := new_.phone,
                       avatar := new_.avatar, isActive := new_.isActive)
      && new_.firstName == dto.firstName.GetOr(old_.firstName)
      && new_.lastName == dto.lastName.GetOr(old_.lastName)
      && new_.phone == (if dto.phone.Some? then dto.phone else old_.phone)
      && new_.avatar == (if dto.avatar.Some? then dto.avatar else old_.avatar)
      && new_.isActive == dto.isActive.GetOr(old_.isActive)
  {
    match Locate(st.users, id, tenantId)
    case None => Err(NotFound)
    case Some(i) => Ok(st.(users := st.users[i := PatchUser(st.users[i], dto)]))
  }

  function Remove(st: Store, id: Id, tenantId: Id, now: Time): (r: Result<Store>)
    ensures r.Err? <==> Locate(st.users, id, tenantId).None?
    ensures r.Err? ==> r.kind == NotFound
    ensures r.Ok? ==>
      var i := Locate(st.users, id, tenantId).value;
      r.value == st.(users := st.users[i := st.users[i].(deletedAt := Some(now))])
  {
    match Locate(st.users, id, tenantId)
    case None => Err(NotFound)
    case Some(i) => Ok(st.(users := st.users[i := st.users[i].(deletedAt := Some(now))]))
  }

  /** `changePassword` looks the user up by id and tenant only: soft-deleted
      users are found too. */
  predicate Owned(u: User, id: Id, tenantId: Id) {
    u.id == id && u.tenantId == tenantId
  }

  function LocateOwned(us: seq<User>, id: Id, tenantId: Id): (k: Option<nat>)
    ensures k.None? <==> forall i :: 0 <= i < |us| ==> !Owned(us[i], id, tenantId)
    ensures k.Some? ==> k.value < |us| && Owned(us[k.value], id, tenantId)
  {
    Find(us, (u: User) => Owned(u, id, tenantId))
  }

  function ChangePassword(st: Store, userId: Id, tenantId: Id, currentPassword: string, newHash: string,
                          now: Time, verify: (string, string) -> bool): (r: Result<Store>)
    ensures LocateOwned(st.users, userId, tenantId).None? ==> r == Err(NotFound)
    ensures LocateOwned(st.users, userId, tenantId).Some? ==>
      var u := st.users[LocateOwned(st.users, userId, tenantId).value];
      && (r.Ok? <==> verify(currentPassword, u.passwordHash))
      && (r.Err? ==> r.kind == BadRequest)
    ensures r.Ok? ==>
      var i := LocateOwned(st.users, userId, tenantId).value;
      && r.value.users == st.users[i := st.users[i].(passwordHash := newHash, passwordChangedAt := Some(now))]
      && r.value.passwordHistory == st.passwordHistory + [PasswordHistory(userId, newHash)]
      && r.value == st.(users := r.value.users, passwordHistory := r.value.passwordHistory)
  {
    match LocateOwned(st.users, userId, tenantId)
    case None => Err(NotFound)
    case Some(i) =>
      var u := st.users[i];
      if !verify(currentPassword, u.passwordHash) then Err(BadRequest)
      else
        Ok(st.(users := st.users[i := u.(passwordHash := newHash, passwordChangedAt := Some(now))],
               passwordHistory := st.passwordHistory + [PasswordHistory(userId, newHash)]))
  }

  function LinksFor(userId: Id, roleIds: seq<Id>, assignedBy: Id): (links: seq<UserRole>)
    ensures |links| == |roleIds|
    ensures forall k :: 0 <= k < |links| ==> links[k] == UserRole(userId, roleIds[k], assignedBy)
  {
    seq(|roleIds|, k requires 0 <= k < |roleIds| => UserRole(userId, roleIds[k], assignedBy))
  }

  /** The new links are written in one statement; it fails as a whole when
      an id names no role (foreign key) or repeats (the key (userId, roleId)). */
  function AssignRoles(st: Store, userId: Id, tenantId: Id, roleIds: seq<Id>, assignedBy: Id): (r: Result<Store>)
    ensures Locate(st.users, userId, tenantId).None? ==> r == Err(NotFound)
    ensures Locate(st.users, userId, tenantId).Some? && UnknownRoleId(st.roles, roleIds) ==>
      r == Err(ForeignKeyViolation)
    ensures (Locate(st.users, userId, tenantId).Some? && !UnknownRoleId(st.roles, roleIds)
             && !NoDuplicates(roleIds)) ==> r == Err(UniqueViolation)
    ensures r.Ok? <==> && Locate(st.users, userId, tenantId).Some?
                       && !UnknownRoleId(st.roles, roleIds)
                       && NoDuplicates(roleIds)
    ensures r.Ok? ==> r.value == st.(userRoles := r.value.userRoles)
    ensures r.Ok? ==> forall role :: role in roleIds <==>
      exists k :: 0 <= k < |r.value.userRoles| && r.value.userRoles[k].userId == userId && r.value.userRoles[k].roleId == role
    ensures r.Ok? ==> forall l: UserRole :: l.userId != userId ==> (l in r.value.userRoles <==> l in st.userRoles)
    ensures r.Ok? ==> forall l: UserRole :: l in r.value.userRoles && l.userId == userId ==> l.assignedBy == assignedBy
  {
    match Locate(st.users, userId, tenantId)
    case None => Err(NotFound)
    case Some(_) =>
      if Find(roleIds, (id: Id) => Find(st.roles, (x: Role) => x.id == id).None?).Some? then
        Err(ForeignKeyViolation)
      else if !NoDuplicates(roleIds) then Err(UniqueViolation)
      else
      var kept := Filter(st.userRoles, (l: UserRole) => l.userId != userId);
      var added := LinksFor(userId, roleIds, assignedBy);
      var links := kept + added;
      LinksNameRoles(kept, userId, roleIds, assignedBy);
      Ok(st.(userRoles := links))
  }

  /** The store `assignRoles` leaves behind, whatever its outcome. The old
      links are deleted before the new ones are written, and not in one
      transaction, so a rejected write leaves the user with no roles at all. */
  function AssignRolesEffect(st: Store, userId: Id, tenantId: Id, roleIds: seq<Id>, assignedBy: Id): (after: Store)
    ensures Locate(st.users, userId, tenantId).None? ==> after == st
    ensures AssignRoles(st, userId, tenantId, roleIds, assignedBy).Ok? ==>
      after == AssignRoles(st, userId, tenantId, roleIds, assignedBy).value
    ensures (Locate(st.users, userId, tenantId).Some?
             && (UnknownRoleId(st.roles, roleIds) || !NoDuplicates(roleIds))) ==>
      && after == st.(userRoles := after.userRoles)
      && forall l: UserRole :: l in after.userRoles <==> l in st.userRoles && l.userId != userId
  {
    match AssignRoles(st, userId, tenantId, roleIds, assignedBy)
    case Ok(v) => v
    case Err(e) =>
      if e == NotFound then st
      else st.(userRoles := Filter(st.userRoles, (l: UserRole) => l.userId != userId))
  }

  /** After an assignment, `findOne` lists exactly the assigned roles. */
  lemma AssignThenFindOne(st: Store, userId: Id, tenantId: Id, roleIds: seq<Id>, assignedBy: Id)
    requires AssignRoles(st, userId, tenantId, roleIds, assignedBy).Ok?
    ensures var after := AssignRoles(st, userId, tenantId, roleIds, assignedBy).value;
      && FindOne(after, userId, tenantId).Ok?
      && forall role :: role in FindOne(after, userId, tenantId).value.roleIds <==> role in roleIds
  {
    var after := AssignRoles(st, userId, tenantId, roleIds, assignedBy).value;
    assert after.users == st.users;
  }

  /** After the user's old links are dropped, the new links name exactly the
      given roles. */
  lemma LinksNameRoles(kept: seq<UserRole>, userId: Id, roleIds: seq<Id>, assignedBy: Id)
    requires forall k :: 0 <= k < |kept| ==> kept[k].userId != userId
    ensures var links := kept + LinksFor(userId, roleIds, assignedBy);
      forall role :: role in roleIds <==>
        exists k :: 0 <= k < |links| && links[k].userId == userId && links[k].roleId == role
  {
    var added := LinksFor(userId, roleIds, assignedBy);
    var links := kept + added;
    forall role
      ensures role in roleIds <==>
        exists k :: 0 <= k < |links| && links[k].userId == userId && links[k].roleId == role
    {
      if role in roleIds {
        var m :| 0 <= m < |roleIds| && roleIds[m] == role;
        assert links[|kept| + m] == added[m];
      }
      if exists k :: 0 <= k < |links| && links[k].userId == userId && links[k].roleId == role {
        var k :| 0 <= k < |links| && links[k].userId == userId && links[k].roleId == role;
        assert k >= |kept|;
        assert links[k] == added[k - |kept|];
      }
    }
  }

  /** Removing a user hides it from `findOne`. */
  lemma RemoveHides(st: Store, id: Id, tenantId: Id, now: Time)
    requires UserIdsUnique(st.users)
    requires Remove(st, id, tenantId, now).Ok?
    ensures FindOne(Remove(st, id, tenantId, now).value, id, tenantId) == Err(NotFound)
  {
    var i := Locate(st.users, id, tenantId).value;
    var us' := Remove(st, id, tenantId, now).value.users;
    forall j | 0 <= j < |us'|
      ensures !Visible(us'[j], id, tenantId)
    {
      if j != i {
        assert us'[j] == st.users[j];
        assert st.users[j].id != st.users[i].id;
      }
    }
  }

  /** A soft-deleted user, hidden from `findOne`, can still change its password. */
  lemma DeletedUserCanChangePassword(st: Store, i: nat, currentPassword: string, newHash: string,
                                     now: Time, verify: (string, string) -> bool)
    requires UserIdsUnique(st.users)
    requires i < |st.users| && st.users[i].deletedAt.Some?
    requires verify(currentPassword, st.users[i].passwordHash)
    ensures FindOne(st, st.users[i].id, st.users[i].tenantId) == Err(NotFound)
    ensures ChangePassword(st, st.users[i].id, st.users[i].tenantId, currentPassword, newHash, now, verify).Ok?
  {
    var u := st.users[i];
    forall j | 0 <= j < |st.users| && j != i
      ensures !Owned(st.users[j], u.id, u.tenantId)
    {
      assert st.users[j].id != u.id;
    }
  }

  /** Creating a user keeps emails unique within each tenant. */
  lemma CreateKeepsEmailsUnique(st: Store, dto: CreateUserDto, tenantId: Id, passwordHash: string, newId: Id)
    requires forall i :: 0 <= i < |st.users| ==> st.users[i].id != newId
    requires EmailsUnique(st.users)
    requires Create(st, dto, tenantId, passwordHash, newId).Ok?
    ensures EmailsUnique(Create(st, dto, tenantId, passwordHash, newId).value.users)
  {
    var us := Create(st, dto, tenantId, passwordHash, newId).value.users;
    forall a, b | 0 <= a < b < |us| && us[a].tenantId == us[b].tenantId
      ensures us[a].email != us[b].email
    {
      assert us[a] == st.users[a];
      if b < |st.users| {
        assert us[b] == st.users[b];
      }
    }
  }

  /** After an update, `findOne` answers with the patched user and the same
      roles. */
  lemma UpdateThenFindOne(st: Store, id: Id, tenantId: Id, dto: UpdateUserDto)
    requires UserIdsUnique(st.users)
    requires Update(st, id, tenantId, dto).Ok?
    ensures var after := Update(st, id, tenantId, dto).value;
      && FindOne(after, id, tenantId).Ok?
      && FindOne(after, id, tenantId).value.user == PatchUser(st.users[Locate(st.users, id, tenantId).value], dto)
      && FindOne(after, id, tenantId).value.roleIds == FindOne(st, id, tenantId).value.roleIds
  {
    var us := Update(st, id, tenantId, dto).value.users;
    var i := Locate(st.users, id, tenantId).value;
    forall m | 0 <= m < |us| && m != i
      ensures !Visible(us[m], id, tenantId)
    {
      assert us[m] == st.users[m];
      assert st.users[m].id != st.users[i].id;
    }
    assert Locate(us, id, tenantId) == Some(i);
  }
}

=== FILE: warehouses.dfy ===
/**
 Warehouses and their storage locations. Warehouse codes are unique per
 tenant and location codes per warehouse; a location's path is built from
 its aisle, rack, shelf and bin. Neither a warehouse nor a location may be
 removed while stock is on hand in it. Warehouses are soft-deleted through
 `deletedAt`, locations through `isActive`.
 */
module Warehouses {

  import opened Common
  import opened Strings
  import Paging
  import Sorting

  type Id = string
  type Time = nat

  /** The separator of a location path. */
  const PathSeparator: char := '-'

  datatype Warehouse = Warehouse(
    id: Id,
    tenantId: Id,
    code: string,
    name: string,
    city: Option<string>,
    isActive: bool,
    deletedAt: Option<Time>)

  datatype Location = Location(
    id: Id,
    tenantId: Id,
    warehouseId: Id,
    code: string,
    name: string,
    aisle: Option<string>,
    rack: Option<string>,
    shelf: Option<string>,
    bin: Option<string>,
    locationPath: string,
    isActive: bool)

  /** A stock level row: a quantity of some item held in a warehouse,
      optionally at one of its locations. */
  datatype StockLevel = StockLevel(warehouseId: Id, locationId: Option<Id>, quantityOnHand: real)

  datatype Site = Site(warehouses: seq<Warehouse>, locations: seq<Location>, stockLevels: seq<StockLevel>)

  datatype CreateWarehouseDto = CreateWarehouseDto(code: string, name: string, city: Option<string>)

  datatype UpdateWarehouseDto = UpdateWarehouseDto(code: Option<string>, name: Option<string>, city: Option<string>)

  datatype CreateLocationDto = CreateLocationDto(
    code: string,
    name: string,
    aisle: Option<string>,
    rack: Option<string>,
    shelf: Option<string>,
    bin: Option<string>)

  datatype UpdateLocationDto = UpdateLocationDto(
    code: Option<string>,
    name: Option<string>,
    aisle: Option<string>,
    rack: Option<string>,
    shelf: Option<string>,
    bin: Option<string>)

  datatype WarehousePage = WarehousePage(data: seq<Warehouse>, meta: Paging.Meta)

  /** The location block of `getWarehouseStats` and its count of stocked
      items. */
  datatype Occupancy = Occupancy(total: nat, occupied: nat, available: int, occupancyRate: real, totalItems: nat)

  // ---------------------------------------------------------------------
  // Location paths
  // ---------------------------------------------------------------------

  /** A path component survives `filter(Boolean)`: present and non-empty. */
  function Kept(c: Option<string>): (r: seq<string>)
    ensures |r| <= 1
    ensures |r| == 1 <==> c.Some? && c.value != ""
    ensures |r| == 1 ==> r[0] == c.value
  {
    if c.Some? && c.value != "" then [c.value] else []
  }

  /** The non-empty components, in the order aisle, rack, shelf, bin. */
  function Components(aisle: Option<string>, rack: Option<string>, shelf: Option<string>, bin: Option<string>)
    : seq<string>
  {
    Kept(aisle) + Kept(rack) + Kept(shelf) + Kept(bin)
  }

  /** The joined path, or `fallback` when every component is empty. */
  function PathOr(parts: seq<string>, fallback: string): (p: string)
    ensures |parts| == 0 ==> p == fallback
  {
    if |parts| == 0 then fallback else Join(parts, PathSeparator)
  }

  /** A join of non-empty pieces is non-empty, so the fallback is taken
      exactly when there are no components. */
  lemma {:induction false} JoinNonEmpty(parts: seq<string>)
    requires |parts| >= 1 && parts[0] != ""
    ensures Join(parts, PathSeparator) != ""
  {
    if |parts| > 1 {
      assert |Join(parts, PathSeparator)| >= |parts[0]|;
    }
  }

  /** The path of a location whose components have no dash in them splits
      back into exactly those components. */
  lemma PathRoundTrip(aisle: Option<string>, rack: Option<string>, shelf: Option<string>, bin: Option<string>,
                      fallback: string)
    requires forall c :: c in [aisle, rack, shelf, bin] && c.Some? ==> PathSeparator !in c.value
    ensures var parts := Components(aisle, rack, shelf, bin);
      |parts| > 0 ==> Split(PathOr(parts, fallback), PathSeparator) == parts
  {
    var parts := Components(aisle, rack, shelf, bin);
    if |parts| > 0 {
      assert aisle in [aisle, rack, shelf, bin] && rack in [aisle, rack, shelf, bin];
      assert shelf in [aisle, rack, shelf, bin] && bin in [aisle, rack, shelf, bin];
      forall i | 0 <= i < |parts| ensures PathSeparator !in parts[i] {
        assert parts[i] in Kept(aisle) || parts[i] in Kept(rack) || parts[i] in Kept(shelf) || parts[i] in Kept(bin);
      }
      SplitJoin(parts, PathSeparator);
    }
  }

  // ---------------------------------------------------------------------
  // Warehouses
  // ---------------------------------------------------------------------

  /** The filter `{ id, tenantId, deletedAt: null }`. */
  predicate Visible(w: Warehouse, id: Id, tenantId: Id) {
    w.id == id && w.tenantId == tenantId && w.deletedAt.None?
  }

  function Locate(ws: seq<Warehouse>, id: Id, tenantId: Id): (k: Option<nat>)
    ensures k.None? <==> forall i :: 0 <= i < |ws| ==> !Visible(ws[i], id, tenantId)
    ensures k.Some? ==> k.value < |ws| && Visible(ws[k.value], id, tenantId)
  {
    Find(ws, (w: Warehouse) => Visible(w, id, tenantId))
  }

  /** No two warehouses of a tenant share a code: the store's unique key. */
  predicate CodesUnique(ws: seq<Warehouse>) {
    forall i, j :: 0 <= i < j < |ws| && ws[i].tenantId == ws[j].tenantId ==> ws[i].code != ws[j].code
  }

  predicate IdsUnique(ws: seq<Warehouse>) {
    forall i, j :: 0 <= i < j < |ws| ==> ws[i].id != ws[j].id
  }

  /** The unique key (tenantId, code) is taken, by any row, deleted or not. */
  predicate CodeTaken(ws: seq<Warehouse>, tenantId: Id, code: string) {
    exists i :: 0 <= i < |ws| && ws[i].tenantId == tenantId && ws[i].code == code
  }

  function Create(st: Site, tenantId: Id, dto: CreateWarehouseDto, newId: Id): (r: Result<Site>)
    requires forall i :: 0 <= i < |st.warehouses| ==> st.warehouses[i].id != newId
    ensures r.Err? <==> CodeTaken(st.warehouses, tenantId, dto.code)
    ensures r.Err? ==> r.kind == Conflict
    ensures r.Ok? ==> |r.value.warehouses| == |st.warehouses| + 1
    ensures r.Ok? ==> r.value == st.(warehouses := st.warehouses + [r.value.warehouses[|st.warehouses|]])
    ensures r.Ok? ==>
      var w := r.value.warehouses[|st.warehouses|];
      && w.id == newId && w.tenantId == tenantId && w.code == dto.code
      && w.name == dto.name && w.city == dto.city && w.isActive && w.deletedAt.None?
  {
    if Find(st.warehouses, (w: Warehouse) => w.tenantId == tenantId && w.code == dto.code).Some? then Err(Conflict)
    else Ok(st.(warehouses := st.warehouses + [Warehouse(newId, tenantId, dto.code, dto.name, dto.city, true, None)]))
  }

  /** The where clause of `findAll` without its text filters. */
  predicate WarehouseListed(w: Warehouse, tenantId: Id, isActive: Option<bool>) {
    w.tenantId == tenantId && w.deletedAt.None? && (isActive.None? || w.isActive == isActive.value)
  }

  function FindAll(st: Site, tenantId: Id, isActive: Option<bool>, page: nat, limit: nat): (r: WarehousePage)
    requires page >= 1 && limit >= 1
    ensures |r.data| <= limit
    ensures forall k :: 0 <= k < |r.data| ==> r.data[k] in st.warehouses && WarehouseListed(r.data[k], tenantId, isActive)
    ensures r.meta.total == Count(st.warehouses, (w: Warehouse) => WarehouseListed(w, tenantId, isActive))
    ensures r.meta.page == page && r.meta.limit == limit
    ensures r.meta.totalPages == Paging.TotalPages(r.meta.total, limit)
    ensures |r.data| == Paging.PageLength(r.meta.total, page, limit)
  {
    var all := Filter(st.warehouses, (w: Warehouse) => WarehouseListed(w, tenantId, isActive));
    var data := Paging.PageOf(all, page, limit);
    WarehousePage(data, Paging.Meta(|all|, page, limit, Paging.TotalPages(|all|, limit)))
  }

  function FindOne(st: Site, tenantId: Id, id: Id): (r: Result<Warehouse>)
    ensures r.Err? <==> forall i :: 0 <= i < |st.warehouses| ==> !Visible(st.warehouses[i], id, tenantId)
    ensures r.Err? ==> r.kind == NotFound
    ensures r.Ok? ==> r.value in st.warehouses && Visible(r.value, id, tenantId)
  {
    match Locate(st.warehouses, id, tenantId)
    case None => Err(NotFound)
    case Some(i) => Ok(st.warehouses[i])
  }

  /** The row a successful update writes. */
  function PatchWarehouse(w: Warehouse, dto: UpdateWarehouseDto): Warehouse {
    w.(code := dto.code.GetOr(w.code), name := dto.name.GetOr(w.name),
       city := if dto.city.Some? then dto.city else w.city)
  }

  function Update(st: Site, tenantId: Id, id: Id, dto: UpdateWarehouseDto): (r: Result<Site>)
    requires dto.code != Some("")
    ensures Locate(st.warehouses, id, tenantId).None? ==> r == Err(NotFound)
    ensures Locate(st.warehouses, id, tenantId).Some? ==>
      var w := st.warehouses[Locate(st.warehouses, id, tenantId).value];
      (r.Err? <==> dto.code.Some? && dto.code.value != w.code && CodeTaken(st.warehouses, tenantId, dto.code.value))
    ensures r.Err? ==> r.kind in {NotFound, Conflict}
    ensures r.Ok? ==> |r.value.warehouses| == |st.warehouses|
    ensures r.Ok? ==>
      var i := Locate(st.warehouses, id, tenantId).value;
      var w := st.warehouses[i];
      && r.value == st.(warehouses := st.warehouses[i := r.value.warehouses[i]])
      && r.value.warehouses[i] == w.(code := dto.code.GetOr(w.code), name := dto.name.GetOr(w.name),
                                     city := if dto.city.Some? then dto.city else w.city)
  {
    match Locate(st.warehouses, id, tenantId)
    case None => Err(NotFound)
    case Some(i) =>
      var w := st.warehouses[i];
      if dto.code.Some? && dto.code.value != w.code
        && Find(st.warehouses, (x: Warehouse) => x.tenantId == tenantId && x.code == dto.code.value).Some?
      then Err(Conflict)
      else Ok(st.(warehouses := st.warehouses[i := PatchWarehouse(w, dto)]))
  }

  /** Some stock level in the warehouse has a positive quantity. */
  predicate WarehouseStocked(levels: seq<StockLevel>, warehouseId: Id) {
    exists k :: 0 <= k < |levels| && levels[k].warehouseId == warehouseId && levels[k].quantityOnHand > 0.0
  }

  /** A stock level of the warehouse with a positive quantity. */
  predicate InStock(l: StockLevel, warehouseId: Id) {
    l.warehouseId == warehouseId && l.quantityOnHand > 0.0
  }

  function Remove(st: Site, tenantId: Id, id: Id, now: Time): (r: Result<Site>)
    ensures Locate(st.warehouses, id, tenantId).None? ==> r == Err(NotFound)
    ensures Locate(st.warehouses, id, tenantId).Some? && WarehouseStocked(st.stockLevels, id) ==> r == Err(BadRequest)
    ensures r.Ok? <==> Locate(st.warehouses, id, tenantId).Some? && !WarehouseStocked(st.stockLevels, id)
    ensures r.Ok? ==>
      var i := Locate(st.warehouses, id, tenantId).value;
      r.value == st.(warehouses := st.warehouses[i := st.warehouses[i].(deletedAt := Some(now))])
  {
    match Locate(st.warehouses, id, tenantId)
    case None => Err(NotFound)
    case Some(i) =>
      if Count(st.stockLevels, (l: StockLevel) => InStock(l, id)) > 0 then Err(BadRequest)
      else Ok(st.(warehouses := st.warehouses[i := st.warehouses[i].(deletedAt := Some(now))]))
  }

  /** Removing a warehouse hides it from `findOne`. */
  lemma RemoveHides(st: Site, tenantId: Id, id: Id, now: Time)
    requires forall i, j :: 0 <= i < j < |st.warehouses| ==> st.warehouses[i].id != st.warehouses[j].id
    requires Remove(st, tenantId, id, now).Ok?
    ensures FindOne(Remove(st, tenantId, id, now).value, tenantId, id) == Err(NotFound)
  {
    var i := Locate(st.warehouses, id, tenantId).value;
    var ws := Remove(st, tenantId, id, now).value.warehouses;
    forall j | 0 <= j < |ws|
      ensures !Visible(ws[j], id, tenantId)
    {
      if j != i {
        assert ws[j] == st.warehouses[j];
        assert st.warehouses[j].id != st.warehouses[i].id;
      }
    }
  }

  // ---------------------------------------------------------------------
  // Locations
  // ---------------------------------------------------------------------

  /** No two locations of a warehouse share a code: the store's unique key. */
  predicate LocationCodesUnique(ls: seq<Location>) {
    forall i, j :: 0 <= i < j < |ls| && ls[i].warehouseId == ls[j].warehouseId ==> ls[i].code != ls[j].code
  }

  predicate LocationIdsUnique(ls: seq<Location>) {
    forall i, j :: 0 <= i < j < |ls| ==> ls[i].id != ls[j].id
  }

  /** The unique key (warehouseId, code) is taken, active or not. */
  predicate LocationCodeTaken(ls: seq<Location>, warehouseId: Id, code: string) {
    exists i :: 0 <= i < |ls| && ls[i].warehouseId == warehouseId && ls[i].code == code
  }

  function CreateLocation(st: Site, tenantId: Id, warehouseId: Id, dto: CreateLocationDto, newId: Id): (r: Result<Site>)
    requires forall i :: 0 <= i < |st.locations| ==> st.locations[i].id != newId
    ensures Locate(st.warehouses, warehouseId, tenantId).None? ==> r == Err(NotFound)
    ensures Locate(st.warehouses, warehouseId, tenantId).Some? ==>
      (r.Err? <==> LocationCodeTaken(st.locations, warehouseId, dto.code))
    ensures r.Err? ==> r.kind in {NotFound, Conflict}
    ensures r.Ok? ==> |r.value.locations| == |st.locations| + 1
    ensures r.Ok? ==> r.value == st.(locations := st.locations + [r.value.locations[|st.locations|]])
    ensures r.Ok? ==>
      var l := r.value.locations[|st.locations|];
      var parts := Components(dto.aisle, dto.rack, dto.shelf, dto.bin);
      && l.id == newId && l.tenantId == tenantId && l.warehouseId == warehouseId && l.code == dto.code
      && l.name == dto.name && l.aisle == dto.aisle && l.rack == dto.rack && l.shelf == dto.shelf && l.bin == dto.bin
      && l.isActive
      && (|parts| == 0 ==> l.locationPath == dto.code)
      && (|parts| > 0 ==> l.locationPath == Join(parts, PathSeparator))
  {
    match Locate(st.warehouses, warehouseId, tenantId)
    case None => Err(NotFound)
    case Some(_) =>
      if Find(st.locations, (l: Location) => l.warehouseId == warehouseId && l.code == dto.code).Some? then Err(Conflict)
      else
        var path := PathOr(Components(dto.aisle, dto.rack, dto.shelf, dto.bin), dto.code);
        var l := Location(newId, tenantId, warehouseId, dto.code, dto.name, dto.aisle, dto.rack, dto.shelf, dto.bin,
                          path, true);
        Ok(st.(locations := st.locations + [l]))
  }

  /** The filter of `findOneLocation`: an active location of the warehouse. */
  predicate LocationVisible(l: Location, id: Id, tenantId: Id, warehouseId: Id) {
    l.id == id && l.tenantId == tenantId && l.warehouseId == warehouseId && l.isActive
  }

  function LocateLocation(ls: seq<Location>, id: Id, tenantId: Id, warehouseId: Id): (k: Option<nat>)
    ensures k.None? <==> forall i :: 0 <= i < |ls| ==> !LocationVisible(ls[i], id, tenantId, warehouseId)
    ensures k.Some? ==> k.value < |ls| && LocationVisible(ls[k.value], id, tenantId, warehouseId)
  {
    Find(ls, (l: Location) => LocationVisible(l, id, tenantId, warehouseId))
  }

  function FindOneLocation(st: Site, tenantId: Id, warehouseId: Id, id: Id): (r: Result<Location>)
    ensures r.Err? <==> forall i :: 0 <= i < |st.locations| ==> !LocationVisible(st.locations[i], id, tenantId, warehouseId)
    ensures r.Err? ==> r.kind == NotFound
    ensures r.Ok? ==> r.value in st.locations && LocationVisible(r.value, id, tenantId, warehouseId)
  {
    match LocateLocation(st.locations, id, tenantId, warehouseId)
    case None => Err(NotFound)
    case Some(i) => Ok(st.locations[i])
  }

  /** The filter of `findAllLocations`: the warehouse's active locations. */
  predicate LocationListed(l: Location, tenantId: Id, warehouseId: Id) {
    l.tenantId == tenantId && l.warehouseId == warehouseId && l.isActive
  }

  /** `locationPath: 'asc'`. */
  predicate PathLe(a: Location, b: Location) {
    Sorting.StrLe(a.locationPath, b.locationPath)
  }

  /** The active locations of a visible warehouse, by path. */
  function FindAllLocations(st: Site, tenantId: Id, warehouseId: Id): (r: Result<seq<Location>>)
    ensures r.Err? <==> Locate(st.warehouses, warehouseId, tenantId).None?
    ensures r.Err? ==> r.kind == NotFound
    ensures r.Ok? ==> forall k :: 0 <= k < |r.value| ==>
      r.value[k] in st.locations && LocationListed(r.value[k], tenantId, warehouseId)
    ensures r.Ok? ==> forall j :: 0 <= j < |st.locations| && LocationListed(st.locations[j], tenantId, warehouseId) ==>
      st.locations[j] in r.value
    ensures r.Ok? ==> Selects(r.value, st.locations, (l: Location) => LocationListed(l, tenantId, warehouseId))
    ensures r.Ok? ==> forall k :: 0 < k < |r.value| ==> Sorting.StrLe(r.value[k - 1].locationPath, r.value[k].locationPath)
  {
    match Locate(st.warehouses, warehouseId, tenantId)
    case None => Err(NotFound)
    case Some(_) =>
      var hits := Filter(st.locations, (l: Location) => LocationListed(l, tenantId, warehouseId));
      FilterSelects(st.locations, (l: Location) => LocationListed(l, tenantId, warehouseId));
      var r := ByPath(hits);
      Sorting.SameMembers(r, hits);
      Ok(r)
  }

  /** The rows in `locationPath` order. */
  function ByPath(ls: seq<Location>): (r: seq<Location>)
    ensures multiset(r) == multiset(ls)
    ensures forall k :: 0 < k < |r| ==> Sorting.StrLe(r[k - 1].locationPath, r[k].locationPath)
  {
    assert Sorting.Total(ls, PathLe) by {
      forall i, j | 0 <= i < |ls| && 0 <= j < |ls|
        ensures PathLe(ls[i], ls[j]) || PathLe(ls[j], ls[i])
      {
        Sorting.StrLeTotal(ls[i].locationPath, ls[j].locationPath);
      }
    }
    var r := Sorting.SortBy(ls, PathLe);
    assert forall k :: 0 < k < |r| ==> PathLe(r[k - 1], r[k]);
    r
  }

  /** `a ?? b`: the update's value unless it is absent. */
  function Merge(update: Option<string>, stored: Option<string>): Option<string> {
    if update.Some? then update else stored
  }

  function UpdateLocation(st: Site, tenantId: Id, warehouseId: Id, id: Id, dto: UpdateLocationDto): (r: Result<Site>)
    requires dto.code != Some("")
    ensures LocateLocation(st.locations, id, tenantId, warehouseId).None? ==> r == Err(NotFound)
    ensures LocateLocation(st.locations, id, tenantId, warehouseId).Some? ==>
      var l := st.locations[LocateLocation(st.locations, id, tenantId, warehouseId).value];
      (r.Err? <==> dto.code.Some? && dto.code.value != l.code && LocationCodeTaken(st.locations, warehouseId, dto.code.value))
    ensures r.Err? ==> r.kind in {NotFound, Conflict}
    ensures r.Ok? ==> |r.value.locations| == |st.locations|
    ensures r.Ok? ==>
      var i := LocateLocation(st.locations, id, tenantId, warehouseId).value;
      var l := st.locations[i];
      var n := r.value.locations[i];
      var parts := Components(Merge(dto.aisle, l.aisle), Merge(dto.rack, l.rack),
                              Merge(dto.shelf, l.shelf), Merge(dto.bin, l.bin));
      && r.value == st.(locations := st.locations[i := n])
      && n == l.(code := n.code, name := n.name, aisle := n.aisle, rack := n.rack, shelf := n.shelf,
                 bin := n.bin, locationPath := n.locationPath)
      && n.code == dto.code.GetOr(l.code) && n.name == dto.name.GetOr(l.name)
      && n.aisle == Merge(dto.aisle, l.aisle) && n.rack == Merge(dto.rack, l.rack)
      && n.shelf == Merge(dto.shelf, l.shelf) && n.bin == Merge(dto.bin, l.bin)
      && (|parts| == 0 ==> n.locationPath == l.locationPath)
      && (|parts| > 0 ==> n.locationPath == Join(parts, PathSeparator))
  {
    match LocateLocation(st.locations, id, tenantId, warehouseId)
    case None => Err(NotFound)
    case Some(i) =>
      var l := st.locations[i];
      if dto.code.Some? && dto.code.value != l.code
        && Find(st.locations, (x: Location) => x.warehouseId == warehouseId && x.code == dto.code.value).Some?
      then Err(Conflict)
      else
        var aisle := Merge(dto.aisle, l.aisle);
        var rack := Merge(dto.rack, l.rack);
        var shelf := Merge(dto.shelf, l.shelf);
        var bin := Merge(dto.bin, l.bin);
        var n := l.(code := dto.code.GetOr(l.code), name := dto.name.GetOr(l.name),
                    aisle := aisle, rack := rack, shelf := shelf, bin := bin,
                    locationPath := PathOr(Components(aisle, rack, shelf, bin), l.locationPath));
        Ok(st.(locations := st.locations[i := n]))
  }

  /** Some stock level at the location has a positive quantity. */
  predicate LocationStocked(levels: seq<StockLevel>, locationId: Id) {
    exists k :: 0 <= k < |levels| && levels[k].locationId == Some(locationId) && levels[k].quantityOnHand > 0.0
  }

  function RemoveLocation(st: Site, tenantId: Id, warehouseId: Id, id: Id): (r: Result<Site>)
    ensures LocateLocation(st.locations, id, tenantId, warehouseId).None? ==> r == Err(NotFound)
    ensures LocateLocation(st.locations, id, tenantId, warehouseId).Some? && LocationStocked(st.stockLevels, id)
      ==> r == Err(BadRequest)
    ensures r.Ok? <==> LocateLocation(st.locations, id, tenantId, warehouseId).Some? && !LocationStocked(st.stockLevels, id)
    ensures r.Ok? ==>
      var i := LocateLocation(st.locations, id, tenantId, warehouseId).value;
      r.value == st.(locations := st.locations[i := st.locations[i].(isActive := false)])
  {
    match LocateLocation(st.locations, id, tenantId, warehouseId)
    case None => Err(NotFound)
    case Some(i) =>
      if Count(st.stockLevels, (s: StockLevel) => s.locationId == Some(id) && s.quantityOnHand > 0.0) > 0
      then Err(BadRequest)
      else Ok(st.(locations := st.locations[i := st.locations[i].(isActive := false)]))
  }

  /** Removing a location hides it from `findOneLocation`. */
  lemma RemoveLocationHides(st: Site, tenantId: Id, warehouseId: Id, id: Id)
    requires forall i, j :: 0 <= i < j < |st.locations| ==> st.locations[i].id != st.locations[j].id
    requires RemoveLocation(st, tenantId, warehouseId, id).Ok?
    ensures FindOneLocation(RemoveLocation(st, tenantId, warehouseId, id).value, tenantId, warehouseId, id) == Err(NotFound)
  {
    var i := LocateLocation(st.locations, id, tenantId, warehouseId).value;
    var ls := RemoveLocation(st, tenantId, warehouseId, id).value.locations;
    forall j | 0 <= j < |ls|
      ensures !LocationVisible(ls[j], id, tenantId, warehouseId)
    {
      if j != i {
        assert ls[j] == st.locations[j];
        assert st.locations[j].id != st.locations[i].id;
      }
    }
  }

  // ---------------------------------------------------------------------
  // Statistics
  // ---------------------------------------------------------------------

  /** An active location of the warehouse. */
  predicate Counted(l: Location, warehouseId: Id) {
    l.warehouseId == warehouseId && l.isActive
  }

  /** An active location of the warehouse with stock on hand. */
  predicate Occupied(l: Location, warehouseId: Id, levels: seq<StockLevel>) {
    Counted(l, warehouseId) && LocationStocked(levels, l.id)
  }

  function Stats(st: Site, tenantId: Id, warehouseId: Id): (r: Result<Occupancy>)
    ensures r.Err? <==> Locate(st.warehouses, warehouseId, tenantId).None?
    ensures r.Err? ==> r.kind == NotFound
    ensures r.Ok? ==>
      && r.value.total == Count(st.locations, (l: Location) => Counted(l, warehouseId))
      && r.value.occupied == Count(st.locations, (l: Location) => Occupied(l, warehouseId, st.stockLevels))
    ensures r.Ok? ==> r.value.occupied <= r.value.total
    ensures r.Ok? ==> r.value.available >= 0 && r.value.available + r.value.occupied == r.value.total
    ensures r.Ok? ==> 0.0 <= r.value.occupancyRate <= 100.0
    ensures r.Ok? ==> (r.value.total == 0 ==> r.value.occupancyRate == 0.0)
    ensures r.Ok? ==> (r.value.total > 0 ==>
      r.value.occupancyRate == (r.value.occupied as real / r.value.total as real) * 100.0)
    ensures r.Ok? ==> (r.value.occupancyRate == 100.0 <==> r.value.total > 0 && r.value.occupied == r.value.total)
    ensures r.Ok? ==> r.value.totalItems == Count(st.stockLevels, (l: StockLevel) => InStock(l, warehouseId))
    ensures r.Ok? ==> (r.value.totalItems == 0 <==> !WarehouseStocked(st.stockLevels, warehouseId))
  {
    match Locate(st.warehouses, warehouseId, tenantId)
    case None => Err(NotFound)
    case Some(_) =>
      var total := Count(st.locations, (l: Location) => Counted(l, warehouseId));
      var occupied := Count(st.locations, (l: Location) => Occupied(l, warehouseId, st.stockLevels));
      CountMonotone(st.locations, (l: Location) => Occupied(l, warehouseId, st.stockLevels),
                    (l: Location) => Counted(l, warehouseId));
      var items := Count(st.stockLevels, (l: StockLevel) => InStock(l, warehouseId));
      Ok(Occupancy(total, occupied, total - occupied, Rate(occupied, total), items))
  }

  /** `(occupied / total) * 100`, and 0 for a warehouse without locations. */
  function Rate(occupied: nat, total: nat): (rate: real)
    requires occupied <= total
    ensures 0.0 <= rate <= 100.0
    ensures total == 0 ==> rate == 0.0
    ensures total > 0 ==> rate == (occupied as real / total as real) * 100.0
    ensures rate == 100.0 <==> total > 0 && occupied == total
  {
    if total > 0 then
      var t := total as real;
      var q := occupied as real / t;
      assert q * t == occupied as real;
      assert 0.0 <= q <= 1.0;
      q * 100.0
    else 0.0
  }

  // ---------------------------------------------------------------------
  // Properties relating several calls
  // ---------------------------------------------------------------------

  /** A visible warehouse can be removed exactly when its statistics count
      no stocked items. */
  lemma RemovableIffNoItems(st: Site, tenantId: Id, id: Id, now: Time)
    requires Locate(st.warehouses, id, tenantId).Some?
    ensures Stats(st, tenantId, id).Ok?
    ensures Remove(st, tenantId, id, now).Ok? <==> Stats(st, tenantId, id).value.totalItems == 0
  {
  }

  /** A new location adds one to the warehouse's location count and, having
      no stock yet, leaves the occupied count alone. */
  lemma CreateLocationCountsOneMore(st: Site, tenantId: Id, warehouseId: Id, dto: CreateLocationDto, newId: Id)
    requires forall i :: 0 <= i < |st.locations| ==> st.locations[i].id != newId
    requires !LocationStocked(st.stockLevels, newId)
    requires CreateLocation(st, tenantId, warehouseId, dto, newId).Ok?
    ensures Stats(st, tenantId, warehouseId).Ok?
    ensures var after := CreateLocation(st, tenantId, warehouseId, dto, newId).value;
      && Stats(after, tenantId, warehouseId).Ok?
      && Stats(after, tenantId, warehouseId).value.total == Stats(st, tenantId, warehouseId).value.total + 1
      && Stats(after, tenantId, warehouseId).value.occupied == Stats(st, tenantId, warehouseId).value.occupied
  {
    var after := CreateLocation(st, tenantId, warehouseId, dto, newId).value;
    var l := after.locations[|st.locations|];
    assert after.locations == st.locations + [l];
    CountAppend(st.locations, l, (x: Location) => Counted(x, warehouseId));
    CountAppend(st.locations, l, (x: Location) => Occupied(x, warehouseId, st.stockLevels));
  }

  /** Creating a warehouse keeps codes unique within each tenant. */
  lemma CreateKeepsCodesUnique(st: Site, tenantId: Id, dto: CreateWarehouseDto, newId: Id)
    requires forall i :: 0 <= i < |st.warehouses| ==> st.warehouses[i].id != newId
    requires CodesUnique(st.warehouses)
    requires Create(st, tenantId, dto, newId).Ok?
    ensures CodesUnique(Create(st, tenantId, dto, newId).value.warehouses)
  {
    var ws := Create(st, tenantId, dto, newId).value.warehouses;
    forall a, b | 0 <= a < b < |ws| && ws[a].tenantId == ws[b].tenantId
      ensures ws[a].code != ws[b].code
    {
      assert ws[a] == st.warehouses[a];
      if b < |st.warehouses| {
        assert ws[b] == st.warehouses[b];
      }
    }
  }

  /** A successful update keeps codes unique within each tenant. */
  lemma UpdateKeepsCodesUnique(st: Site, tenantId: Id, id: Id, dto: UpdateWarehouseDto)
    requires dto.code != Some("")
    requires CodesUnique(st.warehouses)
    requires Update(st, tenantId, id, dto).Ok?
    ensures CodesUnique(Update(st, tenantId, id, dto).value.warehouses)
  {
    var ws := Update(st, tenantId, id, dto).value.warehouses;
    var i := Locate(st.warehouses, id, tenantId).value;
    forall a, b | 0 <= a < b < |ws| && ws[a].tenantId == ws[b].tenantId
      ensures ws[a].code != ws[b].code
    {
      if a == i || b == i {
        var other := if a == i then b else a;
        assert ws[other] == st.warehouses[other];
        if dto.code.Some? && dto.code.value != st.warehouses[i].code {
          assert !CodeTaken(st.warehouses, tenantId, dto.code.value);
        } else {
          assert st.warehouses[a].code != st.warehouses[b].code;
        }
      } else {
        assert ws[a] == st.warehouses[a] && ws[b] == st.warehouses[b];
      }
    }
  }

  /** After an update, `findOne` answers with the patched warehouse. */
  lemma UpdateThenFindOne(st: Site, tenantId: Id, id: Id, dto: UpdateWarehouseDto)
    requires dto.code != Some("")
    requires IdsUnique(st.warehouses)
    requires Update(st, tenantId, id, dto).Ok?
    ensures FindOne(Update(st, tenantId, id, dto).value, tenantId, id)
      == Ok(PatchWarehouse(st.warehouses[Locate(st.warehouses, id, tenantId).value], dto))
  {
    var ws := Update(st, tenantId, id, dto).value.warehouses;
    var i := Locate(st.warehouses, id, tenantId).value;
    forall m | 0 <= m < |ws| && m != i
      ensures !Visible(ws[m], id, tenantId)
    {
      assert ws[m] == st.warehouses[m];
      assert st.warehouses[m].id != st.warehouses[i].id;
    }
    assert Locate(ws, id, tenantId) == Some(i);
  }

  /** Creating a location keeps codes unique within each warehouse. */
  lemma CreateLocationKeepsCodesUnique(st: Site, tenantId: Id, warehouseId: Id, dto: CreateLocationDto, newId: Id)
    requires forall i :: 0 <= i < |st.locations| ==> st.locations[i].id != newId
    requires LocationCodesUnique(st.locations)
    requires CreateLocation(st, tenantId, warehouseId, dto, newId).Ok?
    ensures LocationCodesUnique(CreateLocation(st, tenantId, warehouseId, dto, newId).value.locations)
  {
    var ls := CreateLocation(st, tenantId, warehouseId, dto, newId).value.locations;
    forall a, b | 0 <= a < b < |ls| && ls[a].warehouseId == ls[b].warehouseId
      ensures ls[a].code != ls[b].code
    {
      assert ls[a] == st.locations[a];
      if b < |st.locations| {
        assert ls[b] == st.locations[b];
      }
    }
  }

  /** A successful location update keeps codes unique within each
      warehouse. */
  lemma UpdateLocationKeepsCodesUnique(st: Site, tenantId: Id, warehouseId: Id, id: Id, dto: UpdateLocationDto)
    requires dto.code != Some("")
    requires LocationCodesUnique(st.locations)
    requires UpdateLocation(st, tenantId, warehouseId, id, dto).Ok?
    ensures LocationCodesUnique(UpdateLocation(st, tenantId, warehouseId, id, dto).value.locations)
  {
    var ls := UpdateLocation(st, tenantId, warehouseId, id, dto).value.locations;
    var i := LocateLocation(st.locations, id, tenantId, warehouseId).value;
    forall a, b | 0 <= a < b < |ls| && ls[a].warehouseId == ls[b].warehouseId
      ensures ls[a].code != ls[b].code
    {
      if a == i || b == i {
        var other := if a == i then b else a;
        assert ls[other] == st.locations[other];
        if dto.code.Some? && dto.code.value != st.locations[i].code {
          assert !LocationCodeTaken(st.locations, warehouseId, dto.code.value);
        } else {
          assert st.locations[a].code != st.locations[b].code;
        }
      } else {
        assert ls[a] == st.locations[a] && ls[b] == st.locations[b];
      }
    }
  }

  /** Every location `findAllLocations` lists is found by `findOneLocation`
      under its own id. */
  lemma ListedLocationsResolve(st: Site, tenantId: Id, warehouseId: Id, k: nat)
    requires LocationIdsUnique(st.locations)
    requires FindAllLocations(st, tenantId, warehouseId).Ok?
    requires k < |FindAllLocations(st, tenantId, warehouseId).value|
    ensures var l := FindAllLocations(st, tenantId, warehouseId).value[k];
      FindOneLocation(st, tenantId, warehouseId, l.id) == Ok(l)
  {
    var l := FindAllLocations(st, tenantId, warehouseId).value[k];
    ListedLocationResolves(st, tenantId, warehouseId, l);
  }

  /** An active location of the warehouse is the one found under its id. */
  lemma ListedLocationResolves(st: Site, tenantId: Id, warehouseId: Id, l: Location)
    requires LocationIdsUnique(st.locations)
    requires l in st.locations && LocationListed(l, tenantId, warehouseId)
    ensures FindOneLocation(st, tenantId, warehouseId, l.id) == Ok(l)
  {
    var j :| 0 <= j < |st.locations| && st.locations[j] == l;
    forall m | 0 <= m < |st.locations| && m != j
      ensures !LocationVisible(st.locations[m], l.id, tenantId, warehouseId)
    {
      assert st.locations[m].id != st.locations[j].id;
    }
    assert LocateLocation(st.locations, l.id, tenantId, warehouseId) == Some(j);
  }
}
